=== FILE: README.md ===
# tx-pkg-aux core, modelled in Dafny

This project models the sequential decision logic of the tx-pkg-aux
support libraries, their demos and their Python integration harness:

- the logging package: path helpers, level mapping, source locations,
  area loggers, the `%N` and `%&` formatter flags, the bounded startup
  sink and the sink registry;
- the boot package: CLI arguments, idempotent `DefaultInit` and the boot
  log header;
- the file-system drives: native, overlay and runfiles;
- the tight frame loop and its update context, and the `MultiRunner`
  demo;
- the demo HTTP/1.1 and HTTP/2 clients and the example selection of their
  `main`;
- the Asio and Beast lite clients, with `CstrView` and the WASM fetch
  clients;
- the Python runners and stub servers of the integration tests.

Each effect becomes a parameter: sockets, DNS, TLS, nghttp2 sessions,
`Rlocation`, clocks, child processes, `urlopen` and `json.loads`. The
model then states what the code decides from those outcomes. Each
operation is a pure function over immutable datatypes or a short method
with loop invariants. Lemmas tie the operations to partners: round
trips, preserved invariants, reference definitions, and comparisons
between two variants of the same code.

Files:

- `core.dfy`: `Option`, `Result` and the error codes.
- `text.dfy`: string search, decimal text, and models of `std::from_chars`, `std::stoi` and `substr`.
- `log_*.dfy`: logging.
- `cli_args.dfy` and `boot.dfy`: the boot package.
- `fs.dfy`: the drives.
- `loop.dfy` and `try_loop.dfy`: the loops.
- `http1.dfy` and `http2.dfy`: the nghttp2 demo.
- `lite_client.dfy`, `cstr_view.dfy` and `wasm_fetch.dfy`: the HTTP package.
- `harness.dfy`, `runners.dfy` and `stub_server.dfy`: the Python test harness.

## Model

| member | source | states |
|---|---|---|
| Core.ToInt | src/pkg-http/Http/Impl/AsioLiteClient.cpp:450-453 | The status is `result_int()` cast to `int`. The cast is modular: values up to `INT_MAX` are unchanged and the result is always in `int` range. |
| Text.Find | demo/try/http-nghttp2/Http1Client.cpp:98-104 | `find` returns the first position at or after `from` where the pattern occurs, or npos when there is none. |
| Text.FindLastOf | src/pkg-log/Log/Path.cpp:7-12 | `find_last_of` returns the last position holding one of the characters, or npos when none does. |
| Text.NatToDecimal | src/pkg-boot/Boot/Boot.LogHeader.cpp:89-92 | Decimal text of an index: non-empty digits with no leading zero. |
| Text.IntToDecimal | src/pkg-boot/Boot/CliArgs.cpp:19-23 | Decimal text of an `int`: a leading '-' exactly for negative values. |
| Text.NatDecimalRoundTrip | src/pkg-boot/Boot/Boot.LogHeader.cpp:89-92 | The digits of a printed natural read back as that natural. |
| Text.DigitRun | src/pkg-boot/Boot/CliArgs.cpp:19-22 | The maximal run of digits at a position: all digits, ended by the text's end or a non-digit. |
| Text.FromChars | src/pkg-boot/Boot/CliArgs.cpp:19-22 | `std::from_chars` for `int`: `invalid_argument` iff there is no digit after the optional '-'; `result_out_of_range` iff the digits overflow `int`; otherwise the value of the longest numeric prefix. |
| Text.FromCharsRoundTrip | src/pkg-boot/Boot/CliArgs.cpp:19-23 | The decimal text of every `int` parses back to that `int`. |
| Text.FromCharsIgnoresTail | src/pkg-boot/Boot/CliArgs.cpp:19-23 | Text after the numeric prefix does not change the result ("12ab" parses as "12"). |
| Text.SizeWrap | src/pkg-boot/Boot/Boot.LogHeader.cpp:58-63 | `size_t` arithmetic on positions wraps modulo 2^64 (`npos + 1` is 0). |
| Text.SubStr | src/pkg-boot/Boot/Boot.LogHeader.cpp:60-63 | `substr(pos, count)` throws `out_of_range` iff `pos` exceeds the size. Otherwise it returns the text at `pos`, clamped to `count` characters. |
| Text.SkipSpace | demo/try/http-nghttp2/Http1Client.cpp:120 | `std::stoi` skips leading white space: the run skipped is all space and ends at a non-space. |
| Text.Stoi | demo/try/http-nghttp2/Http1Client.cpp:120 | `std::stoi` on text it accepts yields an `int`-range value. |
| Text.StoiRoundTrip | demo/try/http-nghttp2/Http2Client.cpp:50-53 | The decimal text of any non-negative `int` is accepted by `std::stoi` and read back to that number. |
| Text.StoiOfParts | demo/try/http-nghttp2/Http1Client.cpp:120 | On white space, an optional sign, a digit run and a tail that does not start with a digit, `std::stoi` reads the digits after the white space and the sign, reads the whole run, and negates only for '-'. |
| Text.StoiAt | demo/try/http-nghttp2/Http1Client.cpp:120 | The same reading in positions: the digits start after the white space, plus one when a sign follows it. |
| Text.StoiReadsInt | demo/try/http-nghttp2/Http2Client.cpp:50-53 | Every `int`'s decimal text, after any white space and before any tail that does not start with a digit, is accepted and read back as that `int`. |
| Text.StoiReadsPlus | demo/try/http-nghttp2/Http1Client.cpp:120 | A '+' before the digits is accepted and does not change the value. |
| Text.FormatOne | src/pkg-boot/Boot/Boot.LogHeader.cpp:40 | A template of one literal and one placeholder prints the literal followed by the argument. |
| LogPath.GetBasename | src/pkg-log/Log/Path.cpp:5-13 | The result is a separator-free suffix of the path. It is the whole path when there is no '/' or '\\'. Otherwise it starts right after the last separator. |
| LogPath.GetWithoutExtension | src/pkg-log/Log/Path.cpp:15-23 | The result is a prefix of the path. It is the whole path when there is no '.'. Otherwise it ends at the last '.', and no '.' follows that one. |
| LogPath.WithoutExtensionUnique | src/pkg-log/Log/Path.cpp:15-23 | The cut at the last '.' is determined: no other prefix of the path qualifies. |
| LogPath.BasenameIdempotent | src/pkg-log/Log/Path.cpp:7-12 | Taking the basename twice equals taking it once. |
| LogPath.BasenameOfTrailingSeparator | src/pkg-log/Log/Path.cpp:12 | A path ending in a separator has the empty basename. |
| LogPath.BasenameAfter | src/pkg-log/Log/Path.cpp:7-12 | When the last separator is at position k, the basename is exactly the text after k. |
| LogPath.WithoutExtensionAt | src/pkg-log/Log/Path.cpp:17-22 | When the last '.' is at position k, the name without extension is exactly the text before k. |
| LogPath.BasenameOfJoin | src/pkg-log/Log/Path.cpp:7-12 | A separator-free file name joined onto a directory that ends in a separator is the basename of the join. |
| LogPath.WithoutExtensionOfJoin | src/pkg-log/Log/Path.cpp:17-22 | A stem followed by a '.'-led extension with no further '.' loses exactly the extension. |
| LogPath.WithoutExtensionDropsLastOnly | src/pkg-log/Log/Path.cpp:22 | "a.tar.gz" loses only ".gz", and the basename of "src/pkg-log/Log/Log.cpp" is "Log.cpp". |
| LogLevel.Ordinal | src/pkg-log/Log/Level.h:6-14 | The six levels have ordinals 0 to 5, Trace lowest. |
| LogLevel.SpdOrdinal | src/pkg-log/Log/Level.h:19-33 | spdlog's seven levels have ordinals 0 to 6, off highest. |
| LogLevel.SpdFromOrdinal | src/pkg-log/Log/Level.h:32 | Every spdlog ordinal names exactly one spdlog level. |
| LogLevel.ToSpdLevel | src/pkg-log/Log/Level.h:32 | The mapping is the ordinal cast, and it never yields off. |
| LogLevel.CastMatchesDocumentedMapping | src/pkg-log/Log/Level.h:21-28 | The cast yields the mapping the switch in the comment spells out (Error to err, Fatal to critical). |
| LogLevel.ToSpdLevelKeepsOrder | src/pkg-log/Log/Level.h:32 | The mapping preserves and reflects order, and it is injective. |
| LogSrc.AtCallSite | src/pkg-log/Log/Src.h:20-23 | A call-site location captures file, line and function, with default mode All. |
| LogSrc.ToSpdLoc | src/pkg-log/Log/Src.h:25-31 | The file name and line are copied. The function name is null iff the mode is NoFunc, and is the captured name under mode All. |
| LogSrc.CallSiteReachesSpdlog | src/pkg-log/Log/Src.h:20-31 | A call site reaches spdlog with its file, line and function. `NoFunc` drops only the function name. |
| Logger.Logger.Enabled | src/pkg-log/Log/Log.h:128-131 | A logger is enabled for a level iff the mapped level reaches the threshold (`should_log`). |
| Logger.Logger.MsgLoc | src/pkg-log/Log/Log.h:134-152 | An area logger rewrites the location to file = area and line = -1, keeping the function name. Without an area the location passes through. The level is mapped and the text kept. |
| Logger.Logger.MsgVia | src/pkg-log/Log/Log.h:154-165 | The logger-first overload applies the passed logger's area rule. |
| Logger.Logger.MsgSrc | src/pkg-log/Log/Log.h:167-182 | The `Src` overload applies the area rule to the converted location. The function name is null iff the mode is NoFunc. |
| Logger.Logger.Msg | src/pkg-log/Log/Log.h:184-188 | The `FmtMsg` overload logs the message's text at the mapped level with the area rule. |
| Logger.Logger.Trace | src/pkg-log/Log/Log.h:190-195 | The member helper logs at trace. |
| Logger.Logger.Debug | src/pkg-log/Log/Log.h:196-201 | The member helper logs at debug. |
| Logger.Logger.Info | src/pkg-log/Log/Log.h:202-207 | The member helper logs at info. |
| Logger.Logger.Warn | src/pkg-log/Log/Log.h:208-213 | The member helper logs at warn. |
| Logger.Logger.Error | src/pkg-log/Log/Log.h:214-219 | The member helper logs at err. |
| Logger.Logger.Fatal | src/pkg-log/Log/Log.h:220-224 | The member helper logs at critical. |
| Logger.Enabled | src/pkg-log/Log/Log.h:54-57 | The free `Enabled` holds iff the mapped level reaches the default logger's threshold. |
| Logger.Msg | src/pkg-log/Log/Log.h:59-82 | The free `Msg` logs at the caller's file, line and function, and honours NoFunc. For lines within `int` range, a location line never equals the area line -1. |
| Logger.MsgFmt | src/pkg-log/Log/Log.h:59-82 | The free `FmtMsg` overload keeps the mapped level and the text. |
| Logger.Trace | src/pkg-log/Log/Log.h:84-88 | The free helper logs at trace. |
| Logger.Debug | src/pkg-log/Log/Log.h:90-94 | The free helper logs at debug. |
| Logger.Info | src/pkg-log/Log/Log.h:96-100 | The free helper logs at info. |
| Logger.Warn | src/pkg-log/Log/Log.h:102-106 | The free helper logs at warn. |
| Logger.Error | src/pkg-log/Log/Log.h:108-112 | The free helper logs at err. |
| Logger.Fatal | src/pkg-log/Log/Log.h:114-118 | The free helper logs at critical. |
| Logger.LogMsg | src/pkg-log/Log/Log.h:237-243 | The macro logs at the call site's file, line and function, at the mapped level. |
| Logger.OverloadsAgree | src/pkg-log/Log/Log.h:134-188 | The `Src`, location, logger-first and `FmtMsg` overloads produce the same record. |
| Logger.DefaultIsPassThrough | src/pkg-log/Log/Log.h:235 | The area-less default logger's members equal the free functions. |
| Logger.EnabledMonotone | src/pkg-log/Log/Log.h:54-57 | A higher level is enabled whenever a lower one is, for the free function and for every logger. |
| LogFormat.LoggerFlag | src/pkg-log/Log/Log.cpp:20-42 | `%N` prints the file name verbatim when the line is -1. Otherwise it prints the basename cut at its last '.' (the whole basename when it has no '.'), which holds no separator. |
| LogFormat.ShortFileName | src/pkg-log/Log/Log.cpp:20-42 | Without an area, a record from dir + stem + ext prints `stem` under `%N`. Here dir ends in a separator, stem and ext hold none, and ext is a '.' followed by text without '.'. |
| LogFormat.LoggerFlagShortFileName | src/pkg-log/Log/Log.cpp:20-42 | Without an area, "src/pkg-log/Log/Log.cpp" prints "Log" and a backslash path to "Boot.LogHeader.cpp" prints "Boot.LogHeader". |
| LogFormat.NameEnd | src/pkg-log/Log/Log.cpp:80-83 | The short name ends at the first '(' or at the end. |
| LogFormat.NameStart | src/pkg-log/Log/Log.cpp:86-93 | The short name starts after the last ' ' or ':' before its end. |
| LogFormat.ShortNameSpan | src/pkg-log/Log/Log.cpp:78-97 | The span is bounded by the first '(' and by the last delimiter before it, and holds no delimiter. |
| LogFormat.ExtractShortName | src/pkg-log/Log/Log.cpp:96 | The extracted name contains no ' ', ':' or '(' and is the text of that span. |
| LogFormat.FunctionNameFlag | src/pkg-log/Log/Log.cpp:62-70 | `%&` prints nothing iff the function name is null. Otherwise it prints the short name followed by ": ". |
| LogFormat.ShortNameSpanUnique | src/pkg-log/Log/Log.cpp:78-97 | Any span with those boundary properties is the computed one, so the properties define the extraction. |
| LogFormat.ExtractShortNameExample | src/pkg-log/Log/Log.cpp:78-97 | "void Ns::Client::Run(int)" gives "Run". |
| LogFormat.AreaLoggerPrintsArea | src/pkg-log/Log/Log.h:137-140 | End to end, a message from an area logger prints the area name for `%N`. |
| LogFormat.NoFuncPrintsNothing | src/pkg-log/Log/Src.h:30 | A NoFunc location prints nothing for `%&`, through a logger or the free `Msg`. |
| LogFormat.LoggerFlagIgnoresLine | src/pkg-log/Log/Log.cpp:30-34 | Apart from the area marker, the line number does not affect `%N`. |
| StartupSink.New | src/pkg-log/Log/StartupSink.h:15-17 | A new sink is empty, with the given capacity. |
| StartupSink.LastN | src/pkg-log/Log/StartupSink.h:39-42 | At most n of the newest messages are kept. |
| StartupSink.SinkIt | src/pkg-log/Log/StartupSink.h:36-43 | After `sink_it_` the buffer holds the newest messages, at most capacity many, oldest dropped first. |
| StartupSink.SinkAll | src/pkg-log/Log/StartupSink.h:36-43 | Sinking a sequence keeps the buffer within capacity. |
| StartupSink.LastNOfLastN | src/pkg-log/Log/StartupSink.h:39-42 | Trimming before appending equals trimming after. |
| StartupSink.SinkAllKeepsNewest | src/pkg-log/Log/StartupSink.h:39-43 | After any sequence, the buffer is the last capacity-many of all messages, in arrival order. |
| StartupSink.LastNAppend | src/pkg-log/Log/StartupSink.h:39-43 | Trimming a prefix early does not change the final window. |
| StartupSink.FreshSinkKeepsNewest | src/pkg-log/Log/StartupSink.h:15-43 | A fresh sink keeps the newest capacity-many messages, and all of them when they fit. |
| StartupSink.ReplayTo | src/pkg-log/Log/StartupSink.h:20-26 | Replay delivers the buffer in order after what the target already had, and leaves the buffer as it was. |
| StartupSink.ClearBuffer | src/pkg-log/Log/StartupSink.h:29-33 | Clearing empties the buffer and keeps the capacity. |
| LogSinks.Erase | src/pkg-log/Log/Sink.cpp:25 | The sink is erased everywhere. Every other sink keeps its multiplicity. |
| LogSinks.EraseDistributes | src/pkg-log/Log/Sink.cpp:25 | Erasing preserves the order of the remaining sinks: it distributes over concatenation. |
| LogSinks.AddSink | src/pkg-log/Log/Sink.cpp:7-19 | Without a default logger nothing happens. Otherwise the sink is appended, after the startup buffer is replayed to it and cleared. |
| LogSinks.RemoveSink | src/pkg-log/Log/Sink.cpp:21-27 | Without a default logger nothing happens. Otherwise every entry equal to the sink is removed and the others stay. |
| LogSinks.Emit | src/pkg-log/Log/StartupSink.h:36-43 | Logging a message leaves the sink list alone and keeps the startup sink's presence and capacity. |
| LogSinks.EmitAll | src/pkg-log/Log/StartupSink.h:36-43 | Logging a sequence feeds it to the startup sink. |
| LogSinks.LaterAddSinkReplaysOnlyNewer | src/pkg-log/Log/Sink.cpp:11-15 | A second `AddSink` replays only what was logged after the first. |
| LogSinks.RemoveUnknownSinkIsNoOp | src/pkg-log/Log/Sink.cpp:21-27 | Removing an unregistered sink changes nothing. |
| LogSinks.AddThenRemove | src/pkg-log/Log/Sink.cpp:7-27 | Adding then removing a sink leaves the list with that sink erased. |
| CliArgs.FromArgv | src/pkg-boot/Boot/CliArgs.h:13-18 | The arguments are argv[0..argc), in order. |
| CliArgs.Contains | src/pkg-boot/Boot/CliArgs.cpp:7-10 | True iff some argument equals the text, so never on empty arguments. |
| CliArgs.GetIntArg | src/pkg-boot/Boot/CliArgs.cpp:12-24 | An index past the end gives `invalid_argument`. Otherwise the result is `from_chars` of that argument, an `int` on success. |
| CliArgs.GetIntArgRoundTrip | src/pkg-boot/Boot/CliArgs.cpp:19-23 | An argument holding the decimal text of an `int` reads back as that `int`. |
| CliArgs.GetIntArgReadsLeadingDigits | src/pkg-boot/Boot/CliArgs.cpp:19-23 | "12ab" reads as 12. |
| CliArgs.GetIntArgRejects | src/pkg-boot/Boot/CliArgs.cpp:14-22 | "ab" and a missing index both give `invalid_argument`. |
| BootHeader.GetAppName | src/pkg-boot/Boot/Boot.LogHeader.cpp:28-35 | No arguments give "<unknown>". Otherwise the name is the basename of args[0] cut at its last '.' (the whole basename when it has no '.'), and it holds no separator. |
| BootHeader.GetAppNameArgv | src/pkg-boot/Boot/Boot.cpp:16-23 | Any argc of 0 or less gives "<unknown>". Otherwise the name is the basename of argv[0] cut at its last '.', and it holds no separator. |
| BootHeader.AppNameExample | src/pkg-boot/Boot/Boot.LogHeader.cpp:28-35 | "bin/tool.v2.exe" gives "tool.v2", and no arguments give "<unknown>". |
| BootHeader.AppNameVariantsAgree | src/pkg-boot/Boot/Boot.cpp:16-23 | The argv variant and the `CliArgs` variant give the same name. |
| BootHeader.Sha7 | src/pkg-boot/Boot/Boot.LogHeader.cpp:53 | The hash is shortened to its first min(7, size) characters. |
| BootHeader.DirtyMark | src/pkg-boot/Boot/Boot.LogHeader.cpp:56 | "*" appears iff the status is "dirty". |
| BootHeader.SplitBuildTimeAsWritten | src/pkg-boot/Boot/Boot.LogHeader.cpp:58-63 | With `size_t` wrap-around, the split throws `out_of_range` iff the time has no '+' or '-'. |
| BootHeader.SplitBuildTime | src/pkg-boot/Boot/Boot.LogHeader.cpp:58-63 | The corrected split: date, 'T', time of day and zone concatenate back to the stamp. The zone is non-empty iff a sign follows the 'T'. |
| BootHeader.SplitAgreesWhenStamped | src/pkg-boot/Boot/Boot.LogHeader.cpp:58-63 | On stamped times the corrected split equals the written one. |
| BootHeader.UnstampedBuildTimeTerminates | src/pkg-boot/Boot/Boot.LogHeader.cpp:58-63 | "unknown" makes the written split throw, and the corrected one keeps it as the date. |
| BootHeader.SplitBuildTimeRoundTrip | src/pkg-boot/Boot/Boot.LogHeader.cpp:58-63 | Splitting a stamp built from a date without 'T', a time of day without a sign and a sign-led zone gives back exactly those three parts. |
| BootHeader.SplitBuildTimeExample | src/pkg-boot/Boot/Boot.LogHeader.cpp:58 | "2026-01-26T21:50:00+01:00" splits into "2026-01-26", "21:50:00" and "+01:00". |
| BootHeader.VersionTemplateFills | src/pkg-boot/Boot/Boot.LogHeader.cpp:65-68 | Filling the version template with eight texts places them between its literal pieces, in order. |
| BootHeader.VersionText | src/pkg-boot/Boot/Boot.LogHeader.cpp:65-68 | For any time parts, the version line is the template filled with date, time of day, zone, branch, dirty mark, short hash, user and host, in that order. |
| BootHeader.VersionLine | src/pkg-boot/Boot/Boot.LogHeader.cpp:58-68 | The corrected version line: the "║ Version:" template filled with the corrected split's date, time of day and zone, then the branch, "*" for a dirty tree, the 7-character hash, the user and the host. It starts with the date. |
| BootHeader.VersionLineAsWritten | src/pkg-boot/Boot/Boot.LogHeader.cpp:58-68 | As written, no version line is produced (an exception) iff the build time has no '+' or '-'. Otherwise it is the template filled from the written split. |
| BootHeader.VersionLinesAgreeWhenStamped | src/pkg-boot/Boot/Boot.LogHeader.cpp:58-68 | On stamped build times, the written version line is the corrected one. |
| BootHeader.VersionLineExample | src/pkg-boot/Boot/Boot.LogHeader.cpp:58-68 | A dirty build stamped "2026-01-26T21:50:00+01:00" prints date, time and zone apart, "*" and the first 7 hash characters. |
| BootHeader.Pad2 | src/pkg-boot/Boot/Boot.LogHeader.cpp:77 | `setw(2)` with fill '0': left zeros up to width 2, and the digits are kept. |
| BootHeader.Pad2Value | src/pkg-boot/Boot/Boot.LogHeader.cpp:77 | Zero padding keeps the number's value. |
| BootHeader.ReadTzOffset | src/pkg-boot/Boot/Boot.LogHeader.cpp:76-77 | Reads a "±HH:MM" offset back into minutes. |
| BootHeader.TzOffsetAsWritten | src/pkg-boot/Boot/Boot.LogHeader.cpp:76-77 | The written text has the sign of the offset, then the whole hours, then ":00". It reads back as the offset rounded toward zero to whole hours. |
| BootHeader.TzOffset | src/pkg-boot/Boot/Boot.LogHeader.cpp:76-77 | The corrected text has the sign and reads back as exactly the offset. |
| BootHeader.TzOffsetDropsMinutes | src/pkg-boot/Boot/Boot.LogHeader.cpp:76-77 | Offsets 330 and 300 print alike as written. The corrected text keeps 330. |
| BootHeader.TzOffsetInjective | src/pkg-boot/Boot/Boot.LogHeader.cpp:76-77 | Distinct offsets print differently when corrected. |
| BootHeader.TzOffsetWholeHours | src/pkg-boot/Boot/Boot.LogHeader.cpp:76-77 | Whole-hour offsets print the same as written and corrected. |
| BootHeader.CommandLine | src/pkg-boot/Boot/Boot.LogHeader.cpp:90-91 | A command line starts with the command prefix and ends with the argument. |
| BootHeader.CommandTemplateFills | src/pkg-boot/Boot/Boot.LogHeader.cpp:91 | The command template places the index and the argument after "║  [" and "] ". |
| BootHeader.CommandLineReadsBack | src/pkg-boot/Boot/Boot.LogHeader.cpp:90-91 | The index and the argument can be read back from a command line. |
| BootHeader.CommandLines | src/pkg-boot/Boot/Boot.LogHeader.cpp:89-92 | One line per argument, in order, each with its index. |
| BootHeader.DirectoryLine | src/pkg-boot/Boot/Boot.LogHeader.cpp:80-87 | The Directory line holds the current path, or the error's message inside "<error: …>". |
| BootHeader.HeaderLines | src/pkg-boot/Boot/Boot.LogHeader.cpp:39-92 | Six fixed lines (App, Compile, version, Runtime, Directory, Command) from their texts, then one line per argument. |
| BootHeader.LogHeader | src/pkg-boot/Boot/Boot.LogHeader.cpp:37-92 | The corrected header: the App line, the Compile line, the corrected version line, the Runtime line with the local time and the corrected offset, the Directory line, "║ Command:", then one line per argument. |
| BootHeader.LogHeaderAsWritten | src/pkg-boot/Boot/Boot.LogHeader.cpp:37-92 | As written, the header terminates after the App and Compile lines iff the build time has no '+' or '-'. Otherwise it logs the written version line, and the Runtime line with ":00" minutes. All other lines are the corrected header's. |
| BootHeader.HeaderAsWrittenAgrees | src/pkg-boot/Boot/Boot.LogHeader.cpp:37-92 | With a stamped build time and a whole-hour offset, the written header is the corrected one. |
| BootHeader.UnknownBuildTimeTerminatesHeader | src/pkg-boot/Boot/Boot.LogHeader.cpp:37-63 | The build time "unknown" terminates the program after two header lines. |
| BootHeader.HeaderDropsOffsetMinutes | src/pkg-boot/Boot/Boot.LogHeader.cpp:71-78 | As written, offsets 330 and 300 give the same Runtime line. The corrected lines differ. |
| BootHeader.HeaderRecord | src/pkg-boot/Boot/Boot.LogHeader.cpp:19-26 | Each header line is logged at info by the "Boot" area logger with no function name. |
| BootHeader.LogHeaderArgv | src/pkg-boot/Boot/Boot.cpp:25-47 | The argv variant: the App line, the Build line, the Runtime line with the local time and no offset, the Directory line ("" when `getcwd` fails), "║ Command:", then argv[0..argc) enumerated. A non-positive argc enumerates nothing. |
| BootHeader.HeaderRecordArgv | src/pkg-boot/Boot/Boot.cpp:9-14 | The argv variant logs at info at the call site with NoFunc. |
| BootHeader.HeaderVariantsAgree | src/pkg-boot/Boot/Boot.cpp:25-47 | Apart from its Directory line, the `CliArgs` header carries the argv header's lines. |
| BootInit.DefaultInit | src/pkg-boot/Boot/Boot.DefaultInit.cpp:8-18 | The first call stores and returns the arguments and logs the header once. Later calls return the stored arguments and ignore their inputs. |
| BootInit.RunAll | src/pkg-boot/Boot/Boot.DefaultInit.cpp:8-18 | Every call returns one argument list. |
| BootInit.RunAllAfterInit | src/pkg-boot/Boot/Boot.DefaultInit.cpp:10-12 | Once initialised, the state never changes and every call returns the stored arguments. |
| BootInit.RepeatedInitRunsOnce | src/pkg-boot/Boot/Boot.DefaultInit.cpp:8-18 | Over any sequence of calls the header and the abort handlers run exactly once, and every call returns the first call's arguments. |
| Fs.Join | src/pkg-fs/Fs/NativeDrive.cpp:14-18 | `prefix / path`: an absolute path replaces the prefix. Otherwise the result starts with the prefix, adds one '/' when needed and ends with the path. |
| Fs.Runfiles.Rlocation | src/pkg-fs/Fs/RunfilesDrive.cpp:47-50 | An unknown key maps to the empty path. |
| Fs.MakeRunfilesDrive | src/pkg-fs/Fs/RunfilesDrive.cpp:15-27 | The runfiles instance is created from argv[0], or from "" without arguments. |
| Fs.IsSupported | src/pkg-fs/Fs/RunfilesDrive.cpp:36-39 | Supported iff a runfiles instance exists. |
| Fs.RunfilesDriveLookup | src/pkg-fs/Fs/RunfilesDrive.cpp:15-50 | A drive made from the arguments is supported iff the runfiles could be created. Unsupported drives answer `not_supported`. Supported ones answer the manifest entry for "<workspace>/<path>", or `no_such_file_or_directory`. |
| Fs.RunfileKey | src/pkg-fs/Fs/RunfilesDrive.cpp:47-48 | The key is the workspace name, then '/', then the path. |
| Fs.GetNativePath | src/pkg-fs/Fs/NativeDrive.cpp:10-19 | A native drive never fails. A runfiles drive gives `not_supported` iff it has no instance, and `no_such_file_or_directory` for an empty location. |
| Fs.OverlayFirstSuccess | src/pkg-fs/Fs/OverlayDrive.cpp:13-21 | The first drive that succeeds decides the result, and later drives are not consulted. |
| Fs.OverlayAllFail | src/pkg-fs/Fs/OverlayDrive.cpp:11-26 | When every drive fails, the error is that of the last non-null drive. |
| Fs.OverlayChoosesFirstSuccess | src/pkg-fs/Fs/OverlayDrive.cpp:9-27 | The overlay returns the first success in drive order, and the last error when all drives fail. |
| Fs.EmptyOverlayFindsNothing | src/pkg-fs/Fs/OverlayDrive.cpp:11-16 | Only null drives give `no_such_file_or_directory`. |
| Fs.LastErrorOfNulls | src/pkg-fs/Fs/OverlayDrive.cpp:11 | Null drives never replace the initial error. |
| Fs.NativeAndOverlayExamples | src/pkg-fs/Fs/NativeDrive.cpp:14-18 | "/prefix" joined with "subdir/file.txt" gives "/prefix/subdir/file.txt". The first of two native drives wins. |
| Fs.UnsupportedRunfilesFallsBack | src/pkg-fs/Fs/OverlayDrive.cpp:13-24 | An unsupported runfiles drive falls through to the next drive. |
| UpdateCtx.ToMicroseconds | src/pkg-app/App/Loop/UpdateCtx.cpp:31-32 | `duration_cast` to microseconds truncates toward zero. |
| UpdateCtx.Initialize | src/pkg-app/App/Loop/UpdateCtx.cpp:9-20 | Index 0, the frame starts at the session start, zero delta and zero passed, in nanoseconds and in microseconds (`passedUs` at line 18). |
| UpdateCtx.TickAsWritten | src/pkg-app/App/Loop/UpdateCtx.cpp:22-38 | Tick adds 1 to the index. It sets delta to now minus the old frame start, before moving the frame start to now, and `deltaUs` to delta in microseconds. It sets passed to now minus the unchanged session start. `passedUs` keeps its value. |
| UpdateCtx.Tick | src/pkg-app/App/Loop/UpdateCtx.cpp:22-38 | The corrected tick equals the written one in every field except `passedUs`, which is passed cast to microseconds. |
| UpdateCtx.TickAllAsWritten | src/pkg-app/App/Loop/UpdateCtx.cpp:22-38 | As written, k ticks add k to the index and keep the session start and `passedUs`. |
| UpdateCtx.PassedUsStaysZero | src/pkg-app/App/Loop/UpdateCtx.cpp:18-28 | As written, `passedUs` is 0 after any ticks from `Initialize`. After one tick 1000 ns in, passed is 1000 while `passedUs` reads 0, where the corrected tick reads 1. |
| UpdateCtx.TickAll | src/pkg-app/App/Loop/UpdateCtx.cpp:22-38 | k corrected ticks add k to the index and keep the session start. They preserve `passedUs` being passed in microseconds. |
| UpdateCtx.Deltas | src/pkg-app/App/Loop/UpdateCtx.cpp:31 | There is one delta per clock reading. |
| UpdateCtx.TickAllFrames | src/pkg-app/App/Loop/UpdateCtx.cpp:24-37 | After k ticks the frame start has moved by the sum of the deltas. The last delta and passed follow the last reading. |
| UpdateCtx.PassedIsSumOfDeltas | src/pkg-app/App/Loop/UpdateCtx.cpp:24-37 | From `Initialize`, passed equals the sum of the deltas, and with the corrected tick `passedUs` is passed in microseconds. On a monotone clock every delta is non-negative. |
| UpdateCtx.MonotoneDeltas | src/pkg-app/App/Loop/UpdateCtx.cpp:31 | A monotone clock gives non-negative deltas. |
| Loop.Finish | src/pkg-app/App/Loop/TightLooper.cpp:22-25 | `Finish` only clears the running flag. |
| Loop.FirstFalse | src/pkg-app/App/Loop/TightLooper.cpp:13-16 | This is the position of the first `Update` that answers false. |
| Loop.Frames | src/pkg-app/App/Loop/TightLooper.cpp:10-16 | No frame runs when `Started` calls `Finish`. Otherwise frames run up to and including the first `Update` that answers false. |
| Loop.Iterations | src/pkg-app/App/Loop/TightLooper.cpp:13-16 | Each iteration is a Tick followed by an Update. |
| Loop.Start | src/pkg-app/App/Loop/TightLooper.cpp:5-20 | `Started` runs once, then Tick and Update repeat while `Update` is true, then `Stopping` runs once. A `Finish` inside `Started` skips the loop, giving Started then Stopping. Otherwise the frame count is the first false's position plus one. Running is false at the end. Each frame ticks as written (`UpdateCtx.TickAsWritten`), so after at least one frame passed is the last reading minus the first, while `passedUs` stays 0. |
| Loop.FuncHandler | src/pkg-app/App/Loop/IRunner.h:47-59 | `Started` answers true, `Update` answers the action's result, and nothing else happens. |
| Loop.RunFuncHandler | src/pkg-app/App/Loop/TightRunner.cpp:5-20 | Driving a `FuncHandler` runs exactly up to and including the action's first false answer. |
| Loop.FinishInsideUpdateIsOverwritten | src/pkg-app/App/Loop/TightLooper.cpp:15 | A `Finish` called inside `Update` does not change the trace: the return value of `Update` overwrites it. |
| TryLoop.CompositeInvoke | demo/try-loop/main.cpp:67-85 | The actions are called in insertion order. The result is the last action's, or the zero value when there are none. |
| TryLoop.StartAll | demo/try-loop/main.cpp:202-208 | Every item is started, in list order. |
| TryLoop.UpdateAll | demo/try-loop/main.cpp:209-214 | `elapsed` is forwarded to every item, in list order. |
| TryLoop.CompleteAll | demo/try-loop/main.cpp:215-221 | Every item is completed, in list order. |
| TryLoop.Without | demo/try-loop/main.cpp:178-183 | Unlinking keeps exactly the other items. |
| TryLoop.Add | demo/try-loop/main.cpp:187-193 | The item is appended, and started iff the runner is running. |
| TryLoop.AddedWhileRunningIsCompleted | demo/try-loop/main.cpp:187-221 | An item added to a running runner is started at once, and the next `Complete` completes it last. |
| TryLoop.Remove | demo/try-loop/main.cpp:194-200 | The item is completed iff the runner is running, and is then unlinked. |
| TryLoop.Unlink | demo/try-loop/main.cpp:178-183 | The destructor's auto-unlink removes the item without completing it. |
| TryLoop.MultiStart | demo/try-loop/main.cpp:202-208 | `Start` sets running and starts every item. |
| TryLoop.MultiUpdate | demo/try-loop/main.cpp:209-214 | `Update` changes no state and forwards `elapsed` to every item. |
| TryLoop.MultiComplete | demo/try-loop/main.cpp:215-221 | `Complete` completes every item and then clears running. |
| TryLoop.StartUpdateCompleteRestoresIdle | demo/try-loop/main.cpp:202-221 | Start, update and complete bring the runner back to idle with the same items. Every item is started, updated and completed in list order, one phase after the other. |
| TryLoop.SimpleStart | demo/try-loop/main.cpp:233-249 | `SimpleRunner::Start` starts the items, makes exactly three updates and then completes through the base `Complete`, not the override, so the override's note is not added. |
| TryLoop.SimpleComplete | demo/try-loop/main.cpp:245-249 | The override logs and then completes every item. |
| TryLoop.SimpleCompleteAddsNote | demo/try-loop/main.cpp:245-249 | The override differs from the base `Complete` only by its leading note. |
| TryLoop.AddRemoveIdle | demo/try-loop/main.cpp:187-200 | On an idle runner, adding then removing an item restores the runner and calls nothing. |
| TryLoop.RemoveVersusUnlink | demo/try-loop/main.cpp:178-200 | Removing and unlinking leave the same list. Only a running `Remove` completes the item. |
| TryLoop.WithoutAbsent | demo/try-loop/main.cpp:178-183 | Unlinking an item that is not listed changes nothing. |
| TryLoop.WithoutAppend | demo/try-loop/main.cpp:178-183 | Unlinking preserves the order of the remaining items. |
| TryLoop.RunDemo | demo/try-loop/main.cpp:267-283 | The demo returns argc - 1 and ends with the runner idle. Its trace is start, updates 1 to 3, then complete. |
| Http1.HeaderEnd | demo/try/http-nghttp2/Http1Client.cpp:98-104 | The header block ends at the first "\r\n\r\n" (offset 4). Only when there is none does it end at the first "\n\n" (offset 2). |
| Http1.StatusText | demo/try/http-nghttp2/Http1Client.cpp:113-121 | There is a status text iff the header block holds two spaces. It is then the space-free text between the first space and the next one. |
| Http1.ParseHttpResponse | demo/try/http-nghttp2/Http1Client.cpp:95-122 | Headers are the text before the separator and the body the text after it. Without a separator the headers are everything and the body keeps its prior value. The status is `stoi` of the status text, or unchanged without one. |
| Http1.SplitIsPartition | demo/try/http-nghttp2/Http1Client.cpp:106-111 | The headers, the separator and the body together make up the raw response. |
| Http1.NoCarriageReturnIsSeparatorFree | demo/try/http-nghttp2/Http1Client.cpp:98 | Text without '\r' cannot hold "\r\n\r\n". |
| Http1.SplitRoundTrip | demo/try/http-nghttp2/Http1Client.cpp:98-111 | H + "\r\n\r\n" + B, with H free of the separator, parses back to headers H and body B. |
| Http1.NoSeparatorKeepsBody | demo/try/http-nghttp2/Http1Client.cpp:106-111 | Without either separator, the headers are the whole text and the body is untouched. |
| Http1.LfLfFallback | demo/try/http-nghttp2/Http1Client.cpp:101-104 | "H\n\nB" splits at "\n\n". |
| Http1.StatusTextBetweenSpaces | demo/try/http-nghttp2/Http1Client.cpp:113-119 | The text between the first and second space is the status text. |
| Http1.StatusOfStatusLine | demo/try/http-nghttp2/Http1Client.cpp:113-121 | "HTTP/1.1 <code> <reason>" gives status code <code>. |
| Http1.Request | demo/try/http-nghttp2/Http1Client.cpp:170-177 | The request is "GET ", the path, " HTTP/1.1\r\nHost: ", the host, then the Connection and User-Agent lines and a blank line. |
| Http1.RequestIsHeadOnly | demo/try/http-nghttp2/Http1Client.cpp:170-177 | The request is a header block terminated by "\r\n\r\n", with no body. |
| Http1.RequestTargetReadsBack | demo/try/http-nghttp2/Http1Client.cpp:170-177 | A parser of the request line finds the path between its first two spaces. |
| Http1.ReceiveHttpResponse | demo/try/http-nghttp2/Http1Client.cpp:70-92 | The loop returns all chunks read before the first read of 0 or less, concatenated in order. |
| Http1.MakeHttpRequest | demo/try/http-nghttp2/Http1Client.cpp:125-196 | Any failure of socket, resolve, connect, TLS or send gives the default response. Otherwise the received bytes are parsed. The request is sent iff every stage before it succeeded. |
| Http1.PlainIgnoresTls | demo/try/http-nghttp2/Http1Client.cpp:130-167 | Without TLS the TLS outcome does not matter. |
| Http2.SendCallback | demo/try/http-nghttp2/Http2Client.cpp:20-28 | A write of 0 or less is a callback failure. Otherwise the byte count is returned. |
| Http2.SendCallbackAnswersNghttp2 | demo/try/http-nghttp2/Http2Client.cpp:20-28 | The answer is never 0. It is positive iff bytes were written, then at most the length offered. A negative answer is the callback-failure code. |
| Http2.Apply | demo/try/http-nghttp2/Http2Client.cpp:31-72 | Only a response ":status" header sets the status, to its integer value. |
| Http2.ApplyAllAccumulates | demo/try/http-nghttp2/Http2Client.cpp:31-72 | Data chunks and "name: value\n" lines accumulate in arrival order. The response is complete iff a stream close arrived. Without ":status" the status is unchanged. |
| Http2.Receive | demo/try/http-nghttp2/Http2Client.cpp:204-220 | The loop stops at completion, at a read of 0 or less, or at a decode error. Completion comes only from a stream close. |
| Http2.RequestHeaders | demo/try/http-nghttp2/Http2Client.cpp:178-184 | Five fields with lengths that match their strings: :authority is the host and :path the path. |
| Http2.MakeHttp2Request | demo/try/http-nghttp2/Http2Client.cpp:84-232 | Without ALPN "h2" nothing is sent and the default response returns. A negative stream id gives the default response. Otherwise the response is what the receive loop built. |
| Http2.NoH2NoRequest | demo/try/http-nghttp2/Http2Client.cpp:146-157 | Any protocol other than exactly "h2" ("http/1.1", "h2c") gives the default response and no request. |
| Http2.StoiOf200 | demo/try/http-nghttp2/Http2Client.cpp:52 | `stoi("200")` is 200. |
| Http2.StatusHeaderSets | demo/try/http-nghttp2/Http2Client.cpp:44-53 | Any `:status` field of a response HEADERS frame appends one "name: value" line and sets the status to the parsed value, leaving body and completion unchanged. |
| Http2.StatusHeaderApplied | demo/try/http-nghttp2/Http2Client.cpp:44-53 | A ":status: 200" response header sets status 200. |
| Http2.CloseStopsReceiving | demo/try/http-nghttp2/Http2Client.cpp:67-72 | After a round with a stream close, later rounds are not read. |
| TryHttpMain.Selection | demo/try/http-nghttp2/main.cpp:61-78 | No arguments select {3}. Otherwise k is selected iff some argument is the text of k. |
| TryHttpMain.Unknown | demo/try/http-nghttp2/main.cpp:70-73 | The warned arguments are exactly the unknown ones. |
| TryHttpMain.RunMain | demo/try/http-nghttp2/main.cpp:49-94 | A socket setup failure returns 1 before any example runs. Otherwise the selected examples run once each, in ascending order, and 0 is returned. |
| TryHttpMain.OrderAndDuplicatesIgnored | demo/try/http-nghttp2/main.cpp:81-89 | The order and repetition of arguments do not change what runs. |
| TryHttpMain.OnlyUnknownRunsNothing | demo/try/http-nghttp2/main.cpp:61-94 | When every argument is unknown, nothing runs and 0 is returned. |
| TryHttpMain.UnknownKeepsAll | demo/try/http-nghttp2/main.cpp:70-73 | Every unknown argument is warned about, in order. |
| TryHttpMain.SelectionExample | demo/try/http-nghttp2/main.cpp:61-89 | "3 1 x 1" runs 1 then 3, and no arguments run 3. |
| LiteClient.UrlParse | src/pkg-http/Http/Impl/AsioLiteClient.cpp:311-327 | A URL the parser rejects gives `invalid_argument`. |
| LiteClient.UrlParseRoundTrip | src/pkg-http/Http/Impl/AsioLiteClient.cpp:311-327 | The parser's answer can be read back from the result. |
| LiteClient.Service | src/pkg-http/Http/Impl/AsioLiteClient.cpp:339-346 | The service is the port if given. Otherwise it is the protocol without its ':', or "80". |
| LiteClient.ServiceExamples | src/pkg-http/Http/Impl/AsioLiteClient.cpp:339-346 | "http:" gives "http", "https:" gives "https", and an explicit port wins. |
| LiteClient.MakeRequest | src/pkg-http/Http/Impl/AsioLiteClient.cpp:400-405 | GET, HTTP/1.1, the pathname as target, Host = hostname, User-Agent "Test/1.0". |
| LiteClient.RequestIgnoresSchemeAndPort | src/pkg-http/Http/Impl/AsioLiteClient.cpp:400-405 | The request does not depend on the scheme or the port. |
| LiteClient.ResponseBody | src/pkg-http/Http/Impl/AsioLiteClient.cpp:443-445 | The parsed body if non-empty, else the raw buffer. |
| LiteClient.ResponseBodyEmptyIff | src/pkg-http/Http/Impl/AsioLiteClient.cpp:443-445 | The body is one of the two texts, and it is empty iff both are. |
| LiteClient.HttpExchange | src/pkg-http/Http/Impl/AsioLiteClient.cpp:393-454 | A write error, then a read error, is returned. Success needs neither, and its status is the `int` cast of the result. |
| LiteClient.StatusPassesThrough | src/pkg-http/Http/Impl/AsioLiteClient.cpp:450-453 | A three-digit status passes through the cast unchanged. |
| LiteClient.FirstSuccess | src/pkg-http/Http/Impl/AsioLiteClient.cpp:370-389 | This is the first endpoint whose connect succeeds. |
| LiteClient.ConnectOutcome | src/pkg-http/Http/Impl/AsioLiteClient.cpp:363-390 | The loop stops at the first success with no error. If all attempts fail, it keeps the last attempt's error. No endpoints give no error. |
| LiteClient.ConnectLoop | src/pkg-http/Http/Impl/Beast/AsioLiteClient.cpp:439-480 | The imperative loop computes exactly that outcome. |
| LiteClient.FirstSuccessIs | src/pkg-http/Http/Impl/AsioLiteClient.cpp:370-389 | A success preceded only by failures is the one chosen. |
| LiteClient.Complete | src/pkg-http/Http/Impl/AsioLiteClient.cpp:182-199 | An escaping exception becomes `io_error`. Otherwise the result is passed on. |
| LiteClient.CompleteKeepsResult | src/pkg-http/Http/Impl/AsioLiteClient.cpp:182-199 | A success is reported iff the coroutine did not throw and itself succeeded, and it is then its result. |
| LiteClient.FullStages | src/pkg-http/Http/Impl/AsioLiteClient.cpp:217-309 | The stages run parse, resolve, connect, optional TLS, request. TLS is present iff the protocol is "https:". |
| LiteClient.Pipeline | src/pkg-http/Http/Impl/AsioLiteClient.cpp:217-309 | Stages run in order and the first failing one returns its error. A failed SNI is `protocol_error`. Only a plain or handshaken socket sends the request and returns its exchange. |
| LiteClient.RequestSucceedsIff | src/pkg-http/Http/Impl/AsioLiteClient.cpp:182-327 | A request succeeds iff nothing throws, the URL parses, the name resolves, an endpoint connects, an "https:" URL's SNI and handshake pass, and the exchange succeeds. |
| LiteClient.PlainIgnoresTls | src/pkg-http/Http/Impl/AsioLiteClient.cpp:255 | A non-https URL is unaffected by TLS outcomes. |
| AsioClient.ScopeEnd | src/pkg-http/Http/Impl/AsioLiteClient.cpp:38-51 | A closed socket is left alone. An open one is shut down iff its remote endpoint is readable, and is always closed last. |
| AsioClient.Teardown | src/pkg-http/Http/Impl/AsioLiteClient.cpp:289-309 | A TLS shutdown comes only after a completed handshake, and then the socket scope ends. |
| AsioClient.GetAsync | src/pkg-http/Http/Impl/AsioLiteClient.cpp:182-309 | The result is the pipeline's, with exceptions as `io_error`. The TLS shutdown outcome never changes it. |
| AsioClient.ConnectedSocketIsClosed | src/pkg-http/Http/Impl/AsioLiteClient.cpp:38-51 | An opened socket is closed exactly once, as the last effect. |
| AsioClient.NoTlsShutdownWithoutHandshake | src/pkg-http/Http/Impl/AsioLiteClient.cpp:266-298 | A failed SNI or handshake is followed by no TLS shutdown. |
| BeastClient.SocketConnected | src/pkg-http/Http/Impl/Beast/TcpConnection.cpp:16-43 | Connected needs a remote endpoint and `available`. In non-blocking mode it also needs a 1-byte peek that returns data or `would_block`. |
| BeastClient.SocketFinish | src/pkg-http/Http/Impl/Beast/TcpConnection.cpp:65-74 | A closed socket is untouched. An open socket is shut down iff connected and is then always closed. |
| BeastClient.CloseLog | src/pkg-http/Http/Impl/Beast/TcpConnection.cpp:55-63 | A close error is logged at debug, and success at trace only when asked. |
| BeastClient.ShutdownLog | src/pkg-http/Http/Impl/Beast/TcpConnection.cpp:45-53 | A shutdown error is logged at debug, and success at trace. |
| BeastClient.FinishErrorsOnlyLogged | src/pkg-http/Http/Impl/Beast/TcpConnection.cpp:45-74 | Shutdown and close errors change the log levels only, never the effects. |
| BeastClient.SocketFinishOnce | src/pkg-http/Http/Impl/Beast/TcpConnection.cpp:11-14 | After the destructor's finish the socket is closed, and a second finish does nothing. |
| BeastClient.SslDrop | src/pkg-http/Http/Impl/Beast/AsioLiteClient.cpp:275-302 | An incomplete handshake gives a plain socket finish with no TLS shutdown. |
| BeastClient.Teardown | src/pkg-http/Http/Impl/Beast/AsioLiteClient.cpp:249-302 | A plain connection finishes its socket, and a TLS one applies the drop rule. |
| BeastClient.GetAsync | src/pkg-http/Http/Impl/Beast/AsioLiteClient.cpp:204-385 | The result is the pipeline's, with exceptions as `io_error`. The teardown follows the phase reached. |
| BeastClient.BeastAgreesWithAsio | src/pkg-http/Http/Impl/Beast/AsioLiteClient.cpp:342-385 | The Beast client returns what the Asio client returns. |
| BeastClient.TeardownsAgreeWhenConnectedAgrees | src/pkg-http/Http/Impl/Beast/AsioLiteClient.cpp:72-81 | The two teardowns differ only where the connectedness checks differ. |
| BeastClient.PeerGoneSkipsShutdown | src/pkg-http/Http/Impl/Beast/TcpConnection.cpp:31-42 | A non-blocking peek at eof means disconnected, so the socket is closed without a shutdown. |
| CstrView.CString | src/pkg-http/Http/Impl/CstrView.h:48 | A C string is the characters before the first NUL. |
| CstrView.Make | src/pkg-http/Http/Impl/CstrView.h:19-38 | The view is reused iff it is non-empty and NUL-terminated in place. Otherwise it is copied to the stack iff shorter than 64, and to the heap if not. The pointee is always the characters followed by NUL. |
| CstrView.CStringOfTerminated | src/pkg-http/Http/Impl/CstrView.h:48 | Reading back a NUL-terminated copy gives the text. |
| CstrView.CStrIsView | src/pkg-http/Http/Impl/CstrView.h:19-48 | `c_str()` reads back as the viewed text on every branch. |
| EmFetch.RequestAttr | src/pkg-http/Http/Impl/EmFetchLiteClient.cpp:29-33 | The request is GET, loaded to memory, for the URL. |
| EmFetch.ResponseOf | src/pkg-http/Http/Impl/EmFetchLiteClient.cpp:40-43 | The response has the fetch status and the first `numBytes` of the data. |
| EmFetch.RequestAttrMatchesSocketClients | src/pkg-http/Http/Impl/EmFetchLiteClient.cpp:29-33 | The browser request uses the same verb as the socket clients' request. |
| EmFetch.ResponseOfRoundTrip | src/pkg-http/Http/Impl/EmFetchLiteClient.cpp:40-43 | A response with a 16-bit status comes back unchanged through a fetch holding exactly its body. Bytes past `numBytes` never reach it. |
| EmFetch.OnSuccess | src/pkg-http/Http/Impl/EmFetchLiteClient.cpp:35-45 | A success delivers that response and then closes the fetch. |
| EmFetch.OnError | src/pkg-http/Http/Impl/EmFetchLiteClient.cpp:47-68 | An error with a positive status and a response URL delivers a response. Any other error delivers `not_connected`. The fetch is closed afterwards. |
| EmFetch.DeliversOnceThenCloses | src/pkg-http/Http/Impl/EmFetchLiteClient.cpp:35-68 | Either way, the handler runs exactly once, before the close. |
| EmFetch.HttpErrorLikeSuccess | src/pkg-http/Http/Impl/EmFetchLiteClient.cpp:54-59 | An HTTP error status is handled exactly like a success. |
| JsFetch.JsFetchResult | src/pkg-http/Http/Impl/JsFetchLiteClient.cpp:11-30 | The JS side returns null iff the fetch threw, else "Simulated fetch result for URL: " + url, NUL-terminated. |
| JsFetch.OnFetchComplete | src/pkg-http/Http/Impl/JsFetchLiteClient.cpp:49-65 | A non-null result delivers status 333 with the C string and frees it. A null result delivers `not_connected`. |
| JsFetch.FreedOnceIfPresent | src/pkg-http/Http/Impl/JsFetchLiteClient.cpp:51-57 | The buffer is freed exactly once when present, and never otherwise. |
| JsFetch.SimulatedRoundTrip | src/pkg-http/Http/Impl/JsFetchLiteClient.cpp:18-64 | The simulated text for a URL arrives as the body, and a thrown fetch arrives as `not_connected`. |
| Harness.WaitFrom | test/http/integration_bridge/integration_bridge.py:116-136 | Polling stops at the first probe that does not retry: a success is Ready, an exit seen by `poll` stops early, and the deadline ends it. Retries sleep, and `poll` happens only with the liveness check. |
| Harness.ExitSeenStopsBeforeRequest | test/http/integration_bridge/integration_bridge.py:122-126 | An exit seen by `poll` returns not-ready before any HTTP request. |
| Harness.LivenessOnlyShortens | test/http/stub/stub_integration_test.py:20-29 | While the server lives, the liveness check does not change the verdict. |
| Harness.StopSignal | test/http/integration_bridge/integration_bridge.py:103-106 | terminate on win32, interrupt otherwise. |
| Harness.SignalThenKill | test/http/integration_bridge/integration_bridge.py:102-111 | Signal, wait up to 3 s, and only if that times out kill and wait. |
| Harness.ShutdownProcess | test/http/integration_bridge/integration_bridge.py:92-113 | None does nothing, and an exited process gets no signal. Otherwise signal then kill, with a kill iff the process outlives the grace period. |
| Harness.RStrip | test/http/integration_bridge/integration_bridge.py:51-57 | `rstrip` removes exactly the trailing characters that Python's `str.isspace` accepts, Unicode spaces included. |
| Harness.RStripUnicodeSpaces | test/http/integration_bridge/integration_bridge.py:51-57 | Unicode spaces are stripped, and a zero-width space is kept. |
| Harness.RStripIdempotent | test/http/integration_bridge/integration_bridge.py:51-57 | Stripping twice equals stripping once. |
| Harness.ForwardOutput | test/http/integration_bridge/integration_bridge.py:51-57 | Every line is forwarded in order, prefixed and stripped. |
| Harness.ForwardOutputAppends | test/http/stub/integration_test_runner.py:31-38 | Forwarding keeps per-process order across batches. |
| Harness.ServerUrl | test/http/integration_bridge/integration_bridge.py:40-42 | The URL is "http://" + host + ":" + port. |
| Bridge.ParseArgs | test/http/integration_bridge/integration_bridge.py:139-174 | Host, port and timeout default. Client arguments are None iff no unknown arguments were given, and otherwise are those arguments in order. |
| Bridge.Defaults | test/http/integration_bridge/integration_bridge.py:147-174 | The defaults are localhost, 8080, 30 s and no client arguments. |
| Bridge.ClientCommand | test/http/integration_bridge/integration_bridge.py:208-212 | The client runs with the unknown arguments appended. |
| Bridge.Main | test/http/integration_bridge/integration_bridge.py:177-228 | A missing binary returns 1 before any process starts. Every exception is caught as 1. |
| Bridge.ServerLaunchAndProbe | test/http/integration_bridge/integration_bridge.py:194-204 | The server starts as [server] alone and is probed at server_url + "/health". |
| Bridge.NotReadyNoClient | test/http/integration_bridge/integration_bridge.py:200-205 | If readiness fails, 1 is returned and the client never runs. |
| Bridge.ShutdownOnEveryPath | test/http/integration_bridge/integration_bridge.py:194-228 | Once the server has started, its shutdown ends every trace. |
| Bridge.ClientCodeIsVerdict | test/http/integration_bridge/integration_bridge.py:208-221 | The client's exit code is returned as it is. |
| Bridge.CrashedServerNotSignalled | test/http/integration_bridge/integration_bridge.py:92-101 | A server that died during readiness gets no signal and no kill. |
| StubRunner.ServerCommand | test/http/stub/integration_test_runner.py:155-164 | The server runs with --host localhost --port 8080 --ipv6. |
| StubRunner.ClientCommand | test/http/stub/integration_test_runner.py:174-176 | The client runs with --url and the server URL. |
| StubRunner.BaseUrlMatches | test/http/stub/integration_test_runner.py:155-176 | The client's URL is the server's host and port. |
| StubRunner.Main | test/http/stub/integration_test_runner.py:133-193 | Fewer than two arguments or a missing binary return 1 and spawn nothing. Exceptions are caught. |
| StubRunner.ArgumentOrder | test/http/stub/integration_test_runner.py:140-186 | The first argument is the client and the second the server, and the client's code is the verdict. |
| StubRunner.NotReadyNoClient | test/http/stub/integration_test_runner.py:168-193 | If /get is not ready, 1 is returned, no client runs and the server is shut down last. |
| StubIntegration.ServerCommand | test/http/stub/stub_integration_test.py:56-64 | The server runs with --port 19090. |
| StubIntegration.ClientCommand | test/http/stub/stub_integration_test.py:56-57 | The client runs with --url http://localhost:19090. |
| StubIntegration.ClientUsesServerPort | test/http/stub/stub_integration_test.py:56-76 | The client's URL names the port the server is told to listen on. |
| StubIntegration.Shutdown | test/http/stub/stub_integration_test.py:93-110 | A launched server is always signalled, with no exit check, and killed after 3 s. |
| StubIntegration.SignalsEvenAfterExit | test/http/stub/stub_integration_test.py:93-110 | An already-exited server is signalled here, unlike the bridge. |
| StubIntegration.Main | test/http/stub/stub_integration_test.py:32-110 | Missing arguments or binaries return 1. Readiness never polls the process. Exceptions are caught. |
| StubIntegration.DeadServerWaitsOut | test/http/stub/stub_integration_test.py:20-29 | With every probe refused, the wait lasts until the deadline and fails. |
| StubIntegration.ClientCodeIsVerdict | test/http/stub/stub_integration_test.py:76-87 | The client's code is returned. |
| HttpTestRunner.ServerCommand | test/http/http_test_runner.py:51-56 | The server runs with --port 9090. |
| HttpTestRunner.ReadinessUsesServerPort | test/http/http_test_runner.py:45-59 | The readiness URL names the port the server is told to listen on. |
| HttpTestRunner.Shutdown | test/http/http_test_runner.py:79-88 | On POSIX: SIGINT, wait 3 s, then kill and wait. On Windows, `send_signal(SIGINT)` raises `ValueError` before any wait or kill, so the `finally` block raises. Terminate is never sent. |
| HttpTestRunner.Main | test/http/http_test_runner.py:27-88 | Missing arguments or binaries return 1, and terminate is never sent. On Windows, every run that started the server ends in an exception without sending a signal. |
| HttpTestRunner.TestCodeIsVerdict | test/http/http_test_runner.py:67-77 | On POSIX, the test binary's code is returned as it is. |
| HttpTestRunner.ExceptionsEscapeAfterShutdown | test/http/http_test_runner.py:48-88 | An exception escapes after the shutdown has run. |
| HttpIntegration.RunCommand | test/http-stub/http_integration_test.py:11-24 | The binary runs with its arguments in order. |
| HttpIntegration.RunCommandsAgree | test/http-stub/http_integration_test.py:11-59 | A command line determines its binary and arguments, and the client's URL names the server's port. |
| HttpIntegration.Main | test/http-stub/http_integration_test.py:27-68 | Missing arguments or binaries return 1. 0 is returned iff the server and then the client both exit 0. |
| HttpIntegration.ServerFailureSkipsClient | test/http-stub/http_integration_test.py:52-55 | A failing server returns 1 and the client never runs. |
| HttpIntegration.ClientCodeCollapses | test/http-stub/http_integration_test.py:59-62 | A failing client returns 1, not its own code. |
| StubServer.ReadBody | test/http/stub/stub_server.py:41-42 | The server reads Content-Length bytes (none when the header is absent), or fewer at the end of the stream. |
| StubServer.Received | test/http/stub/stub_server.py:44-49 | An empty body gives {}. A JSON body gives its document, and anything else gives {"raw": body}. |
| StubServer.ReceivedReadsBack | test/http/stub/stub_server.py:44-49 | An undecodable body is read back from the "raw" member. {} is echoed only for an empty body or a body that decodes to {}. |
| StubServer.MemberAt | test/http/stub/stub_server.py:51-56 | A JSON member lookup finds the first member with that key. |
| StubServer.Handle | test/http/stub/stub_server.py:21-62 | 200 iff GET "/get" or POST "/post", with their JSON replies, and 404 otherwise. |
| StubServer.GetAnswersMethodAndPath | test/http/stub/stub_server.py:24-33 | GET /get answers with method "GET" and path "/get". |
| StubServer.OtherTargetsNotFound | test/http-stub/http_server.py:32-33 | A query string, a wrong method or an unknown path gives 404. |
| StubServer.PostEchoesDocument | test/http-stub/http_server.py:37-57 | A POST of a JSON document echoes it as received_data. |
| StubServer.MissingLengthReadsNothing | test/http/stub/stub_server.py:41-47 | A missing Content-Length reads nothing and echoes {}. |
| StubServer.StubMain | test/http/stub/stub_server.py:65-89 | An interrupt after a successful bind returns 0, and a startup failure returns 1. |
| StubServer.HttpMain | test/http-stub/http_server.py:62-83 | An interrupt returns 0 after closing, and startup errors escape. |
| StubServer.MainsAgreeOnInterrupt | test/http-stub/http_server.py:62-83 | The two servers agree when interrupted. They differ on a startup failure and on a crash while serving: the stub server returns 1 where the HTTP server raises. |

## Left out

- Floating-point fields: the `float` seconds fields of `UpdateCtx` (`passedSeconds`, `deltaSeconds`) are not modelled. The index, the nanosecond durations and the microsecond fields `passedUs` and `deltaUs` are.
- TryLoop: the demo's `float` elapsed values (`0.01f * (i + 1)` and `0.1f`) are represented exactly, as integer hundredths. Float rounding is not modelled.
- `Log.cpp` `DefaultInit` and the spdlog pattern and padding (`%12!N`): this is logger configuration. `std::format` is modelled only for `{}` placeholders filled with text, which is all the header uses.
- spdlog internals: `should_log` is modelled as a comparison with a threshold.
- The `StartupSink` mutex, its `flush_` (which does nothing), and the `GetStartupSink` singleton.
- Fs.Join: Windows path rules are not modelled. `operator/` follows POSIX paths, so drive letters, root names and '\\' separators are not handled as Windows would.
- `System.cpp` `GetDefaultDrive`: it wraps `current_path`.
- Coroutines: `co_spawn`, executors and cancellation are sequenced as one call. The detached TLS shutdown of the Beast `SslConnection` is modelled only as the decision to start it.
- Socket log lines, except for the levels chosen in the Beast finish.
- The Asio client's distinction that treats eof as a successful TLS shutdown: it only affects logging.
- SSL verify modes, nghttp2 framing internals, and `TCP_NODELAY` and `non_blocking` failures.
- The closes between connect attempts: the loop is modelled by attempt outcomes.
- Python `argparse` tokenisation and its exit code 2, `list2cmdline`, log timestamps, UTF-8 decoding, `json.dumps` formatting and `http.server` framing.
- The polling inside `Popen.send_signal`. A process's fate is an oracle input.
- A negative or non-numeric Content-Length, and a deadlock from an unread pipe.
- `CstrView`'s defaulted move: it copies a pointer into the moved-from stack buffer, which is undefined behaviour.
- Http1.MakeHttpRequest: a status text that `std::stoi` would reject (it throws) is excluded by the precondition `RequestDefined`.
- Http2.MakeHttp2Request: a `:status` value that `std::stoi` would reject is excluded by the precondition `Http2Defined`.
- Loop.FuncHandler: the wrapped action is represented by its answer for each frame, not by a function of the context.
- `FinishData` is a plain datatype: it only stores its exit code, and no member of its own is stated.
- The declarations in `TightLooper.h`, `TightRunner.h` and `UpdateCtx.h`, and the `ILiteClient.h` result type, do not match their implementations. The model follows the `.cpp` bodies.
- StartupSink.SinkIt: the precondition that the capacity is positive is the source's own limit. With capacity 0, `pop_front` runs on an empty deque, which is undefined behaviour.

## Findings

| source | as written | input that shows it | evidently intended | confidence | as-written member | corrected member |
|---|---|---|---|---|---|---|
| src/pkg-boot/Boot/Boot.LogHeader.cpp:58-63 | The zone is cut with `substr(find_last_of("+-"))`. With no sign, `npos` is past the end, so `substr` throws `out_of_range` inside the `noexcept` `LogHeader` and the program terminates. | the fallback build time "unknown" | Print the text as the date, with no time or zone, when the stamp is missing. | not executed | BootHeader.SplitBuildTimeAsWritten | BootHeader.SplitBuildTime |
| src/pkg-app/App/Loop/UpdateCtx.cpp:22-38 | `Tick` updates `passed`, `passedSeconds` and the frame's `deltaUs`, but never writes `session.passedUs`. `Initialize` zeroes it (line 18), so it stays 0. | one tick 1000 ns after `Initialize`: `passed` is 1000 ns (1 us) and `passedUs` reads 0 | Keep `passedUs` as `passed` cast to microseconds, the way `deltaUs` follows `delta`. | not executed | UpdateCtx.TickAsWritten | UpdateCtx.Tick |
| src/pkg-boot/Boot/Boot.LogHeader.cpp:76-77 | The offset prints as `abs(offset) / 60` zero-padded, then the literal ":00". The minutes of the offset are dropped. | an offset of 330 minutes (UTC+05:30) prints "+05:00", the same as 300 | Print the offset's minutes, so that it reads back as itself. | not executed | BootHeader.TzOffsetAsWritten | BootHeader.TzOffset |

The lemmas `BootHeader.UnstampedBuildTimeTerminates`,
`BootHeader.TzOffsetDropsMinutes` and `UpdateCtx.PassedUsStaysZero` exhibit
the three inputs. The frame loop `Loop.Start` ticks as the program does,
with `UpdateCtx.TickAsWritten`, and its contract says that `passedUs` stays 0.
The corrected `UpdateCtx.Tick` is carried by `UpdateCtx.TickAll` and
`UpdateCtx.PassedIsSumOfDeltas`, which keep `passedUs` equal to the time
passed in microseconds.
`BootHeader.SplitAgreesWhenStamped` shows that the corrected split agrees
with the written one wherever the written one succeeds on a stamped time.
`BootHeader.TzOffsetInjective` shows that the corrected offset text is
faithful. At the level of the whole header, `BootHeader.LogHeaderAsWritten`
models the code as written: it terminates after two lines for the input
"unknown" (`BootHeader.UnknownBuildTimeTerminatesHeader`), and its Runtime
line is the same for offsets 330 and 300 (`BootHeader.HeaderDropsOffsetMinutes`).
`BootHeader.LogHeader` uses the corrected members, and
`BootHeader.HeaderAsWrittenAgrees` shows that the two headers agree
wherever neither finding applies.

=== FILE: boot.dfy ===
/**
 * `Boot::LogHeader` (both variants) and its pieces: the application name,
 * the build version line, the runtime line with the UTC offset and the
 * command enumeration. Clock, working directory and build stamps are
 * parameters.
 */
module BootHeader {
  import opened Core
  import opened Text
  import opened LogPath
  import opened LogSrc
  import Logger
  import L = LogLevel
  import CliArgs

  const UnknownApp: string := "<unknown>"
  const Signs: set<char> := {'+', '-'}

  // ------------------------------------------------------------- app name

  /**
   * `GetAppName(const CliArgs&)`: the basename of the first argument, cut
   * at its last '.'.
   */
  function GetAppName(args: seq<string>): (name: string)
    ensures |args| == 0 ==> name == UnknownApp
    ensures |args| > 0 ==> NoneOf(name, Separators) && CutAtLastDot(name, GetBasename(args[0]))
  {
    if |args| == 0 then UnknownApp else GetWithoutExtension(GetBasename(args[0]))
  }

  /** `GetAppName(argc, argv)` of the argv-based variant: any `argc <= 0` is unknown. */
  function GetAppNameArgv(argc: int, argv: seq<string>): (name: string)
    requires argc <= |argv|
    ensures argc <= 0 ==> name == UnknownApp
    ensures argc > 0 ==> NoneOf(name, Separators) && CutAtLastDot(name, GetBasename(argv[0]))
  {
    if argc <= 0 then UnknownApp else GetWithoutExtension(GetBasename(argv[0]))
  }

  /** Only the last extension goes: "bin/tool.v2.exe" is the application "tool.v2". */
  lemma AppNameExample()
    ensures GetAppName(["bin/tool.v2.exe", "--flag"]) == "tool.v2"
    ensures GetAppName([]) == UnknownApp
  {
    var p := "bin/tool.v2.exe";
    assert p[3] == '/' && NoneOf(p[4..], Separators);
    FindLastOfIsLast(p, Separators, 3);
    var b := "tool.v2.exe";
    assert p[4..] == b;
    assert b[7] == '.' && NoneOf(b[8..], {'.'});
    WithoutExtensionUnique(b, "tool.v2");
  }

  lemma AppNameVariantsAgree(argc: int, argv: seq<string>)
    requires 0 <= argc <= |argv|
    ensures GetAppNameArgv(argc, argv) == GetAppName(CliArgs.FromArgv(argc, argv))
  {
  }

  // --------------------------------------------------------- version line

  /** The build stamps of `Build::Info`. */
  datatype BuildInfo = BuildInfo(sha: string, branch: string, status: string,
                                 user: string, host: string, time: string)

  /** The first seven characters of the commit hash, or all of a shorter one. */
  function Sha7(sha: string): (r: string)
    ensures IsPrefix(r, sha)
    ensures |r| == if |sha| < 7 then |sha| else 7
  {
    if |sha| < 7 then sha else sha[..7]
  }

  /** "*" exactly when the working tree was dirty. */
  function DirtyMark(status: string): (r: string)
    ensures r == "*" <==> status == "dirty"
    ensures r == "" <==> status != "dirty"
  {
    if status == "dirty" then "*" else ""
  }

  datatype TimeParts = TimeParts(date: string, timeOfDay: string, zone: string)

  /** The build time has a 'T' and, after it, a '+' or '-' starting the zone. */
  predicate Stamped(time: string) {
    Find(time, "T", 0).Some? && FindLastOf(time, Signs).Some?
    && Find(time, "T", 0).value < FindLastOf(time, Signs).value
  }

  lemma IsAtChar(s: string, c: char, i: int)
    ensures IsAt(s, [c], i) <==> 0 <= i < |s| && s[i] == c
  {
    if 0 <= i < |s| {
      assert s[i..i + 1] == [s[i]];
    }
  }

  /**
   * The time split of the version line as written, with `size_t`
   * arithmetic: a missing 'T' is `npos`, and `npos + 1` wraps to 0. When
   * the text has no '+' or '-' at all, `substr(npos)` throws, and since
   * `LogHeader` is `noexcept` the program terminates.
   */
  function SplitBuildTimeAsWritten(time: string): (r: Result<TimeParts>)
    requires |time| < Npos
    ensures r.Err? <==> NoneOf(time, Signs)
    ensures r.Err? ==> r.error == ResultOutOfRange
  {
    var tPos := Find(time, "T", 0).GetOr(Npos);
    var tzPos := FindLastOf(time, Signs).GetOr(Npos);
    // The first two cuts start inside the text and never throw.
    var date := SubStr(time, 0, tPos).value;
    var timeOfDay := SubStr(time, SizeWrap(tPos + 1), SizeWrap(tzPos - tPos - 1)).value;
    match SubStr(time, tzPos, Npos)
    case Err(e) => Err(e)
    case Ok(zone) => Ok(TimeParts(date, timeOfDay, zone))
  }

  /** The first 'T' found is a 'T', and none comes before it. */
  lemma FirstT(time: string, t: nat)
    requires Find(time, "T", 0) == Some(t)
    ensures t < |time| && time[t] == 'T' && NoneOf(time[..t], {'T'})
  {
    IsAtChar(time, 'T', t);
    forall j | 0 <= j < t ensures time[..t][j] != 'T' {
      IsAtChar(time, 'T', j);
    }
  }

  /**
   * The split as evidently intended: the zone is only taken from a sign that
   * follows the 'T', and a time without one keeps everything and prints no
   * zone instead of terminating.
   */
  function SplitBuildTime(time: string): (r: TimeParts)
    ensures Find(time, "T", 0).None? ==> r == TimeParts(time, "", "")
    ensures Find(time, "T", 0).Some? ==> r.date + "T" + r.timeOfDay + r.zone == time
    ensures Find(time, "T", 0).Some? ==> NoneOf(r.date, {'T'})
    ensures r.zone == "" || (r.zone[0] in Signs && NoneOf(r.zone[1..], Signs))
    ensures Stamped(time) <==> r.zone != ""
  {
    match Find(time, "T", 0)
    case None => TimeParts(time, "", "")
    case Some(t) =>
      FirstT(time, t);
      var tz := FindLastOf(time, Signs);
      if tz.Some? && t < tz.value then
        CutsAroundT(time, t, tz.value);
        TimeParts(time[..t], time[t + 1..tz.value], time[tz.value..])
      else
        CutAtT(time, t);
        TimeParts(time[..t], time[t + 1..], "")
  }

  /** Cutting at the 'T' and then at the zone's sign loses nothing, and the zone is one sign then none. */
  lemma CutsAroundT(time: string, t: nat, tz: nat)
    requires t < tz && FindLastOf(time, Signs) == Some(tz) && time[t] == 'T'
    ensures time[..t] + "T" + time[t + 1..tz] + time[tz..] == time
    ensures time[tz..][0] in Signs && NoneOf(time[tz..][1..], Signs)
  {
    assert time == time[..t] + [time[t]] + time[t + 1..tz] + time[tz..];
    assert time[tz..][1..] == time[tz + 1..];
  }

  /** Cutting at the 'T' alone loses nothing. */
  lemma CutAtT(time: string, t: nat)
    requires t < |time| && time[t] == 'T'
    ensures time[..t] + "T" + time[t + 1..] + "" == time
  {
    assert time == time[..t] + [time[t]] + time[t + 1..];
  }

  /** On a stamped RFC 3339 time, the corrected split is exactly the written one. */
  lemma SplitAgreesWhenStamped(time: string)
    requires |time| < Npos && Stamped(time)
    ensures SplitBuildTimeAsWritten(time) == Ok(SplitBuildTime(time))
  {
    var t := Find(time, "T", 0).value;
    var tz := FindLastOf(time, Signs).value;
    assert SubStr(time, 0, t) == Ok(time[..t]);
    assert SubStr(time, t + 1, tz - t - 1) == Ok(time[t + 1..tz]);
    assert SubStr(time, tz, Npos) == Ok(time[tz..]);
  }

  /**
   * The fallback stamp "unknown" (an unstamped build) makes the written split
   * throw, while the corrected one keeps the text as the date.
   */
  lemma UnstampedBuildTimeTerminates()
    ensures SplitBuildTimeAsWritten("unknown").Err?
    ensures SplitBuildTime("unknown") == TimeParts("unknown", "", "")
  {
    var u := "unknown";
    assert NoneOf(u, Signs);
    assert NoneOf(u, {'T'});
    forall j | 0 <= j ensures !IsAt(u, "T", j) {
      IsAtChar(u, 'T', j);
    }
  }

  /**
   * Splitting is undone by joining: a date without 'T', a time of day
   * without sign, and a zone that starts with its only sign come back apart.
   */
  lemma SplitBuildTimeRoundTrip(date: string, timeOfDay: string, zone: string)
    requires NoneOf(date, {'T'}) && NoneOf(timeOfDay, Signs)
    requires |zone| > 0 && zone[0] in Signs && NoneOf(zone[1..], Signs)
    ensures SplitBuildTime(date + "T" + timeOfDay + zone) == TimeParts(date, timeOfDay, zone)
  {
    var s := date + "T" + timeOfDay + zone;
    var t := |date|;
    var tz := |date| + 1 + |timeOfDay|;
    forall j | 0 <= j < t ensures !IsAt(s, "T", j) {
      IsAtChar(s, 'T', j);
      assert s[j] == date[j];
    }
    IsAtChar(s, 'T', t);
    FindIsFirst(s, "T", 0, t);
    forall j | tz < j < |s| ensures s[j] !in Signs {
      assert s[j] == zone[1..][j - tz - 1];
    }
    assert s[tz] == zone[0];
    FindLastOfIsLast(s, Signs, tz);
    assert s[..t] == date;
    assert s[t + 1..tz] == timeOfDay;
    assert s[tz..] == zone;
  }

  /** The stamp format the build produces splits into its three parts. */
  lemma SplitBuildTimeExample()
    ensures SplitBuildTime("2026-01-26T21:50:00+01:00") == TimeParts("2026-01-26", "21:50:00", "+01:00")
  {
    var z := "+01:00";
    assert NoneOf(z[1..], Signs) by {
      assert z[1..] == "01:00";
    }
    SplitBuildTimeRoundTrip("2026-01-26", "21:50:00", z);
    ExampleStampText();
  }

  /** The example stamp, spelled out from its parts. */
  lemma ExampleStampText()
    ensures "2026-01-26" + "T" + "21:50:00" + "+01:00" == "2026-01-26T21:50:00+01:00"
  {
    var x := "2026-01-26" + "T" + "21:50:00" + "+01:00";
    var y := "2026-01-26T21:50:00+01:00";
    assert |x| == |y|;
    forall i | 0 <= i < |x| ensures x[i] == y[i] {}
  }

  /** `"║ Version: {} {} {} | {} {}{} | {}@{}"`. */
  const VersionTemplate: seq<Piece> :=
    [Lit("║ Version: "), Hole, Lit(" "), Hole, Lit(" "), Hole, Lit(" | "), Hole,
     Lit(" "), Hole, Hole, Lit(" | "), Hole, Lit("@"), Hole]

  /** The eight arguments of the version line, in template order. */
  function VersionArgs(parts: TimeParts, info: BuildInfo): seq<string> {
    [parts.date, parts.timeOfDay, parts.zone, info.branch, DirtyMark(info.status), Sha7(info.sha),
     info.user, info.host]
  }

  /**
   * The version line for given time parts: the date, time and zone of the
   * build, the branch, the dirty mark glued to the short hash, and
   * user@host, each in its placeholder.
   */
  function VersionText(parts: TimeParts, info: BuildInfo): (line: string)
    ensures line == Format(VersionTemplate, VersionArgs(parts, info))
  {
    VersionTemplateFills(VersionArgs(parts, info));
    "║ Version: " + (parts.date + (" " + (parts.timeOfDay + (" " + (parts.zone + (" | " + (info.branch
    + (" " + (DirtyMark(info.status) + (Sha7(info.sha) + (" | " + (info.user + ("@" + info.host)))))))))))))
  }

  /** Filling the version template: each argument in its placeholder. */
  lemma VersionTemplateFills(a: seq<string>)
    requires |a| == 8
    ensures Format(VersionTemplate, a)
            == "║ Version: " + (a[0] + (" " + (a[1] + (" " + (a[2] + (" | " + (a[3]
               + (" " + (a[4] + (a[5] + (" | " + (a[6] + ("@" + a[7])))))))))))))
  {
    var t := VersionTemplate;
    var r15 := "";
    assert FormatFrom(t, 15, a, 8) == r15;
    var r14 := a[7];
    assert FormatFrom(t, 14, a, 7) == r14;
    var r13 := "@" + r14;
    assert FormatFrom(t, 13, a, 7) == r13;
    var r12 := a[6] + r13;
    assert FormatFrom(t, 12, a, 6) == r12;
    var r11 := " | " + r12;
    assert FormatFrom(t, 11, a, 6) == r11;
    var r10 := a[5] + r11;
    assert FormatFrom(t, 10, a, 5) == r10;
    var r9 := a[4] + r10;
    assert FormatFrom(t, 9, a, 4) == r9;
    var r8 := " " + r9;
    assert FormatFrom(t, 8, a, 4) == r8;
    var r7 := a[3] + r8;
    assert FormatFrom(t, 7, a, 3) == r7;
    var r6 := " | " + r7;
    assert FormatFrom(t, 6, a, 3) == r6;
    var r5 := a[2] + r6;
    assert FormatFrom(t, 5, a, 2) == r5;
    var r4 := " " + r5;
    assert FormatFrom(t, 4, a, 2) == r4;
    var r3 := a[1] + r4;
    assert FormatFrom(t, 3, a, 1) == r3;
    var r2 := " " + r3;
    assert FormatFrom(t, 2, a, 1) == r2;
    var r1 := a[0] + r2;
    assert FormatFrom(t, 1, a, 0) == r1;
  }

  /** The version line as evidently intended: the corrected split, so it never terminates. */
  function VersionLine(info: BuildInfo): (line: string)
    ensures line == Format(VersionTemplate, VersionArgs(SplitBuildTime(info.time), info))
    ensures IsPrefix("║ Version: " + SplitBuildTime(info.time).date + " ", line)
  {
    var parts := SplitBuildTime(info.time);
    var head := "║ Version: " + parts.date + " ";
    var line := VersionText(parts, info);
    assert line[..|head|] == head;
    line
  }

  /** The version line as written: no line at all when the split throws. */
  function VersionLineAsWritten(info: BuildInfo): (r: Result<string>)
    requires |info.time| < Npos
    ensures r.Err? <==> NoneOf(info.time, Signs)
    ensures r.Ok? ==> r.value == Format(VersionTemplate, VersionArgs(SplitBuildTimeAsWritten(info.time).value, info))
  {
    match SplitBuildTimeAsWritten(info.time)
    case Err(e) => Err(e)
    case Ok(parts) => Ok(VersionText(parts, info))
  }

  /** On a stamped build time the written and the corrected version lines are the same. */
  lemma VersionLinesAgreeWhenStamped(info: BuildInfo)
    requires |info.time| < Npos && Stamped(info.time)
    ensures VersionLineAsWritten(info) == Ok(VersionLine(info))
  {
    SplitAgreesWhenStamped(info.time);
  }

  /** A dirty build of a long hash: the arguments that fill the version template. */
  lemma VersionLineExample()
    ensures VersionLine(BuildInfo("0123456789abcdef", "main", "dirty", "dev", "box",
                                  "2026-01-26T21:50:00+01:00"))
            == Format(VersionTemplate, ["2026-01-26", "21:50:00", "+01:00", "main", "*", "0123456", "dev", "box"])
  {
    SplitBuildTimeExample();
    assert "0123456789abcdef"[..7] == "0123456";
  }

  // ---------------------------------------------------------- UTC offset

  /** `std::setfill('0') << std::setw(2)`: left-padded with zeros to two characters. */
  function Pad2(d: string): (r: string)
    ensures |r| == if |d| < 2 then 2 else |d|
    ensures IsSuffix(d, r)
    ensures forall i :: 0 <= i < |r| - |d| ==> r[i] == '0'
  {
    if |d| == 0 then "00" else if |d| == 1 then "0" + d else d
  }

  lemma Pad2Value(n: nat)
    ensures AllDigits(Pad2(NatToDecimal(n)))
    ensures DigitsValue(Pad2(NatToDecimal(n))) == n
  {
    NatDecimalRoundTrip(n);
    var d := NatToDecimal(n);
    if |d| == 1 {
      DigitsValueLeadingZero(d);
    }
  }

  function Abs(n: int): nat {
    if n < 0 then -n else n
  }

  /**
   * Reads a "+HH:MM" / "-HH:MM" offset back into minutes east of UTC (hours
   * may take more than two digits).
   */
  function ReadTzOffset(t: string): (r: Option<int>)
    ensures r.Some? ==> |t| >= 6 && t[0] in Signs && t[|t| - 3] == ':'
  {
    if |t| < 6 || t[0] !in Signs || t[|t| - 3] != ':' then None
    else
      var hh := t[1..|t| - 3];
      var mm := t[|t| - 2..];
      if !AllDigits(hh) || !AllDigits(mm) then None
      else
        var v := DigitsValue(hh) * 60 + DigitsValue(mm);
        Some(if t[0] == '-' then -v else v)
  }

  /** Reading an offset text built from a sign, hour digits and two minute digits. */
  lemma ReadOffsetText(sign: string, hh: string, mm: string)
    requires |sign| == 1 && sign[0] in Signs && |hh| >= 2 && AllDigits(hh) && |mm| == 2 && AllDigits(mm)
    ensures var v := DigitsValue(hh) * 60 + DigitsValue(mm);
      ReadTzOffset(sign + hh + ":" + mm) == Some(if sign[0] == '-' then -v else v)
  {
    var t := sign + hh + ":" + mm;
    OffsetTextParts(t, sign, hh, mm);
    ReadWellFormedOffset(t, hh, mm);
  }

  /** An offset text with a sign, digits, ':' and digits in place reads as its value. */
  lemma ReadWellFormedOffset(t: string, hh: string, mm: string)
    requires |t| >= 6 && t[0] in Signs && t[|t| - 3] == ':'
    requires hh == t[1..|t| - 3] && mm == t[|t| - 2..] && AllDigits(hh) && AllDigits(mm)
    ensures var v := DigitsValue(hh) * 60 + DigitsValue(mm);
      ReadTzOffset(t) == Some(if t[0] == '-' then -v else v)
  {
  }

  /** Where the sign, the hours, the ':' and the minutes sit in an offset text. */
  lemma OffsetTextParts(t: string, sign: string, hh: string, mm: string)
    requires |sign| == 1 && |mm| == 2 && t == sign + hh + ":" + mm
    ensures |t| == |hh| + 4 && t[0] == sign[0] && t[|t| - 3] == ':'
    ensures t[1..|t| - 3] == hh && t[|t| - 2..] == mm
  {
    assert t == sign + (hh + (":" + mm));
    assert t[1..] == hh + (":" + mm);
    assert t[1..][..|hh|] == hh;
    assert t[|t| - 3..] == ":" + mm;
  }

  /** "±HH:MM" from a sign, whole hours (two digits or more) and minutes (two digits). */
  function OffsetText(negative: bool, hours: nat, minutes: nat): (r: string)
    requires minutes < 60
    ensures |r| >= 6 && r[0] == (if negative then '-' else '+')
    ensures ReadTzOffset(r) == Some(if negative then -(hours * 60 + minutes) else hours * 60 + minutes)
  {
    var sign := if negative then "-" else "+";
    var hh := Pad2(NatToDecimal(hours));
    var mm := Pad2(NatToDecimal(minutes));
    var r := sign + hh + ":" + mm;
    OffsetTextReads(negative, hours, minutes, sign, hh, mm, r);
    r
  }

  /** The offset text reads back as the signed minutes it was printed from. */
  lemma OffsetTextReads(negative: bool, hours: nat, minutes: nat, sign: string, hh: string, mm: string, r: string)
    requires minutes < 60 && sign == (if negative then "-" else "+")
    requires hh == Pad2(NatToDecimal(hours)) && mm == Pad2(NatToDecimal(minutes)) && r == sign + hh + ":" + mm
    ensures |r| >= 6 && r[0] == (if negative then '-' else '+')
    ensures ReadTzOffset(r) == Some(if negative then -(hours * 60 + minutes) else hours * 60 + minutes)
  {
    Pad2Value(hours);
    Pad2Value(minutes);
    NatToDecimalShort(minutes);
    OffsetTextParts(r, sign, hh, mm);
    ReadOffsetText(sign, hh, mm);
  }

  /**
   * The runtime line's offset as written: the sign, the whole hours padded to
   * two digits, and a constant ":00". The minutes of the offset are lost.
   */
  function TzOffsetAsWritten(offset: int): (r: string)
    requires IntMin < offset <= IntMax
    ensures |r| >= 6 && r[0] == (if offset >= 0 then '+' else '-')
    ensures IsSuffix(":00", r)
    ensures ReadTzOffset(r) == Some(if offset >= 0 then Abs(offset) / 60 * 60 else -(Abs(offset) / 60 * 60))
  {
    var sign := if offset >= 0 then "+" else "-";
    var h := Abs(offset) / 60;
    var hh := Pad2(NatToDecimal(h));
    var r := sign + hh + ":00";
    ZeroMinutesText(r, sign, hh);
    assert r == OffsetText(offset < 0, h, 0);
    r
  }

  /** Printing ":00" is printing zero minutes. */
  lemma ZeroMinutesText(r: string, sign: string, hh: string)
    requires r == sign + hh + ":00"
    ensures r == sign + hh + ":" + Pad2(NatToDecimal(0))
    ensures r[|r| - 3..] == ":00"
  {
    assert NatToDecimal(0) == "0";
    assert Pad2("0") == "00";
    assert ":" + "00" == ":00";
  }

  /** The offset with its minutes: "+05:30" for India, "-00:30" for half an hour west. */
  function TzOffset(offset: int): (r: string)
    requires IntMin < offset <= IntMax
    ensures |r| >= 6 && r[0] == (if offset >= 0 then '+' else '-')
    ensures ReadTzOffset(r) == Some(offset)
  {
    OffsetText(offset < 0, Abs(offset) / 60, Abs(offset) % 60)
  }

  /** Offsets that differ only in minutes print the same text as written. */
  lemma TzOffsetDropsMinutes()
    ensures TzOffsetAsWritten(330) == TzOffsetAsWritten(300)
    ensures ReadTzOffset(TzOffsetAsWritten(330)) == Some(300)
    ensures ReadTzOffset(TzOffset(330)) == Some(330)
  {
    assert Abs(330) / 60 == 5 && Abs(300) / 60 == 5;
  }

  /** Different offsets always print differently once the minutes are kept. */
  lemma TzOffsetInjective(a: int, b: int)
    requires IntMin < a <= IntMax && IntMin < b <= IntMax
    ensures TzOffset(a) == TzOffset(b) ==> a == b
  {
  }

  // -------------------------------------------------------- command lines

  const CommandPrefix: string := "║  ["

  /** `"║  [{}] {}"`. */
  const CommandTemplate: seq<Piece> := [Lit(CommandPrefix), Hole, Lit("] "), Hole]

  /** `Line("║  [{}] {}", i, arg)`. */
  function CommandLine(i: nat, arg: string): (line: string)
    ensures line == Format(CommandTemplate, [NatToDecimal(i), arg])
    ensures IsPrefix(CommandPrefix, line) && IsSuffix(arg, line)
  {
    CommandTemplateFills(NatToDecimal(i), arg);
    var line := CommandPrefix + (NatToDecimal(i) + ("] " + arg));
    assert line[..|CommandPrefix|] == CommandPrefix;
    assert line[|line| - |arg|..] == arg;
    line
  }

  lemma CommandTemplateFills(index: string, arg: string)
    ensures Format(CommandTemplate, [index, arg]) == CommandPrefix + (index + ("] " + arg))
  {
    var a := [index, arg];
    assert FormatFrom(CommandTemplate, 4, a, 2) == "";
    assert FormatFrom(CommandTemplate, 3, a, 1) == arg;
    assert FormatFrom(CommandTemplate, 2, a, 1) == "] " + arg;
    assert FormatFrom(CommandTemplate, 1, a, 0) == index + ("] " + arg);
  }

  /** The index printed in a command line reads back, and the argument follows verbatim. */
  lemma CommandLineReadsBack(i: nat, arg: string)
    requires i <= IntMax
    ensures FromChars(CommandLine(i, arg)[|CommandPrefix|..]) == Ok(i)
    ensures CommandLine(i, arg)[|CommandPrefix| + |NatToDecimal(i)| + 2..] == arg
  {
    var ds := NatToDecimal(i);
    var line := CommandLine(i, arg);
    assert line[|CommandPrefix|..] == ds + ("] " + arg);
    FromCharsIgnoresTail(ds, "] " + arg);
    FromCharsRoundTrip(i);
  }

  /** The `Command:` enumeration: one line per argument, indexed from 0. */
  function CommandLines(args: seq<string>): (lines: seq<string>)
    ensures |lines| == |args|
    ensures forall i :: 0 <= i < |args| ==> lines[i] == CommandLine(i, args[i])
  {
    seq(|args|, i requires 0 <= i < |args| => CommandLine(i, args[i]))
  }

  // ------------------------------------------------------------ the header

  /** `std::filesystem::current_path(ec)`: a path or the error's message. */
  datatype CurrentPath = Path(path: string) | PathError(message: string)

  /** Inputs the header reads from outside the arguments. */
  datatype HeaderEnv = HeaderEnv(description: string, info: BuildInfo, localTime: string,
                                 tzOffset: int, cwd: CurrentPath)

  /** What the environment can hand over: an `int` offset, and a build time shorter than `npos`. */
  predicate ValidEnv(env: HeaderEnv) {
    IntMin < env.tzOffset <= IntMax && |env.info.time| < Npos
  }

  const AppTemplate: seq<Piece> := [Lit("║ App: "), Hole]
  const CompileTemplate: seq<Piece> := [Lit("║ Compile: "), Hole]
  const RuntimeTemplate: seq<Piece> := [Lit("║ Runtime: "), Hole]
  const DirectoryTemplate: seq<Piece> := [Lit("║ Directory: "), Hole]
  const DirectoryErrorTemplate: seq<Piece> := [Lit("║ Directory: <error: "), Hole, Lit(">")]

  /** The directory line: the current path, or the error's message when it cannot be read. */
  function DirectoryLine(cwd: CurrentPath): (line: string)
    ensures cwd.Path? ==> line == Format(DirectoryTemplate, [cwd.path])
    ensures cwd.PathError? ==> line == Format(DirectoryErrorTemplate, [cwd.message])
  {
    match cwd
    case Path(p) =>
      FormatOne("║ Directory: ", p);
      "║ Directory: " + p
    case PathError(m) =>
      assert FormatFrom(DirectoryErrorTemplate, 1, [m], 0) == m + (">" + "");
      "║ Directory: <error: " + (m + ">")
  }

  /**
   * The six fixed lines and the command enumeration, from the texts that
   * fill them: the application name, the build description, the version
   * line, and the runtime text (local time, a space, the UTC offset).
   */
  function HeaderLines(app: string, description: string, version: string, runtime: string,
                       cwd: CurrentPath, args: seq<string>): (lines: seq<string>)
    ensures |lines| == 6 + |args|
    ensures lines[0] == Format(AppTemplate, [app])
    ensures lines[1] == Format(CompileTemplate, [description])
    ensures lines[2] == version
    ensures lines[3] == Format(RuntimeTemplate, [runtime])
    ensures lines[4] == DirectoryLine(cwd)
    ensures lines[5] == "║ Command:"
    ensures lines[6..] == CommandLines(args)
  {
    FormatOne("║ App: ", app);
    FormatOne("║ Compile: ", description);
    FormatOne("║ Runtime: ", runtime);
    [ "║ App: " + app,
      "║ Compile: " + description,
      version,
      "║ Runtime: " + runtime,
      DirectoryLine(cwd),
      "║ Command:" ] + CommandLines(args)
  }

  /**
   * `LogHeader(const CliArgs&)` as evidently intended: six fixed lines, then
   * one per argument, with the corrected split and offset.
   */
  function LogHeader(args: seq<string>, env: HeaderEnv): (lines: seq<string>)
    requires ValidEnv(env)
    ensures |lines| == 6 + |args|
    ensures lines[0] == Format(AppTemplate, [GetAppName(args)])
    ensures lines[1] == Format(CompileTemplate, [env.description])
    ensures lines[2] == VersionLine(env.info)
    ensures lines[3] == Format(RuntimeTemplate, [env.localTime + " " + TzOffset(env.tzOffset)])
    ensures lines[4] == DirectoryLine(env.cwd)
    ensures lines[5] == "║ Command:"
    ensures lines[6..] == CommandLines(args)
  {
    HeaderLines(GetAppName(args), env.description, VersionLine(env.info),
                env.localTime + " " + TzOffset(env.tzOffset), env.cwd, args)
  }

  /**
   * What `LogHeader` does as written: it logs all its lines, or it
   * terminates (an exception inside `noexcept`) after the first two.
   */
  datatype HeaderRun = Logged(lines: seq<string>) | Terminated(logged: seq<string>)

  /**
   * `LogHeader(const CliArgs&)` as written: a build time without '+' or '-'
   * terminates the program after the App and Compile lines; otherwise the
   * version line uses the written split and the runtime line prints the
   * offset with ":00" minutes.
   */
  function LogHeaderAsWritten(args: seq<string>, env: HeaderEnv): (r: HeaderRun)
    requires ValidEnv(env)
    ensures r.Terminated? <==> NoneOf(env.info.time, Signs)
    ensures r.Terminated? ==> r.logged == [Format(AppTemplate, [GetAppName(args)]),
                                           Format(CompileTemplate, [env.description])]
    ensures r.Logged? ==>
              |r.lines| == 6 + |args|
              && r.lines[2] == Format(VersionTemplate, VersionArgs(SplitBuildTimeAsWritten(env.info.time).value, env.info))
              && r.lines[3] == Format(RuntimeTemplate, [env.localTime + " " + TzOffsetAsWritten(env.tzOffset)])
              && r.lines[..2] == LogHeader(args, env)[..2] && r.lines[4..] == LogHeader(args, env)[4..]
  {
    var app := GetAppName(args);
    match VersionLineAsWritten(env.info)
    case Err(_) =>
      FormatOne("║ App: ", app);
      FormatOne("║ Compile: ", env.description);
      Terminated(["║ App: " + app, "║ Compile: " + env.description])
    case Ok(version) =>
      var lines := HeaderLines(app, env.description, version,
                               env.localTime + " " + TzOffsetAsWritten(env.tzOffset), env.cwd, args);
      HeaderLinesShareFrame(lines, LogHeader(args, env), args);
      Logged(lines)
  }

  /** Two headers that agree on lines 0, 1, 4, 5 and the command lines agree outside lines 2 and 3. */
  lemma HeaderLinesShareFrame(a: seq<string>, b: seq<string>, args: seq<string>)
    requires |a| == 6 + |args| && |b| == 6 + |args|
    requires a[0] == b[0] && a[1] == b[1] && a[4] == b[4] && a[5] == b[5]
    requires a[6..] == b[6..]
    ensures a[..2] == b[..2] && a[4..] == b[4..]
  {
    assert a[4..] == [a[4], a[5]] + a[6..];
    assert b[4..] == [b[4], b[5]] + b[6..];
  }

  /** Offsets of whole hours print alike in both forms. */
  lemma TzOffsetWholeHours(offset: int)
    requires IntMin < offset <= IntMax && Abs(offset) % 60 == 0
    ensures TzOffsetAsWritten(offset) == TzOffset(offset)
  {
  }

  /**
   * With a stamped build time and a whole-hour offset, the header as written
   * is the corrected header: the two findings are the only differences.
   */
  lemma HeaderAsWrittenAgrees(args: seq<string>, env: HeaderEnv)
    requires ValidEnv(env) && Stamped(env.info.time) && Abs(env.tzOffset) % 60 == 0
    ensures LogHeaderAsWritten(args, env) == Logged(LogHeader(args, env))
  {
    VersionLinesAgreeWhenStamped(env.info);
    TzOffsetWholeHours(env.tzOffset);
  }

  /** The fallback build time "unknown" stops the program after two header lines. */
  lemma UnknownBuildTimeTerminatesHeader(args: seq<string>, env: HeaderEnv)
    requires ValidEnv(env) && env.info.time == "unknown"
    ensures LogHeaderAsWritten(args, env).Terminated?
    ensures |LogHeaderAsWritten(args, env).logged| == 2
  {
    UnstampedBuildTimeTerminates();
  }

  /**
   * India (UTC+05:30) and Pakistan (UTC+05:00) get the same runtime line as
   * written, and different ones once the minutes are kept.
   */
  lemma HeaderDropsOffsetMinutes(args: seq<string>, env: HeaderEnv)
    requires ValidEnv(env) && Stamped(env.info.time) && env.tzOffset == 330
    ensures LogHeaderAsWritten(args, env).lines[3] == LogHeaderAsWritten(args, env.(tzOffset := 300)).lines[3]
    ensures LogHeader(args, env)[3] != LogHeader(args, env.(tzOffset := 300))[3]
  {
    AsWrittenRuntimeIgnoresMinutes(args, env, env.(tzOffset := 300));
    CorrectedRuntimeKeepsMinutes(args, env, env.(tzOffset := 300));
  }

  lemma AsWrittenRuntimeIgnoresMinutes(args: seq<string>, env: HeaderEnv, env': HeaderEnv)
    requires ValidEnv(env) && Stamped(env.info.time) && env.tzOffset == 330
    requires env' == env.(tzOffset := 300)
    ensures LogHeaderAsWritten(args, env).lines[3] == LogHeaderAsWritten(args, env').lines[3]
  {
    TzOffsetDropsMinutes();
    var a := LogHeaderAsWritten(args, env);
    var b := LogHeaderAsWritten(args, env');
    assert a.lines[3] == Format(RuntimeTemplate, [env.localTime + " " + TzOffsetAsWritten(330)]);
    assert b.lines[3] == Format(RuntimeTemplate, [env.localTime + " " + TzOffsetAsWritten(300)]);
  }

  /** An offset under 100 hours east of UTC prints in six characters. */
  lemma ShortOffsetWidth(offset: int)
    requires 0 <= offset < 6000
    ensures |TzOffset(offset)| == 6
  {
    NatToDecimalShort(offset / 60);
    NatToDecimalShort(offset % 60);
  }

  lemma CorrectedRuntimeKeepsMinutes(args: seq<string>, env: HeaderEnv, env': HeaderEnv)
    requires ValidEnv(env) && env.tzOffset == 330 && env' == env.(tzOffset := 300)
    ensures LogHeader(args, env)[3] != LogHeader(args, env')[3]
  {
    TzOffsetInjective(330, 300);
    ShortOffsetWidth(330);
    ShortOffsetWidth(300);
    RuntimeLinesDiffer(env.localTime + " ", TzOffset(330), TzOffset(300));
  }

  /** Runtime lines with the same local time and different offset texts differ. */
  lemma RuntimeLinesDiffer(t: string, a: string, b: string)
    requires a != b && |a| == |b|
    ensures Format(RuntimeTemplate, [t + a]) != Format(RuntimeTemplate, [t + b])
  {
    FormatOne("║ Runtime: ", t + a);
    FormatOne("║ Runtime: ", t + b);
    var x := "║ Runtime: " + (t + a);
    var y := "║ Runtime: " + (t + b);
    var k := |"║ Runtime: "| + |t|;
    assert x[k..] == a;
    assert y[k..] == b;
  }

  /** Header lines go through the "Boot" area logger at info level, without function names. */
  function HeaderRecord(text: string, site: Src): (r: Logger.Record)
    ensures r.loc.filename == "Boot" && r.loc.line == Logger.AreaLoggerLine
    ensures r.loc.funcname.None? && r.level == L.SpdInfo && r.text == text
  {
    Logger.Logger(Some("Boot")).Info(Logger.FmtMsg(text, site.(mode := NoFunc)))
  }

  /**
   * `LogHeader(argc, argv)`, the older variant: "Build:" instead of
   * "Compile:", no version line, no offset, an empty directory when `getcwd`
   * fails, and one line per `i < argc`.
   */
  function LogHeaderArgv(argc: int, argv: seq<string>, description: string, localTime: string,
                         cwd: Option<string>): (lines: seq<string>)
    requires argc <= |argv|
    ensures argc <= 0 ==> |lines| == 5
    ensures argc > 0 ==> |lines| == 5 + argc && lines[5..] == CommandLines(argv[..argc])
    ensures lines[0] == Format(AppTemplate, [GetAppNameArgv(argc, argv)])
    ensures lines[1] == Format([Lit("║ Build: "), Hole], [description])
    ensures lines[2] == Format(RuntimeTemplate, [localTime])
    ensures lines[3] == Format(DirectoryTemplate, [cwd.GetOr("")])
    ensures lines[4] == "║ Command:"
  {
    FormatOne("║ App: ", GetAppNameArgv(argc, argv));
    FormatOne("║ Build: ", description);
    FormatOne("║ Runtime: ", localTime);
    FormatOne("║ Directory: ", cwd.GetOr(""));
    [ "║ App: " + GetAppNameArgv(argc, argv),
      "║ Build: " + description,
      "║ Runtime: " + localTime,
      "║ Directory: " + cwd.GetOr(""),
      "║ Command:" ] + (if argc <= 0 then [] else CommandLines(argv[..argc]))
  }

  /** The older variant logs through the free functions: the call site's file, no area. */
  function HeaderRecordArgv(text: string, site: Src): (r: Logger.Record)
    ensures r.loc.filename == site.file && r.loc.funcname.None?
    ensures r.level == L.SpdInfo && r.text == text
  {
    Logger.Info(Logger.FmtMsg(text, site.(mode := NoFunc)))
  }

  /** Both variants name the application and enumerate the command line alike. */
  lemma HeaderVariantsAgree(argc: int, argv: seq<string>, env: HeaderEnv, cwd: Option<string>)
    requires 0 <= argc <= |argv| && ValidEnv(env)
    ensures var a := LogHeader(CliArgs.FromArgv(argc, argv), env);
            var b := LogHeaderArgv(argc, argv, env.description, env.localTime, cwd);
            a[0] == b[0] && a[6..] == b[5..]
  {
    AppNameVariantsAgree(argc, argv);
  }
}

/** `Boot::DefaultInit`: initialise once, then hand back the same arguments. */
module BootInit {
  import CliArgs

  /**
   * The static state of `DefaultInit` plus how often its side effects ran:
   * the header was logged and the abort handlers were installed.
   */
  datatype InitState = InitState(inited: bool, args: seq<string>, headersLogged: nat,
                                 abortHandlerSetups: nat)

  const Initial: InitState := InitState(false, [], 0, 0)

  /** A call of `DefaultInit(argc, argv)`. */
  datatype Call = Call(argc: int, argv: seq<string>)

  predicate ValidCall(c: Call) {
    0 <= c.argc <= |c.argv|
  }

  function DefaultInit(st: InitState, c: Call): (r: (InitState, seq<string>))
    requires ValidCall(c)
    ensures st.inited ==> r == (st, st.args)
    ensures !st.inited ==> r.0.inited && r.1 == CliArgs.FromArgv(c.argc, c.argv) && r.0.args == r.1
    ensures !st.inited ==> (r.0.headersLogged == st.headersLogged + 1
                            && r.0.abortHandlerSetups == st.abortHandlerSetups + 1)
  {
    if st.inited then (st, st.args)
    else
      var args := CliArgs.FromArgv(c.argc, c.argv);
      (InitState(true, args, st.headersLogged + 1, st.abortHandlerSetups + 1), args)
  }

  /** Runs the calls in order, collecting what each returned. */
  function RunAll(st: InitState, calls: seq<Call>): (r: (InitState, seq<seq<string>>))
    requires forall i :: 0 <= i < |calls| ==> ValidCall(calls[i])
    ensures |r.1| == |calls|
    decreases |calls|
  {
    if |calls| == 0 then (st, [])
    else
      var (st1, args) := DefaultInit(st, calls[0]);
      var (st2, rest) := RunAll(st1, calls[1..]);
      (st2, [args] + rest)
  }

  lemma {:induction false} RunAllAfterInit(st: InitState, calls: seq<Call>)
    requires st.inited
    requires forall i :: 0 <= i < |calls| ==> ValidCall(calls[i])
    ensures RunAll(st, calls).0 == st
    ensures forall i :: 0 <= i < |calls| ==> RunAll(st, calls).1[i] == st.args
    decreases |calls|
  {
    if |calls| > 0 {
      RunAllAfterInit(st, calls[1..]);
    }
  }

  /**
   * However many times it is called, the header is logged and the handlers
   * installed exactly once, and every call returns the first call's arguments.
   */
  lemma RepeatedInitRunsOnce(calls: seq<Call>)
    requires |calls| > 0
    requires forall i :: 0 <= i < |calls| ==> ValidCall(calls[i])
    ensures var (st, results) := RunAll(Initial, calls);
            st.headersLogged == 1 && st.abortHandlerSetups == 1
            && forall i :: 0 <= i < |calls| ==> results[i] == calls[0].argv[..calls[0].argc]
  {
    var (st1, first) := DefaultInit(Initial, calls[0]);
    RunAllAfterInit(st1, calls[1..]);
    var r := RunAll(Initial, calls);
    var rest := RunAll(st1, calls[1..]);
    assert r == (rest.0, [first] + rest.1);
    forall i | 0 <= i < |calls| ensures r.1[i] == calls[0].argv[..calls[0].argc] {
      if i > 0 {
        assert r.1[i] == rest.1[i - 1];
      }
    }
  }
}

=== FILE: cli_args.dfy ===
/** `Boot::CliArgs`: the program's arguments as a vector of views. */
module CliArgs {
  import opened Core
  import opened Text

  /**
   * `CliArgs(argc, argv)`: the first `argc` entries of `argv`, in order. A
   * negative `argc` or one past the end of `argv` is undefined in the source.
   */
  function FromArgv(argc: int, argv: seq<string>): (args: seq<string>)
    requires 0 <= argc <= |argv|
    ensures |args| == argc
    ensures forall i :: 0 <= i < argc ==> args[i] == argv[i]
  {
    argv[..argc]
  }

  /** `Contains`: `any_of` over the arguments, comparing whole strings. */
  function Contains(args: seq<string>, str: string): (r: bool)
    ensures r <==> str in args
    ensures |args| == 0 ==> !r
  {
    if |args| == 0 then false
    else
      assert args == [args[0]] + args[1..];
      args[0] == str || Contains(args[1..], str)
  }

  /**
   * `GetIntArg`: `invalid_argument` past the end, otherwise whatever
   * `std::from_chars` makes of the argument's leading text.
   */
  function GetIntArg(args: seq<string>, index: nat): (r: Result<int>)
    ensures index >= |args| ==> r == Err(InvalidArgument)
    ensures index < |args| ==> r == FromChars(args[index])
    ensures r.Ok? ==> InIntRange(r.value)
  {
    if index >= |args| then Err(InvalidArgument) else FromChars(args[index])
  }

  /** An argument holding the decimal text of an `int` reads back as that `int`. */
  lemma GetIntArgRoundTrip(args: seq<string>, index: nat, n: int)
    requires index < |args| && InIntRange(n) && args[index] == IntToDecimal(n)
    ensures GetIntArg(args, index) == Ok(n)
  {
    FromCharsRoundTrip(n);
  }

  /** Only the leading digits count: "12ab" reads as 12. */
  lemma GetIntArgReadsLeadingDigits()
    ensures GetIntArg(["app", "12ab"], 1) == Ok(12)
  {
    var twelve := "12";
    assert NatToDecimal(1) == "1";
    assert NatToDecimal(12) == NatToDecimal(1) + [DigitChar(2)];
    assert IntToDecimal(12) == twelve;
    FromCharsRoundTrip(12);
    assert FromChars(twelve) == Ok(12);
    FromCharsIgnoresTail(twelve, "ab");
    assert twelve + "ab" == "12ab";
    assert GetIntArg(["app", "12ab"], 1) == FromChars("12ab");
  }

  /** Text without leading digits and a missing argument are both `invalid_argument`. */
  lemma GetIntArgRejects()
    ensures GetIntArg(["app", "ab"], 1) == Err(InvalidArgument)
    ensures GetIntArg(["app"], 1) == Err(InvalidArgument)
  {
    var ab := "ab";
    assert DigitRun(ab, 0) == 0;
  }
}

=== FILE: core.dfy ===
/**
 * Shared vocabulary of the model: an optional value (a nullable pointer or a
 * `std::string::npos` search result), the `std::errc` codes the code base
 * raises itself, and the `std::expected`-shaped result type every fallible
 * operation returns.
 */
module Core {

  /** A value that may be absent: a null pointer, `npos`, a Python `None`. */
  datatype Option<+T> = None | Some(value: T) {
    function GetOr(default: T): T {
      match this
      case Some(v) => v
      case None => default
    }
  }

  /**
   * Error codes. The named ones are the `std::errc` values the repository
   * constructs itself; `SystemError` stands for any code handed back by the
   * operating system, the resolver, TLS or Beast, which the model treats as
   * opaque.
   */
  datatype ErrorCode =
    | InvalidArgument
    | ResultOutOfRange
    | NotConnected
    | NoSuchFileOrDirectory
    | NotSupported
    | ProtocolError
    | IoError
    | SystemError(code: int)

  /** `std::expected<T, std::error_code>`. */
  datatype Result<+T> = Ok(value: T) | Err(error: ErrorCode) {
    predicate IsFailure() {
      Err?
    }

    function PropagateFailure<U>(): Result<U>
      requires Err?
    {
      Err(error)
    }

    function Extract(): T
      requires Ok?
    {
      value
    }
  }

  /** The width of a C++ `int` on every platform the repository targets. */
  const IntMin: int := -0x8000_0000
  const IntMax: int := 0x7FFF_FFFF

  predicate InIntRange(n: int) {
    IntMin <= n <= IntMax
  }

  /** A 32-bit unsigned value: `uint_least32_t` or `unsigned int`. */
  type Uint32 = n: int | 0 <= n < 0x1_0000_0000

  /** `static_cast<int>` of a 32-bit unsigned value: modular, as C++20 defines it. */
  function ToInt(n: Uint32): (r: int)
    ensures InIntRange(r)
    ensures (r - n) % 0x1_0000_0000 == 0
    ensures n <= IntMax <==> r == n
  {
    if n <= IntMax then n else n - 0x1_0000_0000
  }
}

=== FILE: cstr_view.dfy ===
/**
 * `String::CstrView`: a NUL-terminated copy of a string view, made only
 * when needed. The view's own memory is reused when the byte after it is
 * already NUL; short views are copied into an inline buffer and long ones
 * into an owned string.
 */
module CstrView {
  import opened Core
  import opened Text

  const Nul: char := '\0'
  const MaxStackSize: nat := 64

  /** Where `c_str()` points: the viewed memory, the inline buffer or the owned string. */
  datatype Region = Viewed | Stack | Heap

  /**
   * One `CstrView` object: the view, where its pointer goes, the inline
   * buffer (uninitialised bytes included) and the owned string.
   */
  datatype View = View(sv: string, ptr: Region, stack: seq<char>, heap: string)

  predicate WellFormed(v: View) {
    |v.stack| == MaxStackSize && (v.ptr == Stack ==> |v.sv| < MaxStackSize)
  }

  /** The characters before the first NUL: what a C API reads from the pointer. */
  function CString(mem: seq<char>): (r: string)
    requires Nul in mem
    ensures NoneOf(r, {Nul}) && |r| < |mem| && mem[..|r|] == r && mem[|r|] == Nul
    decreases |mem|
  {
    if mem[0] == Nul then [] else [mem[0]] + CString(mem[1..])
  }

  /** The memory `c_str()` points at, from the pointer up to and including the terminator. */
  function Pointee(v: View): (mem: seq<char>)
    requires WellFormed(v)
  {
    match v.ptr
    case Viewed => v.sv + [Nul]
    case Stack => v.stack[..|v.sv| + 1]
    case Heap => v.heap + [Nul]
  }

  /** Reusing the viewed memory needs a non-empty view whose next byte is NUL. */
  predicate CanReuse(sv: string, next: Option<char>) {
    |sv| > 0 && next == Some(Nul)
  }

  /**
   * The constructor. `next` is the byte just past the view, which the
   * constructor reads whenever the view is not empty; `junk` is the inline
   * buffer's uninitialised content.
   */
  function Make(sv: string, next: Option<char>, junk: seq<char>): (v: View)
    requires |sv| == 0 || next.Some?
    requires |junk| == MaxStackSize
    ensures WellFormed(v) && v.sv == sv
    ensures v.ptr == Viewed <==> CanReuse(sv, next)
    ensures v.ptr == Stack <==> !CanReuse(sv, next) && |sv| < MaxStackSize
    ensures v.ptr == Heap <==> !CanReuse(sv, next) && |sv| >= MaxStackSize
    ensures Pointee(v) == sv + [Nul]
  {
    if CanReuse(sv, next) then View(sv, Viewed, junk, "")
    else if |sv| < MaxStackSize then
      var buf := sv + [Nul] + junk[|sv| + 1..];
      assert buf[..|sv| + 1] == sv + [Nul];
      View(sv, Stack, buf, "")
    else View(sv, Heap, junk, sv)
  }

  /** A view without embedded NULs reads back unchanged through `c_str()`. */
  lemma {:induction false} CStringOfTerminated(s: string)
    requires NoneOf(s, {Nul})
    ensures CString(s + [Nul]) == s
    decreases |s|
  {
    if |s| > 0 {
      assert (s + [Nul])[1..] == s[1..] + [Nul];
      CStringOfTerminated(s[1..]);
    }
  }

  /** `c_str()` reads exactly the view, whichever branch the constructor took. */
  lemma CStrIsView(sv: string, next: Option<char>, junk: seq<char>)
    requires |sv| == 0 || next.Some?
    requires |junk| == MaxStackSize
    requires NoneOf(sv, {Nul})
    ensures CString(Pointee(Make(sv, next, junk))) == sv
  {
    CStringOfTerminated(sv);
  }
}

=== FILE: fs.dfy ===
/**
 * `Fs` drives: each maps a relative path to a native one. A native drive
 * joins a prefix, a runfiles drive asks Bazel's runfiles lookup, and an
 * overlay tries its drives in order.
 */
module Fs {
  import opened Core
  import opened Text
  import opened LogPath

  /** `path::has_filename()` on POSIX: non-empty and not ending in a separator. */
  predicate HasFilename(p: string) {
    |p| > 0 && p[|p| - 1] != '/'
  }

  /** `path::is_absolute()` on POSIX: starts at the root directory. */
  predicate IsAbsolute(p: string) {
    |p| > 0 && p[0] == '/'
  }

  /**
   * `prefix / rel` for POSIX paths: an absolute right side replaces the
   * prefix; otherwise one '/' is inserted only when the prefix ends in a
   * file name.
   */
  function Join(prefix: string, rel: string): (r: string)
    ensures IsSuffix(rel, r)
    ensures IsAbsolute(rel) ==> r == rel
    ensures !IsAbsolute(rel) ==> IsPrefix(prefix, r)
    ensures !IsAbsolute(rel) ==> |r| == |prefix| + |rel| + (if HasFilename(prefix) then 1 else 0)
    ensures !IsAbsolute(rel) && HasFilename(prefix) ==> r[|prefix|] == '/'
  {
    if IsAbsolute(rel) then rel
    else
      var r := if HasFilename(prefix) then prefix + "/" + rel else prefix + rel;
      assert r[..|prefix|] == prefix;
      assert r[|r| - |rel|..] == rel;
      r
  }

  /** The runfiles manifest: `Rlocation` answers "" for an unknown key. */
  datatype Runfiles = Runfiles(locations: map<string, string>) {
    function Rlocation(key: string): (native: string)
      ensures key !in locations ==> native == ""
    {
      if key in locations then locations[key] else ""
    }
  }

  /** `Drive` and its three implementations; a null `Drive*` in an overlay is `None`. */
  datatype Drive =
    | NativeDrive(prefixPath: string)
    | RunfilesDrive(workspaceName: string, runfiles: Option<Runfiles>)
    | OverlayDrive(drives: seq<Option<Drive>>)

  /**
   * `RunfilesDrive(workspaceName)`: `Runfiles::Create` is given the first
   * default argument (or "") and may fail, leaving the drive unsupported.
   */
  function MakeRunfilesDrive(workspaceName: string, defaultArgs: seq<string>,
                             create: string -> Option<Runfiles>): (d: Drive)
    ensures d.RunfilesDrive? && d.workspaceName == workspaceName
    ensures d.runfiles == create(if |defaultArgs| > 0 then defaultArgs[0] else "")
  {
    RunfilesDrive(workspaceName, create(if |defaultArgs| > 0 then defaultArgs[0] else ""))
  }

  /** `RunfilesDrive::IsSupported`. */
  function IsSupported(d: Drive): (r: bool)
    requires d.RunfilesDrive?
    ensures r <==> d.runfiles.Some?
  {
    d.runfiles.Some?
  }

  /** The key a runfiles drive looks up: "<workspace>/<path>". */
  function RunfileKey(workspaceName: string, path: string): (key: string)
    ensures IsPrefix(workspaceName + "/", key) && IsSuffix(path, key)
  {
    var key := workspaceName + "/" + path;
    assert key[..|workspaceName| + 1] == workspaceName + "/";
    assert key[|key| - |path|..] == path;
    key
  }

  /** `GetNativePath` of any drive. */
  function GetNativePath(d: Drive, path: string): (r: Result<string>)
    ensures d.NativeDrive? ==> r == Ok(Join(d.prefixPath, path))
    ensures d.RunfilesDrive? ==> (r == Err(NotSupported) <==> d.runfiles.None?)
    ensures d.RunfilesDrive? && d.runfiles.Some? ==>
              var native := d.runfiles.value.Rlocation(RunfileKey(d.workspaceName, path));
              (native == "" ==> r == Err(NoSuchFileOrDirectory)) && (native != "" ==> r == Ok(native))
    ensures d.RunfilesDrive? && r.Ok? ==> r.value != ""
    decreases d, 1
  {
    match d
    case NativeDrive(prefix) => Ok(Join(prefix, path))
    case RunfilesDrive(ws, rf) =>
      if rf.None? then Err(NotSupported)
      else
        var native := rf.value.Rlocation(RunfileKey(ws, path));
        if native == "" then Err(NoSuchFileOrDirectory) else Ok(native)
    case OverlayDrive(ds) => OverlayFrom(d, 0, path, NoSuchFileOrDirectory)
  }

  /**
   * The overlay loop from drive `i` on, with the error of the last drive
   * that failed so far.
   */
  function OverlayFrom(d: Drive, i: nat, path: string, lastError: ErrorCode): (r: Result<string>)
    requires d.OverlayDrive? && i <= |d.drives|
    decreases d, 0, |d.drives| - i
  {
    if i == |d.drives| then Err(lastError)
    else if d.drives[i].None? then OverlayFrom(d, i + 1, path, lastError)
    else
      match GetNativePath(d.drives[i].value, path)
      case Ok(native) => Ok(native)
      case Err(e) => OverlayFrom(d, i + 1, path, e)
  }

  /** Drive `i` is present and fails. */
  predicate FailsAt(ds: seq<Option<Drive>>, i: nat, path: string)
    requires i < |ds|
  {
    ds[i].Some? && GetNativePath(ds[i].value, path).Err?
  }

  /** The error of the last non-null drive among the first `n`, or `no_such_file_or_directory`. */
  function LastError(ds: seq<Option<Drive>>, n: nat, path: string): ErrorCode
    requires n <= |ds|
  {
    if n == 0 then NoSuchFileOrDirectory
    else if ds[n - 1].Some? && GetNativePath(ds[n - 1].value, path).Err? then
      GetNativePath(ds[n - 1].value, path).error
    else LastError(ds, n - 1, path)
  }

  /** The first present drive that succeeds decides the result. */
  lemma {:induction false} OverlayFirstSuccess(d: Drive, i: nat, k: nat, path: string, lastError: ErrorCode)
    requires d.OverlayDrive? && i <= k < |d.drives|
    requires d.drives[k].Some? && GetNativePath(d.drives[k].value, path).Ok?
    requires forall j :: i <= j < k ==> d.drives[j].None? || FailsAt(d.drives, j, path)
    ensures OverlayFrom(d, i, path, lastError) == GetNativePath(d.drives[k].value, path)
    decreases k - i
  {
    if i < k {
      if d.drives[i].None? {
        OverlayFirstSuccess(d, i + 1, k, path, lastError);
      } else {
        OverlayFirstSuccess(d, i + 1, k, path, GetNativePath(d.drives[i].value, path).error);
      }
    }
  }

  /** When every present drive fails, the last failure is reported. */
  lemma {:induction false} OverlayAllFail(d: Drive, i: nat, path: string, lastError: ErrorCode)
    requires d.OverlayDrive? && i <= |d.drives|
    requires forall j :: i <= j < |d.drives| ==> d.drives[j].None? || FailsAt(d.drives, j, path)
    requires lastError == LastError(d.drives, i, path)
    ensures OverlayFrom(d, i, path, lastError) == Err(LastError(d.drives, |d.drives|, path))
    decreases |d.drives| - i
  {
    if i < |d.drives| {
      if d.drives[i].None? {
        OverlayAllFail(d, i + 1, path, lastError);
      } else {
        OverlayAllFail(d, i + 1, path, GetNativePath(d.drives[i].value, path).error);
      }
    }
  }

  /**
   * The overlay answers exactly as its first successful drive, and with the
   * last drive's error (or `no_such_file_or_directory` when there was none)
   * when all fail.
   */
  lemma OverlayChoosesFirstSuccess(ds: seq<Option<Drive>>, path: string)
    ensures forall k :: (0 <= k < |ds| && ds[k].Some? && GetNativePath(ds[k].value, path).Ok?
                         && (forall j :: 0 <= j < k ==> ds[j].None? || FailsAt(ds, j, path))) ==>
              GetNativePath(OverlayDrive(ds), path) == GetNativePath(ds[k].value, path)
    ensures (forall j :: 0 <= j < |ds| ==> ds[j].None? || FailsAt(ds, j, path)) ==>
              GetNativePath(OverlayDrive(ds), path) == Err(LastError(ds, |ds|, path))
  {
    var d := OverlayDrive(ds);
    forall k | 0 <= k < |ds| && ds[k].Some? && GetNativePath(ds[k].value, path).Ok?
              && (forall j :: 0 <= j < k ==> ds[j].None? || FailsAt(ds, j, path))
      ensures GetNativePath(d, path) == GetNativePath(ds[k].value, path)
    {
      OverlayFirstSuccess(d, 0, k, path, NoSuchFileOrDirectory);
    }
    if forall j :: 0 <= j < |ds| ==> ds[j].None? || FailsAt(ds, j, path) {
      OverlayAllFail(d, 0, path, NoSuchFileOrDirectory);
    }
  }

  /** An overlay with no drives, or only null ones, finds nothing. */
  lemma EmptyOverlayFindsNothing(n: nat, path: string)
    ensures GetNativePath(OverlayDrive(seq(n, _ => None)), path) == Err(NoSuchFileOrDirectory)
  {
    var ds: seq<Option<Drive>> := seq(n, _ => None);
    OverlayChoosesFirstSuccess(ds, path);
    assert forall m :: 0 <= m <= n ==> LastError(ds, m, path) == NoSuchFileOrDirectory by {
      forall m | 0 <= m <= n ensures LastError(ds, m, path) == NoSuchFileOrDirectory {
        LastErrorOfNulls(ds, m, path);
      }
    }
  }

  lemma {:induction false} LastErrorOfNulls(ds: seq<Option<Drive>>, m: nat, path: string)
    requires m <= |ds| && forall j :: 0 <= j < |ds| ==> ds[j].None?
    ensures LastError(ds, m, path) == NoSuchFileOrDirectory
  {
    if m > 0 {
      LastErrorOfNulls(ds, m - 1, path);
    }
  }

  /** The native drive examples: prefix joining and overlay order. */
  lemma NativeAndOverlayExamples()
    ensures GetNativePath(NativeDrive("/prefix"), "subdir/file.txt") == Ok("/prefix/subdir/file.txt")
    ensures GetNativePath(OverlayDrive([Some(NativeDrive("/first")), Some(NativeDrive("/second")),
                                        Some(NativeDrive("/third"))]), "file.txt") == Ok("/first/file.txt")
  {
    var prefix := "/prefix";
    assert HasFilename(prefix) && !IsAbsolute("subdir/file.txt");
    assert prefix + "/" + "subdir/file.txt" == "/prefix/subdir/file.txt";
    var first := "/first";
    assert HasFilename(first) && !IsAbsolute("file.txt");
    assert first + "/" + "file.txt" == "/first/file.txt";
    var ds := [Some(NativeDrive("/first")), Some(NativeDrive("/second")), Some(NativeDrive("/third"))];
    OverlayFirstSuccess(OverlayDrive(ds), 0, 0, "file.txt", NoSuchFileOrDirectory);
  }

  /**
   * A runfiles drive built from the program arguments: it is supported
   * exactly when the runfiles could be created from the first argument, an
   * unsupported one answers `not_supported` for every path, and a supported
   * one answers the manifest's entry for "<workspace>/<path>".
   */
  lemma RunfilesDriveLookup(workspaceName: string, defaultArgs: seq<string>,
                            create: string -> Option<Runfiles>, path: string)
    ensures var d := MakeRunfilesDrive(workspaceName, defaultArgs, create);
      var arg0 := if |defaultArgs| > 0 then defaultArgs[0] else "";
      && (IsSupported(d) <==> create(arg0).Some?)
      && (GetNativePath(d, path) == Err(NotSupported) <==> !IsSupported(d))
      && (IsSupported(d) ==>
            var key := workspaceName + "/" + path;
            var locations := create(arg0).value.locations;
            GetNativePath(d, path)
              == if key in locations && locations[key] != "" then Ok(locations[key]) else Err(NoSuchFileOrDirectory))
  {
  }

  /** An unsupported runfiles drive in front of a native fallback lets the fallback answer. */
  lemma UnsupportedRunfilesFallsBack(workspace: string, fallback: string, path: string)
    ensures GetNativePath(OverlayDrive([Some(RunfilesDrive(workspace, None)), Some(NativeDrive(fallback))]), path)
            == Ok(Join(fallback, path))
  {
    var ds := [Some(RunfilesDrive(workspace, None)), Some(NativeDrive(fallback))];
    assert FailsAt(ds, 0, path);
    OverlayFirstSuccess(OverlayDrive(ds), 0, 1, path, NoSuchFileOrDirectory);
  }
}

=== FILE: harness.dfy ===
/**
 * The Python integration harness, as decision logic over an oracle. A
 * runner starts a server process, polls it over HTTP until it answers or a
 * deadline passes, runs the client and shuts the server down. Processes,
 * `urlopen`, `time.time()` and `sleep` are not executed: the clock
 * readings, poll results, HTTP answers and exit codes are inputs, and the
 * runner's externally visible actions are its output. Times are integer
 * milliseconds.
 */
module Harness {
  import opened Core
  import opened Text

  datatype Signal = Interrupt | Terminate

  /** What a runner does to the outside world, in order. */
  datatype Action =
    | Spawn(cmd: seq<string>)     // `Popen`, left running
    | Run(cmd: seq<string>)       // a process run to completion
    | Poll                        // `poll()` on the server
    | Urlopen(url: string)        // one readiness request
    | Sleep(ms: nat)
    | Send(sig: Signal)
    | WaitUpTo(ms: nat)           // `wait(timeout=…)`
    | Kill
    | WaitExit                    // `wait()` without a timeout

  /** How a runner ends: `main`'s return value, or an exception that escapes it. */
  datatype Exit = Returned(code: int) | Raised

  /** How one readiness request ends: an answer, a `URLError` (an `HTTPError` included), or another exception. */
  datatype Answer = Answered | Refused | Failed

  /** One round of the readiness loop: the clock reading, whether `poll()` shows an exit, the HTTP outcome. */
  datatype Probe = Probe(now: int, exited: bool, answer: Answer)

  /** A readiness loop: its timeout, its pause between attempts, and whether it checks the process first. */
  datatype WaitConfig = WaitConfig(timeoutMs: int, sleepMs: nat, checksLiveness: bool)

  datatype Readiness = Ready | NotReady | Threw

  datatype WaitOutcome = WaitOutcome(result: Readiness, actions: seq<Action>, used: nat)

  predicate PastDeadline(cfg: WaitConfig, start: int, p: Probe) {
    p.now - start >= cfg.timeoutMs
  }

  /** The round that ends the loop without a decision of its own: another attempt follows it. */
  predicate Retries(cfg: WaitConfig, start: int, p: Probe) {
    !PastDeadline(cfg, start, p) && !(cfg.checksLiveness && p.exited) && p.answer == Refused
  }

  /** The oracle covers the whole loop: its last clock reading is past the deadline. */
  predicate Covers(cfg: WaitConfig, start: int, probes: seq<Probe>) {
    |probes| > 0 && PastDeadline(cfg, start, probes[|probes| - 1])
  }

  /**
   * The readiness loop from round `i` on. Each round reads the clock and
   * gives up at the deadline; a checking loop then gives up at once if the
   * process has exited; then it tries the URL, and on a `URLError` sleeps
   * and goes round again. Any other exception escapes.
   */
  function WaitFrom(cfg: WaitConfig, url: string, start: int, probes: seq<Probe>, i: nat): (o: WaitOutcome)
    requires i < |probes| && Covers(cfg, start, probes)
    ensures i <= o.used < |probes|
    ensures forall j :: i <= j < o.used ==> Retries(cfg, start, probes[j])
    ensures !Retries(cfg, start, probes[o.used])
    ensures o.result == Ready
            <==> !PastDeadline(cfg, start, probes[o.used]) && !(cfg.checksLiveness && probes[o.used].exited)
                 && probes[o.used].answer == Answered
    ensures o.result == Threw
            <==> !PastDeadline(cfg, start, probes[o.used]) && !(cfg.checksLiveness && probes[o.used].exited)
                 && probes[o.used].answer == Failed
    ensures forall a :: a in o.actions ==> a == Poll || a == Urlopen(url) || a == Sleep(cfg.sleepMs)
    ensures !cfg.checksLiveness ==> Poll !in o.actions
    ensures PastDeadline(cfg, start, probes[o.used]) ==> (o.actions == [] || o.actions[|o.actions| - 1] == Sleep(cfg.sleepMs))
    decreases |probes| - i
  {
    var p := probes[i];
    if PastDeadline(cfg, start, p) then WaitOutcome(NotReady, [], i)
    else if cfg.checksLiveness && p.exited then WaitOutcome(NotReady, [Poll], i)
    else
      var attempt := (if cfg.checksLiveness then [Poll] else []) + [Urlopen(url)];
      match p.answer
      case Answered => WaitOutcome(Ready, attempt, i)
      case Failed => WaitOutcome(Threw, attempt, i)
      case Refused =>
        var rest := WaitFrom(cfg, url, start, probes, i + 1);
        WaitOutcome(rest.result, attempt + [Sleep(cfg.sleepMs)] + rest.actions, rest.used)
  }

  function Wait(cfg: WaitConfig, url: string, start: int, probes: seq<Probe>): (o: WaitOutcome)
    requires Covers(cfg, start, probes)
  {
    WaitFrom(cfg, url, start, probes, 0)
  }

  /** A loop that sees the server exit gives up right after that `poll()`, without another request. */
  lemma {:induction false} ExitSeenStopsBeforeRequest(cfg: WaitConfig, url: string, start: int, probes: seq<Probe>, i: nat)
    requires i < |probes| && Covers(cfg, start, probes)
    requires cfg.checksLiveness
    requires var o := WaitFrom(cfg, url, start, probes, i);
      !PastDeadline(cfg, start, probes[o.used]) && probes[o.used].exited
    ensures var o := WaitFrom(cfg, url, start, probes, i);
      o.result == NotReady && |o.actions| > 0 && o.actions[|o.actions| - 1] == Poll
    decreases |probes| - i
  {
    if Retries(cfg, start, probes[i]) {
      ExitSeenStopsBeforeRequest(cfg, url, start, probes, i + 1);
    }
  }

  /**
   * Checking the process only ever cuts the loop short: while the process
   * is alive in every round, the checking loop reaches the same verdict as
   * one that never checks.
   */
  lemma {:induction false} LivenessOnlyShortens(timeoutMs: int, sleepMs: nat, url: string, start: int,
                                               probes: seq<Probe>, i: nat)
    requires i < |probes|
    requires Covers(WaitConfig(timeoutMs, sleepMs, true), start, probes)
    requires forall j :: i <= j < |probes| ==> !probes[j].exited
    ensures WaitFrom(WaitConfig(timeoutMs, sleepMs, true), url, start, probes, i).result
            == WaitFrom(WaitConfig(timeoutMs, sleepMs, false), url, start, probes, i).result
    decreases |probes| - i
  {
    var p := probes[i];
    if !PastDeadline(WaitConfig(timeoutMs, sleepMs, true), start, p) && p.answer == Refused {
      LivenessOnlyShortens(timeoutMs, sleepMs, url, start, probes, i + 1);
    }
  }

  /**
   * Whether the server process has exited by the time `_shutdown_process`
   * looks, and whether it stops within three seconds of the signal.
   */
  datatype ServerFate = ServerFate(exited: bool, stopsInTime: bool)

  const GraceMs: nat := 3000

  /** The signal a graceful stop sends: `terminate()` on Windows, SIGINT elsewhere. */
  function StopSignal(win32: bool): (s: Signal)
    ensures win32 <==> s == Terminate
  {
    if win32 then Terminate else Interrupt
  }

  /** Signal, wait up to three seconds, and only then kill and wait without limit. */
  function SignalThenKill(sig: Signal, fate: ServerFate): (actions: seq<Action>)
    ensures |actions| >= 2 && actions[..2] == [Send(sig), WaitUpTo(GraceMs)]
    ensures Kill in actions <==> !fate.stopsInTime
    ensures !fate.stopsInTime ==> actions[2..] == [Kill, WaitExit]
    ensures fate.stopsInTime ==> |actions| == 2
  {
    [Send(sig), WaitUpTo(GraceMs)] + (if fate.stopsInTime then [] else [Kill, WaitExit])
  }

  /**
   * `_shutdown_process`: nothing without a process; only a `poll()` for
   * one that has already exited; otherwise a poll and a graceful stop that
   * escalates to a kill.
   */
  function ShutdownProcess(server: Option<ServerFate>, win32: bool): (actions: seq<Action>)
    ensures server.None? <==> actions == []
    ensures server.Some? ==> actions[0] == Poll
    ensures server.Some? && server.value.exited ==> actions == [Poll]
    ensures (exists s :: s in [Interrupt, Terminate] && Send(s) in actions) <==> server.Some? && !server.value.exited
    ensures Kill in actions <==> server.Some? && !server.value.exited && !server.value.stopsInTime
    ensures forall a :: a in actions ==> a == Poll || a.Send? || a.WaitUpTo? || a == Kill || a == WaitExit
  {
    match server
    case None => []
    case Some(fate) =>
      if fate.exited then [Poll]
      else
        var stop := SignalThenKill(StopSignal(win32), fate);
        assert Send(StopSignal(win32)) in stop;
        [Poll] + stop
  }

  /**
   * Python's `str.isspace` on one character: the ASCII controls 0x09-0x0D
   * and 0x1C-0x1F, the space, NEL, no-break space, and the Unicode spaces
   * and line and paragraph separators.
   */
  predicate IsSpace(c: char) {
    ('\t' <= c <= '\r') || ('\U{1C}' <= c <= ' ')
    || c == '\U{85}' || c == '\U{A0}' || c == '\U{1680}'
    || ('\U{2000}' <= c <= '\U{200A}')
    || c == '\U{2028}' || c == '\U{2029}' || c == '\U{202F}' || c == '\U{205F}' || c == '\U{3000}'
  }

  /** `str.rstrip()`: the text without its trailing whitespace. */
  function RStrip(s: string): (r: string)
    ensures |r| <= |s| && s[..|r|] == r
    ensures |r| == 0 || !IsSpace(r[|r| - 1])
    ensures forall k :: |r| <= k < |s| ==> IsSpace(s[k])
    decreases |s|
  {
    if |s| == 0 || !IsSpace(s[|s| - 1]) then s else RStrip(s[..|s| - 1])
  }

  /** Unicode spaces go too, but a zero-width space is not white space to Python. */
  lemma RStripUnicodeSpaces()
    ensures RStrip("ok \U{A0}\U{3000}\r\n") == "ok"
    ensures RStrip("ok\U{200B}") == "ok\U{200B}"
  {
    var s := "ok \U{A0}\U{3000}\r\n";
    assert s[..6] == "ok \U{A0}\U{3000}\r";
    assert s[..5] == "ok \U{A0}\U{3000}";
    assert s[..4] == "ok \U{A0}";
    assert s[..3] == "ok ";
    assert s[..2] == "ok";
  }

  /** Stripping twice changes nothing. */
  lemma RStripIdempotent(s: string)
    ensures RStrip(RStrip(s)) == RStrip(s)
  {
  }

  /**
   * `_log_process_output`: every line read from the child, in order, is
   * printed with the process's prefix and without trailing whitespace.
   */
  function ForwardOutput(prefix: string, lines: seq<string>): (out: seq<string>)
    ensures |out| == |lines|
    ensures forall i :: 0 <= i < |lines| ==> out[i] == prefix + RStrip(lines[i])
  {
    seq(|lines|, i requires 0 <= i < |lines| => prefix + RStrip(lines[i]))
  }

  /** Forwarding a longer output forwards the earlier lines the same way, in the same order. */
  lemma ForwardOutputAppends(prefix: string, lines: seq<string>, more: seq<string>)
    ensures ForwardOutput(prefix, lines + more) == ForwardOutput(prefix, lines) + ForwardOutput(prefix, more)
  {
  }

  /** `f"http://{host}:{port}"`. */
  function ServerUrl(host: string, port: int): (url: string)
    ensures url == "http://" + host + ":" + IntToDecimal(port)
    ensures url[..7] == "http://" && url[7..7 + |host|] == host && url[7 + |host|] == ':'
  {
    var url := "http://" + host + ":" + IntToDecimal(port);
    assert url[7..7 + |host|] == host;
    url
  }

  /** Whether `main`'s `except Exception` turned the runner's exceptions into exit code 1. */
  predicate Caught(e: Exit) {
    e.Returned?
  }
}

/**
 * `integration_bridge.py`: the generic bridge that starts a server binary,
 * waits for its `/health` endpoint and runs a client binary with the
 * command-line arguments the bridge does not know itself.
 */
module Bridge {
  import opened Core
  import opened Text
  import opened Harness

  const DefaultHost: string := "localhost"
  const DefaultPort: int := 8080
  const DefaultTimeoutS: int := 30
  const PollSleepMs: nat := 500

  datatype Options = Options(
    serverBinary: string, clientBinary: string,
    host: string, port: int, timeoutS: int, clientArgs: Option<seq<string>>)

  /**
   * What `argparse` hands back: the two positionals, the options that were
   * given, and the arguments it did not recognise, in order.
   */
  datatype Parsed = Parsed(
    server: string, client: string,
    host: Option<string>, port: Option<int>, timeoutS: Option<int>, unknown: seq<string>)

  /** `parse_args`: the defaults fill what is missing, and no unknown arguments is `None`. */
  function ParseArgs(p: Parsed): (o: Options)
    ensures o.serverBinary == p.server && o.clientBinary == p.client
    ensures o.host == p.host.GetOr(DefaultHost) && o.port == p.port.GetOr(DefaultPort)
    ensures o.timeoutS == p.timeoutS.GetOr(DefaultTimeoutS)
    ensures o.clientArgs.None? <==> p.unknown == []
    ensures o.clientArgs.Some? ==> o.clientArgs.value == p.unknown
  {
    Options(p.server, p.client, p.host.GetOr(DefaultHost), p.port.GetOr(DefaultPort),
            p.timeoutS.GetOr(DefaultTimeoutS), if p.unknown == [] then None else Some(p.unknown))
  }

  /** With nothing but the two binaries, the bridge targets http://localhost:8080 with 30 s to start. */
  lemma Defaults(server: string, client: string)
    ensures var o := ParseArgs(Parsed(server, client, None, None, None, []));
      o.host == "localhost" && o.port == 8080 && o.timeoutS == 30 && o.clientArgs.None?
      && ServerUrl(o.host, o.port) == "http://localhost:8080"
  {
    assert IntToDecimal(8080) == "8080";
  }

  function ReadinessConfig(o: Options): WaitConfig {
    WaitConfig(o.timeoutS * 1000, PollSleepMs, true)
  }

  /** The client's command: the binary, then the unknown arguments in order. */
  function ClientCommand(o: Options): (cmd: seq<string>)
    ensures cmd == [o.clientBinary] + o.clientArgs.GetOr([])
  {
    [o.clientBinary] + (if o.clientArgs.Some? then o.clientArgs.value else [])
  }

  /** Everything the bridge's run depends on besides its options. */
  datatype Env = Env(
    existing: set<string>,
    spawnRaises: bool,
    start: int, probes: seq<Probe>,
    clientRaises: bool, clientCode: int,
    fate: ServerFate, win32: bool)

  /** A process that was seen to exit while waiting is still gone at shutdown. */
  predicate ValidEnv(o: Options, env: Env) {
    Covers(ReadinessConfig(o), env.start, env.probes)
    && ((exists j :: 0 <= j < |env.probes| && env.probes[j].exited) ==> env.fate.exited)
  }

  /**
   * `main`: the binaries must exist; then, inside `try`, the server is
   * started, polled at `/health`, and the client run; the client's exit
   * code is the verdict, any exception is 1, and the server is shut down
   * in `finally`.
   */
  function Main(o: Options, env: Env): (r: (Exit, seq<Action>))
    requires ValidEnv(o, env)
    ensures o.serverBinary !in env.existing || o.clientBinary !in env.existing ==> r == (Returned(1), [])
    ensures Caught(r.0)
  {
    if o.serverBinary !in env.existing || o.clientBinary !in env.existing then (Returned(1), [])
    else if env.spawnRaises then (Returned(1), ShutdownProcess(None, env.win32))
    else
      var started := [Spawn([o.serverBinary])];
      var stop := ShutdownProcess(Some(env.fate), env.win32);
      var w := Wait(ReadinessConfig(o), ServerUrl(o.host, o.port) + "/health", env.start, env.probes);
      if w.result != Ready then (Returned(1), started + w.actions + stop)
      else if env.clientRaises then (Returned(1), started + w.actions + stop)
      else (Returned(env.clientCode), started + w.actions + [Run(ClientCommand(o))] + stop)
  }

  /** The server is started alone, and the first request goes to its `/health` endpoint. */
  lemma ServerLaunchAndProbe(o: Options, env: Env)
    requires ValidEnv(o, env) && o.serverBinary in env.existing && o.clientBinary in env.existing
    requires !env.spawnRaises
    ensures Main(o, env).1[0] == Spawn([o.serverBinary])
    ensures forall a :: a in Main(o, env).1 && a.Urlopen? ==> a.url == ServerUrl(o.host, o.port) + "/health"
  {
    var url := ServerUrl(o.host, o.port) + "/health";
    var w := Wait(ReadinessConfig(o), url, env.start, env.probes);
    var stop := ShutdownProcess(Some(env.fate), env.win32);
    var client := if w.result == Ready && !env.clientRaises then [Run(ClientCommand(o))] else [];
    assert Main(o, env).1 == [Spawn([o.serverBinary])] + w.actions + client + stop;
  }

  /** A server that never becomes ready fails the run with 1, and the client is never started. */
  lemma NotReadyNoClient(o: Options, env: Env)
    requires ValidEnv(o, env) && o.serverBinary in env.existing && o.clientBinary in env.existing
    requires !env.spawnRaises
    requires Wait(ReadinessConfig(o), ServerUrl(o.host, o.port) + "/health", env.start, env.probes).result != Ready
    ensures Main(o, env).0 == Returned(1)
    ensures forall a :: a in Main(o, env).1 ==> !a.Run?
  {
    var w := Wait(ReadinessConfig(o), ServerUrl(o.host, o.port) + "/health", env.start, env.probes);
    var stop := ShutdownProcess(Some(env.fate), env.win32);
    assert Main(o, env).1 == [Spawn([o.serverBinary])] + w.actions + stop;
  }

  /** Once the server is started, every way out of `main` ends with its shutdown. */
  lemma ShutdownOnEveryPath(o: Options, env: Env)
    requires ValidEnv(o, env) && o.serverBinary in env.existing && o.clientBinary in env.existing
    requires !env.spawnRaises
    ensures var trace := Main(o, env).1; var stop := ShutdownProcess(Some(env.fate), env.win32);
      |stop| <= |trace| && trace[|trace| - |stop|..] == stop
  {
  }

  /** The verdict of a run that reached the client is the client's own exit code. */
  lemma ClientCodeIsVerdict(o: Options, env: Env)
    requires ValidEnv(o, env) && o.serverBinary in env.existing && o.clientBinary in env.existing
    requires !env.spawnRaises && !env.clientRaises
    requires Wait(ReadinessConfig(o), ServerUrl(o.host, o.port) + "/health", env.start, env.probes).result == Ready
    ensures Main(o, env).0 == Returned(env.clientCode)
    ensures Run(ClientCommand(o)) in Main(o, env).1
  {
  }

  /** A server that crashed while the bridge waited is not signalled at shutdown. */
  lemma CrashedServerNotSignalled(o: Options, env: Env)
    requires ValidEnv(o, env) && o.serverBinary in env.existing && o.clientBinary in env.existing
    requires !env.spawnRaises
    requires var w := Wait(ReadinessConfig(o), ServerUrl(o.host, o.port) + "/health", env.start, env.probes);
      !PastDeadline(ReadinessConfig(o), env.start, env.probes[w.used]) && env.probes[w.used].exited
    ensures Main(o, env).0 == Returned(1)
    ensures forall a :: a in Main(o, env).1 ==> !a.Send? && a != Kill
  {
    var w := Wait(ReadinessConfig(o), ServerUrl(o.host, o.port) + "/health", env.start, env.probes);
    assert env.fate.exited;
    assert Main(o, env).1 == [Spawn([o.serverBinary])] + w.actions + [Poll];
  }
}

/**
 * `integration_test_runner.py`: the stub-server runner. Its arguments are
 * the client binary, then the server binary; the server listens on
 * localhost:8080 over IPv6 and readiness is polled at `/get`.
 */
module StubRunner {
  import opened Core
  import opened Harness

  const Host: string := "localhost"
  const Port: nat := 8080
  const ServerBase: string := "http://localhost:8080"
  const Readiness: WaitConfig := WaitConfig(30000, 500, true)

  function ServerCommand(server: string): (cmd: seq<string>)
    ensures cmd == [server, "--host", Host, "--port", "8080", "--ipv6"]
  {
    [server, "--host", Host, "--port", "8080", "--ipv6"]
  }

  function ClientCommand(client: string): (cmd: seq<string>)
    ensures cmd == [client, "--url", ServerBase]
  {
    [client, "--url", ServerBase]
  }

  /** The base URL is the one `ServerUrl` builds from the fixed host and port. */
  lemma BaseUrlMatches()
    ensures ServerUrl(Host, Port) == ServerBase
  {
    assert Text.IntToDecimal(8080) == "8080";
  }

  datatype Env = Env(
    existing: set<string>,
    spawnRaises: bool,
    start: int, probes: seq<Probe>,
    clientRaises: bool, clientCode: int,
    fate: ServerFate, win32: bool)

  predicate ValidEnv(env: Env) {
    Covers(Readiness, env.start, env.probes)
    && ((exists j :: 0 <= j < |env.probes| && env.probes[j].exited) ==> env.fate.exited)
  }

  /** `main` over `sys.argv` (the script name first). */
  function Main(argv: seq<string>, env: Env): (r: (Exit, seq<Action>))
    requires ValidEnv(env)
    ensures |argv| < 3 ==> r == (Returned(1), [])
    ensures |argv| >= 3 && (argv[1] !in env.existing || argv[2] !in env.existing) ==> r == (Returned(1), [])
    ensures Caught(r.0)
  {
    if |argv| < 3 then (Returned(1), [])
    else
      var client := argv[1];
      var server := argv[2];
      if client !in env.existing || server !in env.existing then (Returned(1), [])
      else if env.spawnRaises then (Returned(1), ShutdownProcess(None, env.win32))
      else
        var started := [Spawn(ServerCommand(server))];
        var stop := ShutdownProcess(Some(env.fate), env.win32);
        var w := Wait(Readiness, ServerBase + "/get", env.start, env.probes);
        if w.result != Ready then (Returned(1), started + w.actions + stop)
        else if env.clientRaises then (Returned(1), started + w.actions + stop)
        else (Returned(env.clientCode), started + w.actions + [Run(ClientCommand(client))] + stop)
  }

  /** The client is the first argument and the server the second; a ready server runs the client against it. */
  lemma ArgumentOrder(script: string, client: string, server: string, env: Env)
    requires ValidEnv(env) && client in env.existing && server in env.existing && !env.spawnRaises && !env.clientRaises
    requires Wait(Readiness, ServerBase + "/get", env.start, env.probes).result == Ready
    ensures var r := Main([script, client, server], env);
      r.0 == Returned(env.clientCode) && r.1[0] == Spawn(ServerCommand(server))
      && Run(ClientCommand(client)) in r.1
  {
  }

  /** Without readiness the run fails with 1 and the client never runs; the server is still shut down. */
  lemma NotReadyNoClient(argv: seq<string>, env: Env)
    requires ValidEnv(env) && |argv| >= 3 && argv[1] in env.existing && argv[2] in env.existing && !env.spawnRaises
    requires Wait(Readiness, ServerBase + "/get", env.start, env.probes).result != Ready
    ensures Main(argv, env).0 == Returned(1)
    ensures forall a :: a in Main(argv, env).1 ==> !a.Run?
    ensures var trace := Main(argv, env).1; var stop := ShutdownProcess(Some(env.fate), env.win32);
      |stop| <= |trace| && trace[|trace| - |stop|..] == stop
  {
    var w := Wait(Readiness, ServerBase + "/get", env.start, env.probes);
    var stop := ShutdownProcess(Some(env.fate), env.win32);
    assert Main(argv, env).1 == [Spawn(ServerCommand(argv[2]))] + w.actions + stop;
  }
}

=== FILE: http1.dfy ===
/**
 * The HTTP/1.1 demo client over raw sockets: the request text it sends,
 * the receive loop, and how the raw reply is split into status, header
 * block and body. Socket, resolver, TLS and read outcomes are oracle inputs.
 */
module Http1 {
  import opened Core
  import opened Text

  /** The demo's response record; a default one has status 0 and empty texts. */
  datatype HttpResponse = HttpResponse(statusCode: int, headers: string, body: string)

  const DefaultResponse: HttpResponse := HttpResponse(0, "", "")

  const CrlfCrlf: string := "\r\n\r\n"
  const LfLf: string := "\n\n"

  /**
   * Where the header block ends and how long the separator is: the first
   * "\r\n\r\n", or only when there is none the first "\n\n".
   */
  function HeaderEnd(raw: string): (r: Option<(nat, nat)>)
    ensures r.Some? ==> (r.value.1 == 4 || r.value.1 == 2) && r.value.0 + r.value.1 <= |raw|
    ensures r.Some? && r.value.1 == 4 <==> Find(raw, CrlfCrlf, 0).Some?
    ensures r.Some? && r.value.1 == 4 ==> Some(r.value.0) == Find(raw, CrlfCrlf, 0)
    ensures r.Some? && r.value.1 == 2 ==> Some(r.value.0) == Find(raw, LfLf, 0)
    ensures r.None? <==> Find(raw, CrlfCrlf, 0).None? && Find(raw, LfLf, 0).None?
  {
    match Find(raw, CrlfCrlf, 0)
    case Some(k) => Some((k, 4))
    case None =>
      match Find(raw, LfLf, 0)
      case Some(k) => Some((k, 2))
      case None => None
  }

  /** `h` holds at least two spaces. */
  predicate TwoSpaces(h: string) {
    exists i, j :: 0 <= i < j < |h| && h[i] == ' ' && h[j] == ' '
  }

  /** `t` is the text between the first space of `h` and the space that follows it. */
  predicate BetweenFirstSpaces(t: string, h: string) {
    exists i :: 0 <= i && i + |t| + 1 < |h| && NoneOf(h[..i], {' '}) && h[i] == ' '
                && h[i + 1..i + 1 + |t|] == t && h[i + 1 + |t|] == ' '
  }

  /** A one-character find of " " is a look at one character. */
  lemma SpaceIsAt(h: string, j: nat)
    requires j < |h|
    ensures IsAt(h, " ", j) <==> h[j] == ' '
  {
    assert h[j..j + 1] == [h[j]];
  }

  /**
   * The status text: there is one exactly when the header block holds two
   * spaces, and it is the space-free text between the first two.
   */
  function StatusText(headers: string): (r: Option<string>)
    ensures r.Some? <==> TwoSpaces(headers)
    ensures r.Some? ==> BetweenFirstSpaces(r.value, headers) && NoneOf(r.value, {' '})
  {
    assert forall j :: 0 <= j < |headers| ==> (IsAt(headers, " ", j) <==> headers[j] == ' ') by {
      forall j | 0 <= j < |headers| ensures IsAt(headers, " ", j) <==> headers[j] == ' ' {
        SpaceIsAt(headers, j);
      }
    }
    match Find(headers, " ", 0)
    case None => None
    case Some(first) =>
      match Find(headers, " ", first + 1)
      case None =>
        None
      case Some(second) =>
        var t := headers[first + 1..second];
        assert headers[first] == ' ' && headers[second] == ' ';
        assert NoneOf(headers[..first], {' '}) by {
          forall k | 0 <= k < first ensures headers[..first][k] != ' ' {
            assert !IsAt(headers, " ", k);
          }
        }
        assert NoneOf(t, {' '}) by {
          forall k | 0 <= k < |t| ensures t[k] != ' ' {
            assert !IsAt(headers, " ", first + 1 + k);
          }
        }
        Some(t)
  }

  /** `std::stoi` of the status text does not throw (or there is no status text). */
  predicate StatusParses(headers: string) {
    StatusText(headers).Some? ==> StoiDefined(StatusText(headers).value)
  }

  function HeaderBlock(raw: string): string {
    match HeaderEnd(raw)
    case Some((k, _)) => raw[..k]
    case None => raw
  }

  /** The precondition of `parseHttpResponse`: `std::stoi` must not throw. */
  predicate ParseDefined(raw: string) {
    StatusParses(HeaderBlock(raw))
  }

  /**
   * `parseHttpResponse`: headers are the text before the separator (all of it
   * without one), the body is the text after it (kept from `prior` without
   * one), and the status is the integer between the first two spaces of the
   * header block (kept from `prior` without two spaces).
   */
  function ParseHttpResponse(raw: string, prior: HttpResponse): (r: HttpResponse)
    requires ParseDefined(raw)
    ensures HeaderEnd(raw).Some? ==>
              var (k, len) := HeaderEnd(raw).value;
              r.headers == raw[..k] && r.body == raw[k + len..]
              && IsAt(raw, if len == 4 then CrlfCrlf else LfLf, k)
    ensures HeaderEnd(raw).None? ==> r.headers == raw && r.body == prior.body
    ensures StatusText(r.headers).None? ==> r.statusCode == prior.statusCode
    ensures StatusText(r.headers).Some? ==> r.statusCode == Stoi(StatusText(r.headers).value)
  {
    var headers := HeaderBlock(raw);
    var status :=
      match StatusText(headers)
      case Some(text) => Stoi(text)
      case None => prior.statusCode;
    match HeaderEnd(raw)
    case Some((k, len)) =>
      HeaderEndIsAt(raw, k, len);
      HttpResponse(status, headers, raw[k + len..])
    case None => HttpResponse(status, headers, prior.body)
  }

  /** The end `HeaderEnd` reports holds the separator it names. */
  lemma HeaderEndIsAt(raw: string, k: nat, len: nat)
    requires HeaderEnd(raw) == Some((k, len))
    ensures k + len <= |raw| && HeaderBlock(raw) == raw[..k]
    ensures IsAt(raw, if len == 4 then CrlfCrlf else LfLf, k)
  {
  }

  /** The split loses nothing: header block, separator and body make up the reply. */
  lemma SplitIsPartition(raw: string, prior: HttpResponse)
    requires ParseDefined(raw) && HeaderEnd(raw).Some?
    ensures var r := ParseHttpResponse(raw, prior);
            raw == r.headers + (if HeaderEnd(raw).value.1 == 4 then CrlfCrlf else LfLf) + r.body
  {
    var (k, len) := HeaderEnd(raw).value;
    assert raw == raw[..k] + raw[k..k + len] + raw[k + len..];
  }

  /** The first "\r\n\r\n" of `h + "\r\n\r\n"` is the appended one. */
  predicate SeparatorFree(h: string) {
    forall j :: 0 <= j < |h| ==> !IsAt(h + CrlfCrlf, CrlfCrlf, j)
  }

  /** A header block without carriage returns never hides a separator. */
  lemma NoCarriageReturnIsSeparatorFree(h: string)
    requires NoneOf(h, {'\r'})
    ensures SeparatorFree(h)
  {
    forall j | 0 <= j < |h|
      ensures !IsAt(h + CrlfCrlf, CrlfCrlf, j)
    {
      assert (h + CrlfCrlf)[j..j + 4][0] == h[j];
    }
  }

  /**
   * Round trip: a reply assembled as header block, "\r\n\r\n" and body is
   * split back into exactly that header block and body.
   */
  lemma SplitRoundTrip(h: string, b: string, prior: HttpResponse)
    requires SeparatorFree(h)
    requires StatusParses(h)
    ensures ParseDefined(h + CrlfCrlf + b)
    ensures ParseHttpResponse(h + CrlfCrlf + b, prior).headers == h
    ensures ParseHttpResponse(h + CrlfCrlf + b, prior).body == b
  {
    var raw := h + CrlfCrlf + b;
    assert raw[..|h| + 4] == h + CrlfCrlf;
    forall j | 0 <= j < |h|
      ensures !IsAt(raw, CrlfCrlf, j)
    {
      assert !IsAt(h + CrlfCrlf, CrlfCrlf, j);
      assert raw[j..j + 4] == (h + CrlfCrlf)[j..j + 4];
    }
    assert raw[|h|..|h| + 4] == CrlfCrlf;
    FindIsFirst(raw, CrlfCrlf, 0, |h|);
    assert raw[..|h|] == h;
    assert raw[|h| + 4..] == b;
  }

  /** Without any separator the whole reply is the header block and the body stays as it was. */
  lemma NoSeparatorKeepsBody(raw: string, prior: HttpResponse)
    requires NoneOf(raw, {'\n'})
    requires ParseDefined(raw)
    ensures ParseHttpResponse(raw, prior).headers == raw
    ensures ParseHttpResponse(raw, prior).body == prior.body
  {
    forall j | 0 <= j
      ensures !IsAt(raw, CrlfCrlf, j) && !IsAt(raw, LfLf, j)
    {
      if j + 4 <= |raw| {
        assert raw[j + 1] == raw[j..j + 4][1];
      }
      if j + 2 <= |raw| {
        assert raw[j] == raw[j..j + 2][0];
      }
    }
  }

  /** A bare "\n\n" separator is used when no "\r\n\r\n" exists: "H\n\nB" splits into "H" and "B". */
  lemma LfLfFallback()
    ensures ParseDefined("H\n\nB")
    ensures ParseHttpResponse("H\n\nB", DefaultResponse) == HttpResponse(0, "H", "B")
  {
    var raw := "H\n\nB";
    forall j | 0 <= j
      ensures !IsAt(raw, CrlfCrlf, j)
    {
      if j + 4 <= |raw| {
        assert raw[j] == raw[j..j + 4][0];
      }
    }
    assert !IsAt(raw, LfLf, 0) by { assert raw[0] == 'H'; }
    assert raw[1..3] == LfLf;
    FindIsFirst(raw, LfLf, 0, 1);
    assert Find("H", " ", 0) == None by {
      forall j | 0 <= j ensures !IsAt("H", " ", j) {
        if j + 1 <= 1 { assert "H"[j] == "H"[j..j + 1][0]; }
      }
    }
  }

  /** The text framed by the first two spaces is what `StatusText` returns. */
  lemma StatusTextBetweenSpaces(a: string, mid: string, tail: string)
    requires NoneOf(a, {' '}) && NoneOf(mid, {' '})
    ensures StatusText(a + " " + mid + " " + tail) == Some(mid)
  {
    var h := a + " " + mid + " " + tail;
    var first, second := |a|, |a| + 1 + |mid|;
    SpacedParts(h, a, mid, tail, first, second);
    StatusTextOfRuns(h, first, second);
  }

  /** Where the two parts and the two spaces of `a + " " + mid + " " + tail` sit. */
  lemma SpacedParts(h: string, a: string, mid: string, tail: string, first: nat, second: nat)
    requires h == a + " " + mid + " " + tail && first == |a| && second == |a| + 1 + |mid|
    requires NoneOf(a, {' '}) && NoneOf(mid, {' '})
    ensures first < second < |h| && h[first] == ' ' && h[second] == ' '
    ensures NoneOf(h[..first], {' '}) && NoneOf(h[first + 1..second], {' '})
    ensures h[first + 1..second] == mid
  {
    assert h == a + (" " + (mid + (" " + tail)));
    assert h[..first] == a;
  }

  /**
   * When no space comes before `first`, none between `first` and `second`,
   * and both hold one, the status text is what lies between them.
   */
  lemma StatusTextOfRuns(h: string, first: nat, second: nat)
    requires first < second < |h| && h[first] == ' ' && h[second] == ' '
    requires NoneOf(h[..first], {' '}) && NoneOf(h[first + 1..second], {' '})
    ensures StatusText(h) == Some(h[first + 1..second])
  {
    assert h[0..first] == h[..first];
    FindSpaceAfterRun(h, 0, h[..first]);
    FindSpaceAfterRun(h, first + 1, h[first + 1..second]);
  }

  /** After a space-free run starting at `from`, the next space is the one that ends the run. */
  lemma FindSpaceAfterRun(h: string, from: nat, run: string)
    requires from + |run| < |h| && h[from..from + |run|] == run && h[from + |run|] == ' '
    requires NoneOf(run, {' '})
    ensures Find(h, " ", from) == Some(from + |run|)
  {
    var k := from + |run|;
    forall j | from <= j < k
      ensures !IsAt(h, " ", j)
    {
      assert h[j] == run[j - from];
      assert h[j..j + 1] == [h[j]];
    }
    assert h[k..k + 1] == " ";
    FindIsFirst(h, " ", from, k);
  }

  /**
   * The status is the number between the first two spaces of the status
   * line: "HTTP/1.1 " + code + " " + rest gives `code`.
   */
  lemma StatusOfStatusLine(code: nat, rest: string)
    requires code <= IntMax
    ensures var h := "HTTP/1.1 " + NatToDecimal(code) + " " + rest;
            StatusText(h) == Some(NatToDecimal(code)) && StatusParses(h)
            && Stoi(StatusText(h).value) == code
  {
    var ds := NatToDecimal(code);
    assert "HTTP/1.1 " + ds + " " + rest == "HTTP/1.1" + " " + ds + " " + rest;
    StatusTextBetweenSpaces("HTTP/1.1", ds, rest);
    StoiRoundTrip(code);
  }

  const RequestLineTail: string := " HTTP/1.1\r\nHost: "
  const RequestTrailer: string := "\r\nConnection: close\r\nUser-Agent: curl/8.7.1\r\n\r\n"

  /**
   * The request `makeHttpRequest` sends: the GET line for `path`, the Host
   * line, "Connection: close", the curl user agent and an empty line.
   */
  function Request(host: string, path: string): (req: string)
    ensures |req| == 4 + |path| + |RequestLineTail| + |host| + |RequestTrailer|
    ensures IsAt(req, "GET ", 0) && IsAt(req, path, 4)
    ensures IsAt(req, RequestLineTail, 4 + |path|) && IsAt(req, host, 4 + |path| + |RequestLineTail|)
    ensures IsAt(req, RequestTrailer, |req| - |RequestTrailer|)
  {
    "GET " + path + RequestLineTail + host + RequestTrailer
  }

  /** The header lines of the request, without the blank line that ends them. */
  function RequestHead(host: string, path: string): string {
    "GET " + path + " HTTP/1.1\r\nHost: " + host + "\r\nConnection: close\r\nUser-Agent: curl/8.7.1"
  }

  /** The request is its header lines followed by "\r\n\r\n" and nothing else. */
  lemma RequestIsHeadOnly(host: string, path: string)
    ensures Request(host, path) == RequestHead(host, path) + CrlfCrlf
  {
    var ua := "\r\nConnection: close\r\nUser-Agent: curl/8.7.1";
    assert RequestTrailer == ua + CrlfCrlf;
    var p1 := "GET " + path + RequestLineTail + host;
    assert Request(host, path) == p1 + (ua + CrlfCrlf);
    assert RequestHead(host, path) == p1 + ua;
  }

  /** The request target is the text between the first two spaces of the request. */
  lemma RequestTargetReadsBack(host: string, path: string)
    requires NoneOf(path, {' '})
    ensures StatusText(RequestHead(host, path)) == Some(path)
  {
    var tail := "HTTP/1.1\r\nHost: " + host + "\r\nConnection: close\r\nUser-Agent: curl/8.7.1";
    assert RequestHead(host, path) == "GET" + " " + path + " " + tail;
    StatusTextBetweenSpaces("GET", path, tail);
  }

  /** One read: some bytes (at most the 4096-byte buffer), or a result of zero or less. */
  datatype Read = Data(bytes: string) | Closed

  predicate ValidReads(chunks: seq<Read>) {
    forall i :: 0 <= i < |chunks| && chunks[i].Data? ==> 0 < |chunks[i].bytes| <= 4096
  }

  /** The bytes delivered before the first `Closed`. */
  function Received(chunks: seq<Read>): string
    decreases |chunks|
  {
    if |chunks| == 0 then ""
    else match chunks[0]
      case Closed => ""
      case Data(bytes) => bytes + Received(chunks[1..])
  }

  /**
   * `receiveHttpResponse`: chunks until a read yields nothing and returns
   * everything read, in order. The connection must close eventually.
   */
  method ReceiveHttpResponse(chunks: seq<Read>) returns (full: string, consumed: nat)
    requires exists i :: 0 <= i < |chunks| && chunks[i].Closed?
    requires ValidReads(chunks)
    ensures full == Received(chunks)
    ensures consumed < |chunks| && chunks[consumed].Closed?
    ensures forall i :: 0 <= i < consumed ==> chunks[i].Data?
  {
    full := "";
    var i := 0;
    while chunks[i].Data?
      invariant 0 <= i < |chunks|
      invariant exists k :: i <= k < |chunks| && chunks[k].Closed?
      invariant forall k :: 0 <= k < i ==> chunks[k].Data?
      invariant full + Received(chunks[i..]) == Received(chunks)
      decreases |chunks| - i
    {
      assert chunks[i..][1..] == chunks[i + 1..];
      full := full + chunks[i].bytes;
      i := i + 1;
    }
    assert Received(chunks[i..]) == "";
    consumed := i;
  }

  /** What the network does for one `makeHttpRequest` call. */
  datatype Network = Network(
    socketOk: bool, resolveOk: bool, connectOk: bool, tlsOk: bool, sendOk: bool, chunks: seq<Read>)

  predicate Reachable(net: Network, useTls: bool) {
    net.socketOk && net.resolveOk && net.connectOk && (useTls ==> net.tlsOk) && net.sendOk
  }

  /** The precondition of `makeHttpRequest`: a reply it parses without `std::stoi` throwing. */
  predicate RequestDefined(net: Network, useTls: bool) {
    Reachable(net, useTls) ==> ParseDefined(Received(net.chunks))
  }

  /**
   * `makeHttpRequest`: any failure up to and including the send gives the
   * default response; otherwise the received text parsed over a default
   * response. The request text is sent only once the connection (and TLS,
   * when asked for) is up.
   */
  function MakeHttpRequest(host: string, port: int, path: string, useTls: bool, net: Network)
    : (r: (HttpResponse, Option<string>))
    requires RequestDefined(net, useTls)
    ensures !Reachable(net, useTls) ==> r.0 == DefaultResponse
    ensures Reachable(net, useTls) ==> r.0 == ParseHttpResponse(Received(net.chunks), DefaultResponse)
    ensures r.1.Some? <==> net.socketOk && net.resolveOk && net.connectOk && (useTls ==> net.tlsOk)
    ensures r.1.Some? ==> r.1.value == Request(host, path)
  {
    if !net.socketOk || !net.resolveOk || !net.connectOk then (DefaultResponse, None)
    else if useTls && !net.tlsOk then (DefaultResponse, None)
    else if !net.sendOk then (DefaultResponse, Some(Request(host, path)))
    else (ParseHttpResponse(Received(net.chunks), DefaultResponse), Some(Request(host, path)))
  }

  /** A plain request never depends on the TLS outcome. */
  lemma PlainIgnoresTls(host: string, port: int, path: string, net: Network)
    requires RequestDefined(net, false)
    ensures MakeHttpRequest(host, port, path, false, net)
            == MakeHttpRequest(host, port, path, false, net.(tlsOk := !net.tlsOk))
  {
  }
}

=== FILE: http2.dfy ===
/**
 * The HTTP/2 demo client over nghttp2 and the demo's example selection.
 * The nghttp2 session is seen through the callbacks it invokes; socket,
 * TLS, ALPN, submission and read outcomes are oracle inputs.
 */
module Http2 {
  import opened Core
  import opened Text
  import opened Http1

  /** `NGHTTP2_ERR_CALLBACK_FAILURE`. */
  const CallbackFailure: int := -902

  /** `Http2SessionData`: the response being built and whether the stream closed. */
  datatype SessionData = SessionData(response: HttpResponse, complete: bool)

  const InitialSession: SessionData := SessionData(DefaultResponse, false)

  /** A callback nghttp2 makes while decoding received bytes. */
  datatype Callback =
    | Header(responseHeaders: bool, name: string, value: string)
    | DataChunk(bytes: string)
    | StreamClose

  /** `std::stoi` does not throw on any `:status` value of a response HEADERS frame. */
  predicate CallbackDefined(c: Callback) {
    c.Header? && c.responseHeaders && c.name == ":status" ==> StoiDefined(c.value)
  }

  predicate SetsStatus(c: Callback) {
    c.Header? && c.responseHeaders && c.name == ":status"
  }

  /** `send_callback`: a failed TLS write is a callback failure, otherwise the byte count written. */
  function SendCallback(written: int): (rv: int)
    ensures written <= 0 ==> rv == CallbackFailure
    ensures written > 0 ==> rv == written
  {
    if written <= 0 then CallbackFailure else written
  }

  /**
   * What nghttp2 asks of a send callback: a count of bytes taken, at most the
   * length offered, or a negative error code; never 0. `SSL_write` writes at
   * most the length it is given.
   */
  lemma SendCallbackAnswersNghttp2(written: int, length: nat)
    requires written <= length
    ensures SendCallback(written) != 0
    ensures SendCallback(written) > 0 <==> written > 0
    ensures SendCallback(written) > 0 ==> SendCallback(written) <= length
    ensures SendCallback(written) < 0 ==> SendCallback(written) == CallbackFailure
  {
  }

  /**
   * `on_header_callback`, `on_data_chunk_recv_callback` and
   * `on_stream_close_callback`: a field of a response HEADERS frame is
   * appended as "name: value\n" (and `:status` sets the status); a data
   * chunk is appended to the body; stream close marks the response complete.
   */
  function Apply(sd: SessionData, c: Callback): (sd': SessionData)
    requires CallbackDefined(c)
    ensures SetsStatus(c) ==> sd'.response.statusCode == Stoi(c.value)
    ensures !SetsStatus(c) ==> sd'.response.statusCode == sd.response.statusCode
  {
    match c
    case Header(isResponse, name, value) =>
      if !isResponse then sd
      else
        var headers := sd.response.headers + name + ": " + value + "\n";
        var status := if name == ":status" then Stoi(value) else sd.response.statusCode;
        sd.(response := sd.response.(headers := headers, statusCode := status))
    case DataChunk(bytes) => sd.(response := sd.response.(body := sd.response.body + bytes))
    case StreamClose => sd.(complete := true)
  }

  predicate AllDefined(cs: seq<Callback>) {
    forall i :: 0 <= i < |cs| ==> CallbackDefined(cs[i])
  }

  function ApplyAll(sd: SessionData, cs: seq<Callback>): SessionData
    requires AllDefined(cs)
    decreases |cs|
  {
    if |cs| == 0 then sd else ApplyAll(Apply(sd, cs[0]), cs[1..])
  }

  /** The body the data chunks of `cs` make, in arrival order. */
  function DataOf(cs: seq<Callback>): string
    decreases |cs|
  {
    if |cs| == 0 then ""
    else (if cs[0].DataChunk? then cs[0].bytes else "") + DataOf(cs[1..])
  }

  /** The header lines the response HEADERS fields of `cs` make, in arrival order. */
  function HeaderLinesOf(cs: seq<Callback>): string
    decreases |cs|
  {
    if |cs| == 0 then ""
    else (if cs[0].Header? && cs[0].responseHeaders then cs[0].name + ": " + cs[0].value + "\n" else "")
         + HeaderLinesOf(cs[1..])
  }

  /**
   * Processing callbacks appends exactly the data chunks to the body and
   * the response header lines to the headers, in order; the response is
   * complete iff it was or a stream close arrived; without a `:status` the
   * status is unchanged.
   */
  lemma {:induction false} ApplyAllAccumulates(sd: SessionData, cs: seq<Callback>)
    requires AllDefined(cs)
    ensures ApplyAll(sd, cs).response.body == sd.response.body + DataOf(cs)
    ensures ApplyAll(sd, cs).response.headers == sd.response.headers + HeaderLinesOf(cs)
    ensures ApplyAll(sd, cs).complete <==> sd.complete || StreamClose in cs
    ensures (forall i :: 0 <= i < |cs| ==> !SetsStatus(cs[i])) ==>
              ApplyAll(sd, cs).response.statusCode == sd.response.statusCode
  {
    ApplyAllBody(sd, cs);
    ApplyAllHeaders(sd, cs);
    ApplyAllComplete(sd, cs);
    ApplyAllKeepsStatus(sd, cs);
  }

  /** What one callback adds to the body, the headers and completion. */
  lemma ApplyStep(sd: SessionData, c: Callback)
    requires CallbackDefined(c)
    ensures Apply(sd, c).response.body == sd.response.body + (if c.DataChunk? then c.bytes else "")
    ensures Apply(sd, c).response.headers
            == sd.response.headers + (if c.Header? && c.responseHeaders then c.name + ": " + c.value + "\n" else "")
    ensures Apply(sd, c).complete <==> sd.complete || c == StreamClose
  {
  }

  lemma {:induction false} ApplyAllBody(sd: SessionData, cs: seq<Callback>)
    requires AllDefined(cs)
    ensures ApplyAll(sd, cs).response.body == sd.response.body + DataOf(cs)
    decreases |cs|
  {
    if |cs| > 0 {
      ApplyStep(sd, cs[0]);
      ApplyAllBody(Apply(sd, cs[0]), cs[1..]);
    }
  }

  lemma {:induction false} ApplyAllHeaders(sd: SessionData, cs: seq<Callback>)
    requires AllDefined(cs)
    ensures ApplyAll(sd, cs).response.headers == sd.response.headers + HeaderLinesOf(cs)
    decreases |cs|
  {
    if |cs| > 0 {
      ApplyStep(sd, cs[0]);
      ApplyAllHeaders(Apply(sd, cs[0]), cs[1..]);
    }
  }

  lemma {:induction false} ApplyAllComplete(sd: SessionData, cs: seq<Callback>)
    requires AllDefined(cs)
    ensures ApplyAll(sd, cs).complete <==> sd.complete || StreamClose in cs
    decreases |cs|
  {
    if |cs| > 0 {
      ApplyStep(sd, cs[0]);
      ApplyAllComplete(Apply(sd, cs[0]), cs[1..]);
      assert cs == [cs[0]] + cs[1..];
      assert StreamClose in cs <==> cs[0] == StreamClose || StreamClose in cs[1..];
    }
  }

  lemma {:induction false} ApplyAllKeepsStatus(sd: SessionData, cs: seq<Callback>)
    requires AllDefined(cs)
    ensures (forall i :: 0 <= i < |cs| ==> !SetsStatus(cs[i])) ==>
              ApplyAll(sd, cs).response.statusCode == sd.response.statusCode
    decreases |cs|
  {
    if |cs| > 0 {
      ApplyAllKeepsStatus(Apply(sd, cs[0]), cs[1..]);
      if forall i :: 0 <= i < |cs| ==> !SetsStatus(cs[i]) {
        assert !SetsStatus(cs[0]);
        assert forall i :: 0 <= i < |cs[1..]| ==> !SetsStatus(cs[1..][i]) by {
          forall i | 0 <= i < |cs[1..]| ensures !SetsStatus(cs[1..][i]) {
            assert cs[1..][i] == cs[i + 1];
          }
        }
      }
    }
  }

  /** What one turn of the receive loop sees: the TLS read and, for data, what the decoder does. */
  datatype Round = Round(read: Read, decodeFailed: bool, callbacks: seq<Callback>)

  predicate RoundsDefined(rounds: seq<Round>) {
    forall i :: 0 <= i < |rounds| ==> AllDefined(rounds[i].callbacks)
  }

  /** The peer's reads end with a failed one, so the loop ends. */
  predicate RoundsEnd(rounds: seq<Round>) {
    |rounds| > 0 && rounds[|rounds| - 1].read.Closed?
  }

  /**
   * The receive loop: stops once the stream closed, on a read of zero or
   * less, or when decoding fails (after the callbacks it made).
   */
  function Receive(sd: SessionData, rounds: seq<Round>): (r: SessionData)
    requires RoundsDefined(rounds) && RoundsEnd(rounds)
    ensures sd.complete ==> r == sd
    ensures !sd.complete && rounds[0].read.Closed? ==> r == sd
    ensures r.complete ==> sd.complete || exists i :: 0 <= i < |rounds| && StreamClose in rounds[i].callbacks
    decreases |rounds|
  {
    if sd.complete then sd
    else
      var round := rounds[0];
      match round.read
      case Closed => sd
      case Data(_) =>
        var sd' := ApplyAll(sd, round.callbacks);
        ApplyAllAccumulates(sd, round.callbacks);
        if round.decodeFailed then sd'
        else
          var r := Receive(sd', rounds[1..]);
          assert forall i :: 0 <= i < |rounds[1..]| ==> rounds[1..][i] == rounds[i + 1];
          r
  }

  /** ALPN agreed on HTTP/2: a selected protocol of exactly the two bytes "h2". */
  predicate AlpnIsH2(alpn: Option<string>) {
    alpn.Some? && |alpn.value| == 2 && alpn.value[..2] == "h2"
  }

  /** A `nghttp2_nv`: name, value and the lengths passed alongside. */
  datatype NameValue = NameValue(name: string, value: string, nameLen: nat, valueLen: nat)

  /** The five request fields `makeHttp2Request` submits. */
  function RequestHeaders(host: string, path: string): (hs: seq<NameValue>)
    ensures |hs| == 5
    ensures forall i :: 0 <= i < 5 ==> hs[i].nameLen == |hs[i].name| && hs[i].valueLen == |hs[i].value|
    ensures hs[2].name == ":authority" && hs[2].value == host
    ensures hs[3].name == ":path" && hs[3].value == path
  {
    [ NameValue(":method", "GET", 7, 3),
      NameValue(":scheme", "https", 7, 5),
      NameValue(":authority", host, 10, |host|),
      NameValue(":path", path, 5, |path|),
      NameValue("user-agent", "nghttp2-client", 10, 14) ]
  }

  /** What the network and the TLS library do for one `makeHttp2Request` call. */
  datatype Network = Network(
    socketOk: bool, resolveOk: bool, connectOk: bool, contextOk: bool, tlsOk: bool,
    alpn: Option<string>, streamId: int, rounds: seq<Round>)

  predicate Negotiated(net: Network) {
    net.socketOk && net.resolveOk && net.connectOk && net.contextOk && net.tlsOk && AlpnIsH2(net.alpn)
  }

  predicate Http2Defined(net: Network) {
    Negotiated(net) && net.streamId >= 0 ==> RoundsDefined(net.rounds) && RoundsEnd(net.rounds)
  }

  /**
   * `makeHttp2Request`: every failure up to and including the request
   * submission gives the default response; otherwise the response the
   * callbacks built, complete or not. The request fields are submitted only
   * over a negotiated HTTP/2 connection.
   */
  function MakeHttp2Request(host: string, port: int, path: string, net: Network)
    : (r: (HttpResponse, Option<seq<NameValue>>))
    requires Http2Defined(net)
    ensures !Negotiated(net) ==> r == (DefaultResponse, None)
    ensures Negotiated(net) ==> r.1 == Some(RequestHeaders(host, path))
    ensures Negotiated(net) && net.streamId < 0 ==> r.0 == DefaultResponse
    ensures Negotiated(net) && net.streamId >= 0 ==> r.0 == Receive(InitialSession, net.rounds).response
  {
    if !Negotiated(net) then (DefaultResponse, None)
    else if net.streamId < 0 then (DefaultResponse, Some(RequestHeaders(host, path)))
    else (Receive(InitialSession, net.rounds).response, Some(RequestHeaders(host, path)))
  }

  /** Any ALPN answer other than "h2" (none, "http/1.1", "h2c") ends the request with the default response. */
  lemma NoH2NoRequest(host: string, port: int, path: string, net: Network)
    requires !AlpnIsH2(net.alpn)
    ensures MakeHttp2Request(host, port, path, net) == (DefaultResponse, None)
    ensures !AlpnIsH2(Some("http/1.1")) && !AlpnIsH2(Some("h2c")) && AlpnIsH2(Some("h2"))
  {
  }

  lemma StoiOf200()
    ensures StoiDefined("200") && Stoi("200") == 200
  {
    StoiRoundTrip(200);
    assert NatToDecimal(200) == "200" by {
      assert NatToDecimal(200) == NatToDecimal(20) + [DigitChar(0)];
      assert NatToDecimal(20) == NatToDecimal(2) + [DigitChar(0)];
    }
  }

  /**
   * A `:status` field of a response HEADERS frame appends one header line and
   * sets the status to the field's value; the body and completion stay.
   */
  lemma StatusHeaderSets(sd: SessionData, v: string)
    requires StoiDefined(v)
    ensures Apply(sd, Header(true, ":status", v))
            == SessionData(HttpResponse(Stoi(v), sd.response.headers + ":status: " + v + "\n", sd.response.body), sd.complete)
  {
    assert ":status" + ": " + v + "\n" == ":status: " + v + "\n";
  }

  /** A `:status: 200` field of a response HEADERS frame sets status 200 and one header line. */
  lemma StatusHeaderApplied()
    ensures StoiDefined("200")
    ensures Apply(InitialSession, Header(true, ":status", "200"))
            == SessionData(HttpResponse(200, ":status: 200\n", ""), false)
  {
    StoiOf200();
    StatusLineText();
  }

  /** The header line a `:status: 200` field appends, spelled out. */
  lemma StatusLineText()
    ensures "" + ":status" + ": " + "200" + "\n" == ":status: 200\n"
  {
    var x := "" + ":status" + ": " + "200" + "\n";
    var y := ":status: 200\n";
    assert |x| == |y|;
    forall i | 0 <= i < |x| ensures x[i] == y[i] {}
  }

  /**
   * When the stream closes during the first round that decodes, the loop
   * stops there: the response holds exactly what that round's callbacks
   * built, and later rounds are never read.
   */
  lemma CloseStopsReceiving(sd: SessionData, round: Round, rest: seq<Round>)
    requires !sd.complete && round.read.Data? && StreamClose in round.callbacks
    requires AllDefined(round.callbacks) && RoundsDefined(rest) && RoundsEnd(rest)
    ensures RoundsDefined([round] + rest) && RoundsEnd([round] + rest)
    ensures Receive(sd, [round] + rest) == ApplyAll(sd, round.callbacks)
    ensures Receive(sd, [round] + rest).response.body == sd.response.body + DataOf(round.callbacks)
  {
    var rounds := [round] + rest;
    assert rounds[1..] == rest;
    assert rounds[|rounds| - 1] == rest[|rest| - 1];
    ApplyAllAccumulates(sd, round.callbacks);
  }
}

/**
 * The nghttp2 demo's `main`: which examples run, chosen from the command
 * line, and in what order.
 */
module TryHttpMain {
  import opened Core

  /** The argument text that selects example `k`. */
  function ExampleArg(k: nat): string
    requires 1 <= k <= 3
  {
    if k == 1 then "1" else if k == 2 then "2" else "3"
  }

  predicate IsKnown(arg: string) {
    arg == "1" || arg == "2" || arg == "3"
  }

  /**
   * The examples to run: with no argument after the program name only
   * example 3; otherwise every example named by an argument "1", "2" or "3".
   */
  function Selection(argv: seq<string>): (sel: set<nat>)
    ensures sel <= {1, 2, 3}
    ensures |argv| <= 1 ==> sel == {3}
    ensures |argv| > 1 ==> forall k :: 1 <= k <= 3 ==> (k in sel <==> ExampleArg(k) in argv[1..])
  {
    if |argv| <= 1 then {3}
    else set k | k in {1, 2, 3} && ExampleArg(k) in argv[1..]
  }

  /** The arguments that select nothing, each producing a warning, in order. */
  function Unknown(args: seq<string>): (r: seq<string>)
    ensures forall a :: a in r <==> a in args && !IsKnown(a)
    decreases |args|
  {
    if |args| == 0 then []
    else (if IsKnown(args[0]) then [] else [args[0]]) + Unknown(args[1..])
  }

  /**
   * `main`: a failed socket initialisation returns 1 before any example;
   * otherwise the selected examples run once each in ascending order and
   * the result is 0.
   */
  function RunMain(argv: seq<string>, socketsOk: bool): (r: (int, seq<nat>))
    ensures !socketsOk ==> r == (1, [])
    ensures socketsOk ==> r.0 == 0
    ensures socketsOk ==> forall k :: k in r.1 <==> k in Selection(argv)
    ensures forall i, j :: 0 <= i < j < |r.1| ==> r.1[i] < r.1[j]
  {
    if !socketsOk then (1, [])
    else
      var sel := Selection(argv);
      (0, (if 1 in sel then [1] else []) + (if 2 in sel then [2] else []) + (if 3 in sel then [3] else []))
  }

  /** Argument order and repetition do not matter. */
  lemma OrderAndDuplicatesIgnored(argv: seq<string>, argv': seq<string>)
    requires |argv| > 1 && |argv'| > 1
    requires forall a :: a in argv[1..] <==> a in argv'[1..]
    ensures RunMain(argv, true) == RunMain(argv', true)
  {
    assert Selection(argv) == Selection(argv');
    assert (1 in Selection(argv) <==> 1 in Selection(argv')) && (2 in Selection(argv) <==> 2 in Selection(argv'));
  }

  /** Only unknown arguments: nothing runs, each is warned about, and the result is still 0. */
  lemma OnlyUnknownRunsNothing(argv: seq<string>)
    requires |argv| > 1
    requires forall i :: 1 <= i < |argv| ==> !IsKnown(argv[i])
    ensures RunMain(argv, true).0 == 0 && RunMain(argv, true).1 == []
    ensures Unknown(argv[1..]) == argv[1..]
  {
    assert Selection(argv) == {} by {
      forall k | 1 <= k <= 3
        ensures ExampleArg(k) !in argv[1..]
      {
        forall i | 0 <= i < |argv[1..]|
          ensures argv[1..][i] != ExampleArg(k)
        {
          assert argv[1..][i] == argv[i + 1];
        }
      }
      assert 1 !in Selection(argv) && 2 !in Selection(argv) && 3 !in Selection(argv);
    }
    assert RunMain(argv, true).1 == [] + [] + [];
    UnknownKeepsAll(argv[1..]);
  }

  lemma {:induction false} UnknownKeepsAll(args: seq<string>)
    requires forall i :: 0 <= i < |args| ==> !IsKnown(args[i])
    ensures Unknown(args) == args
    decreases |args|
  {
    if |args| > 0 {
      UnknownKeepsAll(args[1..]);
    }
  }

  /** "3 1 x 1" runs examples 1 then 3. */
  lemma SelectionExample()
    ensures RunMain(["demo", "3", "1", "x", "1"], true).0 == 0 && RunMain(["demo", "3", "1", "x", "1"], true).1 == [1, 3]
    ensures RunMain(["demo"], true).0 == 0 && RunMain(["demo"], true).1 == [3]
  {
    var argv := ["demo", "3", "1", "x", "1"];
    assert argv[1..] == ["3", "1", "x", "1"];
    assert ExampleArg(1) == argv[1..][1] && ExampleArg(3) == argv[1..][0];
    assert ExampleArg(2) !in argv[1..];
    assert 1 in Selection(argv) && 2 !in Selection(argv) && 3 in Selection(argv);
    var sel := Selection(argv);
    assert RunMain(argv, true).1 == (if 1 in sel then [1] else []) + (if 2 in sel then [2] else []) + (if 3 in sel then [3] else []);
    assert RunMain(argv, true).1 == [1] + [] + [3];
    assert Selection(["demo"]) == {3};
    assert RunMain(["demo"], true).1 == [] + [] + [3];
  }
}

=== FILE: lite_client.dfy ===
/**
 * What the two Asio-based HTTP clients share: the URL pieces they use, the
 * resolver service, the request they send, the endpoint loop and how a Beast
 * exchange becomes a response. URL parsing, name resolution, connecting,
 * TLS and the HTTP exchange are oracle inputs.
 */
module LiteClient {
  import opened Core
  import opened Text

  const TlsUrlProtocol: string := "https:"
  const BasicHttpVersion: nat := 11
  const DefaultRequestService: string := "80"
  const UserAgent: string := "Test/1.0"

  /** The parts of a parsed URL the clients read (ada's `url_aggregator` getters). */
  datatype Url = Url(protocol: string, hostname: string, port: string, pathname: string)

  /** `ILiteClient::Response`. */
  datatype Response = Response(statusCode: int, body: string)

  /** `UrlParse`: what the URL parser answers, or `invalid_argument` when it rejects the text. */
  function UrlParse(parsed: Option<Url>): (r: Result<Url>)
    ensures parsed.None? <==> r == Err(InvalidArgument)
    ensures parsed.Some? ==> r == Ok(parsed.value)
  {
    match parsed
    case None => Err(InvalidArgument)
    case Some(url) => Ok(url)
  }

  /** Nothing is lost: the parser's answer can be read back from the result. */
  lemma UrlParseRoundTrip(parsed: Option<Url>)
    ensures (match UrlParse(parsed) case Ok(url) => Some(url) case Err(_) => None) == parsed
  {
  }

  /**
   * The resolver service: the explicit port, else the protocol without its
   * trailing ':', else "80".
   */
  function Service(url: Url): (s: string)
    ensures url.port != "" ==> s == url.port
    ensures url.port == "" && url.protocol != "" ==> s + [url.protocol[|url.protocol| - 1]] == url.protocol
    ensures url.port == "" && url.protocol == "" ==> s == DefaultRequestService
  {
    if url.port != "" then url.port
    else if url.protocol != "" then url.protocol[..|url.protocol| - 1]
    else DefaultRequestService
  }

  /** The two schemes name their well-known services; an explicit port wins over both. */
  lemma ServiceExamples(host: string, path: string)
    ensures Service(Url("http:", host, "", path)) == "http"
    ensures Service(Url("https:", host, "", path)) == "https"
    ensures Service(Url("https:", host, "8443", path)) == "8443"
  {
  }

  /** The TLS branch is taken exactly for the "https:" protocol. */
  predicate UsesTls(url: Url) {
    url.protocol == TlsUrlProtocol
  }

  /** A Beast `http::request` as the clients fill it in. */
  datatype Request = Request(verb: string, target: string, version: nat, host: string, userAgent: string)

  /** The GET request for the URL's path, HTTP/1.1, with its Host and the fixed user agent. */
  function MakeRequest(url: Url): (r: Request)
    ensures r.verb == "GET" && r.version == BasicHttpVersion && r.userAgent == UserAgent
    ensures r.target == url.pathname && r.host == url.hostname
  {
    Request("GET", url.pathname, BasicHttpVersion, url.hostname, UserAgent)
  }

  /** Neither the protocol nor the port reaches the request. */
  lemma RequestIgnoresSchemeAndPort(url: Url, protocol: string, port: string)
    ensures MakeRequest(url) == MakeRequest(url.(protocol := protocol, port := port))
  {
  }

  /** What Beast reports for one write-then-read exchange. */
  datatype Exchange = Exchange(
    writeError: Option<ErrorCode>, readError: Option<ErrorCode>,
    resultInt: Uint32, parsedBody: string, buffer: string)

  /** The body handed back: the parsed body, or the raw buffer when that is empty. */
  function ResponseBody(parsedBody: string, buffer: string): (b: string)
    ensures parsedBody != "" ==> b == parsedBody
    ensures parsedBody == "" ==> b == buffer
  {
    if parsedBody != "" then parsedBody else buffer
  }

  /**
   * The fallback loses no text: the body is one of the two, and it is empty
   * only when both are.
   */
  lemma ResponseBodyEmptyIff(parsedBody: string, buffer: string)
    ensures ResponseBody(parsedBody, buffer) == parsedBody || ResponseBody(parsedBody, buffer) == buffer
    ensures ResponseBody(parsedBody, buffer) == "" <==> parsedBody == "" && buffer == ""
  {
  }

  /**
   * `MakeHttpRequest`: a failed write or read is returned as its error;
   * otherwise the status (cast to `int`) and the body.
   */
  function HttpExchange(ex: Exchange): (r: Result<Response>)
    ensures ex.writeError.Some? ==> r == Err(ex.writeError.value)
    ensures ex.writeError.None? && ex.readError.Some? ==> r == Err(ex.readError.value)
    ensures r.Ok? <==> ex.writeError.None? && ex.readError.None?
    ensures r.Ok? ==> r.value.statusCode == ToInt(ex.resultInt)
                      && r.value.body == ResponseBody(ex.parsedBody, ex.buffer)
  {
    if ex.writeError.Some? then Err(ex.writeError.value)
    else if ex.readError.Some? then Err(ex.readError.value)
    else Ok(Response(ToInt(ex.resultInt), ResponseBody(ex.parsedBody, ex.buffer)))
  }

  /** Every status a Beast parser accepts (three digits) arrives unchanged. */
  lemma StatusPassesThrough(ex: Exchange)
    requires ex.writeError.None? && ex.readError.None? && ex.resultInt < 1000
    ensures HttpExchange(ex).value.statusCode == ex.resultInt
  {
  }

  /** The index of the first endpoint that connects, if any. */
  function FirstSuccess(attempts: seq<Option<ErrorCode>>): (k: Option<nat>)
    ensures k.Some? ==> k.value < |attempts| && attempts[k.value].None?
    ensures k.Some? ==> forall i :: 0 <= i < k.value ==> attempts[i].Some?
    ensures k.None? ==> forall i :: 0 <= i < |attempts| ==> attempts[i].Some?
    decreases |attempts|
  {
    if |attempts| == 0 then None
    else if attempts[0].None? then Some(0)
    else
      match FirstSuccess(attempts[1..])
      case None => None
      case Some(k) => Some(k + 1)
  }

  /**
   * The connect loop's outcome: success at the first endpoint that
   * connects; if all fail, the error of the last one; an empty endpoint
   * list is no error at all. `tried` counts the attempts.
   */
  function ConnectOutcome(attempts: seq<Option<ErrorCode>>): (r: (Option<ErrorCode>, nat))
    ensures r.1 <= |attempts|
    ensures FirstSuccess(attempts).Some? ==> r == (None, FirstSuccess(attempts).value + 1)
    ensures FirstSuccess(attempts).None? && |attempts| > 0 ==> r == (attempts[|attempts| - 1], |attempts|)
    ensures |attempts| == 0 ==> r == (None, 0)
  {
    match FirstSuccess(attempts)
    case Some(k) => (None, k + 1)
    case None => if |attempts| == 0 then (None, 0) else (attempts[|attempts| - 1], |attempts|)
  }

  /**
   * `TcpConnect`'s loop: try the endpoints in order, stop at the first that
   * connects, and keep the error of the latest attempt.
   */
  method ConnectLoop(attempts: seq<Option<ErrorCode>>) returns (ec: Option<ErrorCode>, tried: nat)
    ensures (ec, tried) == ConnectOutcome(attempts)
  {
    ec := None;
    tried := 0;
    while tried < |attempts|
      invariant 0 <= tried <= |attempts|
      invariant forall i :: 0 <= i < tried ==> attempts[i].Some?
      invariant tried == 0 ==> ec.None?
      invariant tried > 0 ==> ec == attempts[tried - 1]
    {
      ec := attempts[tried];
      tried := tried + 1;
      if ec.None? {
        FirstSuccessIs(attempts, tried - 1);
        return;
      }
    }
    assert FirstSuccess(attempts).None?;
  }

  lemma FirstSuccessIs(attempts: seq<Option<ErrorCode>>, k: nat)
    requires k < |attempts| && attempts[k].None?
    requires forall i :: 0 <= i < k ==> attempts[i].Some?
    ensures FirstSuccess(attempts) == Some(k)
  {
    match FirstSuccess(attempts)
    case None =>
    case Some(j) =>
      if j < k {
      } else if j > k {
      }
  }

  /** What the environment does for one `GetAsync` call. */
  datatype Net = Net(
    parsed: Option<Url>,
    resolveError: Option<ErrorCode>,
    attempts: seq<Option<ErrorCode>>,
    sniOk: bool,
    handshakeError: Option<ErrorCode>,
    exchange: Exchange,
    threw: bool)

  /** The steps a request goes through, in order. */
  datatype Stage =
    | ParseStage
    | ResolveStage(service: string)
    | ConnectStage(tried: nat)
    | TlsStage
    | RequestStage(request: Request)

  /**
   * The completion handler: the coroutine's result, or `io_error` when the
   * coroutine ended with an exception.
   */
  function Complete(threw: bool, result: Result<Response>): (r: Result<Response>)
    ensures threw ==> r == Err(IoError)
    ensures !threw ==> r == result
  {
    if threw then Err(IoError) else result
  }

  /** The completion handler never invents a success: an `Ok` is the coroutine's own result. */
  lemma CompleteKeepsResult(threw: bool, result: Result<Response>)
    ensures Complete(threw, result).Ok? <==> !threw && result.Ok?
    ensures Complete(threw, result).Ok? ==> Complete(threw, result) == result
  {
  }

  /** The stages of a fully successful request, in the order they run. */
  function FullStages(url: Url, tried: nat): (st: seq<Stage>)
    ensures |st| >= 4 && st[0] == ParseStage && st[|st| - 1] == RequestStage(MakeRequest(url))
    ensures TlsStage in st <==> UsesTls(url)
  {
    [ParseStage, ResolveStage(Service(url)), ConnectStage(tried)]
    + (if UsesTls(url) then [TlsStage] else [])
    + [RequestStage(MakeRequest(url))]
  }

  /**
   * The stages an interrupted run has reached are the first ones of the full
   * run, and only the full run ends with the request.
   */
  lemma FullStagesPrefixes(url: Url, tried: nat)
    ensures var full := FullStages(url, tried);
      var connect := [ParseStage, ResolveStage(Service(url)), ConnectStage(tried)];
      && IsPrefix([ParseStage], full)
      && IsPrefix([ParseStage, ResolveStage(Service(url))], full)
      && IsPrefix(connect, full) && |full| == (if UsesTls(url) then 5 else 4)
      && (UsesTls(url) ==>
            IsPrefix(connect + [TlsStage], full)
            && full == connect + [TlsStage] + [RequestStage(MakeRequest(url))])
      && (!UsesTls(url) ==> full == connect + [RequestStage(MakeRequest(url))])
  {
    var full := FullStages(url, tried);
    var connect := [ParseStage, ResolveStage(Service(url)), ConnectStage(tried)];
    if UsesTls(url) {
      assert full == connect + [TlsStage] + [RequestStage(MakeRequest(url))];
      assert full[..4] == connect + [TlsStage];
    } else {
      assert full == connect + [RequestStage(MakeRequest(url))];
    }
    assert full[..3] == connect;
    assert full[..2] == [ParseStage, ResolveStage(Service(url))];
    assert full[..1] == [ParseStage];
  }

  /** What owns the socket when the request ends: nothing, a TCP socket, or a TLS stream. */
  datatype Phase = BeforeSocket | PlainSocket | TlsSocket(handshaken: bool)

  datatype Outcome = Outcome(result: Result<Response>, stages: seq<Stage>, phase: Phase)

  /**
   * `GetAsyncImpl`, common to both clients: parse, resolve, connect, then
   * either a TLS handshake (for "https:") or plain TCP, then one HTTP
   * exchange. The first failing step's error is the result, and nothing
   * after it runs.
   */
  function Pipeline(net: Net): (o: Outcome)
    ensures net.parsed.None? ==> o == Outcome(Err(InvalidArgument), [ParseStage], BeforeSocket)
    ensures net.parsed.Some? ==> IsPrefix(o.stages, FullStages(net.parsed.value, ConnectOutcome(net.attempts).1))
    ensures net.parsed.Some? && net.resolveError.Some? ==> o.result == Err(net.resolveError.value)
    ensures net.parsed.Some? && net.resolveError.None? && ConnectOutcome(net.attempts).0.Some?
            ==> o.result == Err(ConnectOutcome(net.attempts).0.value)
    ensures o.phase != BeforeSocket
            <==> net.parsed.Some? && net.resolveError.None? && ConnectOutcome(net.attempts).0.None?
    ensures o.phase.TlsSocket? <==> o.phase != BeforeSocket && UsesTls(net.parsed.value)
    ensures o.phase.TlsSocket? && !net.sniOk ==> o.result == Err(ProtocolError) && !o.phase.handshaken
    ensures o.phase.TlsSocket? && net.sniOk && net.handshakeError.Some?
            ==> o.result == Err(net.handshakeError.value) && !o.phase.handshaken
    ensures net.parsed.Some? ==> ((o.phase == PlainSocket || o.phase == TlsSocket(true))
            <==> o.stages == FullStages(net.parsed.value, ConnectOutcome(net.attempts).1))
    ensures (o.phase == PlainSocket || o.phase == TlsSocket(true)) ==> o.result == HttpExchange(net.exchange)
    ensures o.result.Ok? ==> o.phase == PlainSocket || o.phase == TlsSocket(true)
  {
    match UrlParse(net.parsed)
    case Err(e) => Outcome(Err(e), [ParseStage], BeforeSocket)
    case Ok(url) =>
      var resolve := [ParseStage, ResolveStage(Service(url))];
      FullStagesPrefixes(url, ConnectOutcome(net.attempts).1);
      if net.resolveError.Some? then Outcome(Err(net.resolveError.value), resolve, BeforeSocket)
      else
        var (ec, tried) := ConnectOutcome(net.attempts);
        var connect := resolve + [ConnectStage(tried)];
        if ec.Some? then Outcome(Err(ec.value), connect, BeforeSocket)
        else if UsesTls(url) then
          var tls := connect + [TlsStage];
          if !net.sniOk then Outcome(Err(ProtocolError), tls, TlsSocket(false))
          else if net.handshakeError.Some? then Outcome(Err(net.handshakeError.value), tls, TlsSocket(false))
          else Outcome(HttpExchange(net.exchange), tls + [RequestStage(MakeRequest(url))], TlsSocket(true))
        else
          Outcome(HttpExchange(net.exchange), connect + [RequestStage(MakeRequest(url))], PlainSocket)
  }

  /**
   * A request succeeds exactly when the coroutine does not throw, the URL
   * parses, the name resolves, an endpoint connects, an "https:" URL's SNI
   * and handshake pass, and the exchange succeeds.
   */
  lemma RequestSucceedsIff(net: Net)
    ensures Complete(net.threw, Pipeline(net).result).Ok?
            <==> !net.threw && UrlParse(net.parsed).Ok? && net.resolveError.None?
                 && ConnectOutcome(net.attempts).0.None?
                 && (UsesTls(net.parsed.value) ==> net.sniOk && net.handshakeError.None?)
                 && HttpExchange(net.exchange).Ok?
  {
    CompleteKeepsResult(net.threw, Pipeline(net).result);
  }

  /** A plain-HTTP request never looks at the TLS answers. */
  lemma PlainIgnoresTls(net: Net, sniOk: bool, handshakeError: Option<ErrorCode>)
    requires net.parsed.Some? && !UsesTls(net.parsed.value)
    ensures Pipeline(net.(sniOk := sniOk, handshakeError := handshakeError)) == Pipeline(net)
  {
  }

  /** The socket's state when its owner lets it go. */
  datatype Peek = PeekData | WouldBlock | PeekEof | PeekError
  datatype Socket = Socket(open: bool, remoteOk: bool, availableOk: bool, nonBlocking: bool, peek: Peek)

  /** What tearing a connection down does to the socket, in order. */
  datatype Effect = TlsShutdown | Shutdown | Close
}

/**
 * The Asio client: its socket guard shuts a socket down whenever the peer
 * address can still be read, then closes it.
 */
module AsioClient {
  import opened Core
  import opened LiteClient

  /** `SocketScope`'s destructor: nothing for a closed socket; else shutdown when connected, then close. */
  function ScopeEnd(s: Socket): (fx: seq<Effect>)
    ensures !s.open <==> fx == []
    ensures s.open ==> fx[|fx| - 1] == Close
    ensures Shutdown in fx <==> s.open && s.remoteOk
    ensures TlsShutdown !in fx
  {
    if !s.open then []
    else if s.remoteOk then [Shutdown, Close]
    else [Close]
  }

  /**
   * The teardown that follows a request: a TLS stream whose handshake
   * passed is shut down first, then the socket guard runs.
   */
  function Teardown(phase: Phase, s: Socket): (fx: seq<Effect>)
    ensures phase == BeforeSocket ==> fx == []
    ensures phase != BeforeSocket ==> fx == (if phase == TlsSocket(true) then [TlsShutdown] else []) + ScopeEnd(s)
  {
    match phase
    case BeforeSocket => []
    case PlainSocket => ScopeEnd(s)
    case TlsSocket(handshaken) => if handshaken then [TlsShutdown] + ScopeEnd(s) else ScopeEnd(s)
  }

  /**
   * `BeastRequestContext::GetAsync`: the pipeline's result (or `io_error`
   * when the coroutine threw) and what happened to the socket.
   */
  function GetAsync(net: Net, s: Socket): (r: (Result<Response>, seq<Effect>))
    ensures r.0 == Complete(net.threw, Pipeline(net).result)
    ensures r.1 == Teardown(Pipeline(net).phase, s)
    ensures r.0.Ok? ==> r.0 == HttpExchange(net.exchange)
  {
    var o := Pipeline(net);
    (Complete(net.threw, o.result), Teardown(o.phase, s))
  }

  /** Once a connection exists, an open socket is always closed and closing comes last. */
  lemma ConnectedSocketIsClosed(net: Net, s: Socket)
    requires Pipeline(net).phase != BeforeSocket && s.open
    ensures var fx := GetAsync(net, s).1; |fx| > 0 && fx[|fx| - 1] == Close
    ensures Close !in GetAsync(net, s).1[..|GetAsync(net, s).1| - 1]
  {
  }

  /** A failed TLS handshake is never followed by a TLS shutdown. */
  lemma NoTlsShutdownWithoutHandshake(net: Net, s: Socket)
    requires net.parsed.Some? && UsesTls(net.parsed.value)
    requires !net.sniOk || net.handshakeError.Some?
    ensures TlsShutdown !in GetAsync(net, s).1
  {
  }
}

/**
 * The Beast client and `Http::TcpConnection`: the same pipeline, but a
 * socket counts as connected only if its peer address, its pending-byte
 * count and, in non-blocking mode, a one-byte peek all succeed.
 */
module BeastClient {
  import opened Core
  import opened LiteClient
  import AsioClient
  import LogLevel

  /** `SocketConnected`. */
  function SocketConnected(s: Socket): (c: bool)
    ensures c ==> s.remoteOk && s.availableOk
    ensures s.remoteOk && s.availableOk && !s.nonBlocking ==> c
    ensures s.nonBlocking ==> (c <==> s.remoteOk && s.availableOk && (s.peek == PeekData || s.peek == WouldBlock))
  {
    if !s.remoteOk then false
    else if !s.availableOk then false
    else if s.nonBlocking then s.peek == PeekData || s.peek == WouldBlock
    else true
  }

  /** `SocketFinish`: nothing for a closed socket; else shutdown when connected, then close. */
  function SocketFinish(s: Socket): (fx: seq<Effect>)
    ensures !s.open <==> fx == []
    ensures s.open ==> fx[|fx| - 1] == Close
    ensures Shutdown in fx <==> s.open && SocketConnected(s)
    ensures TlsShutdown !in fx
  {
    if !s.open then []
    else if SocketConnected(s) then [Shutdown, Close]
    else [Close]
  }

  /** `SocketClose`: a failure is logged at debug; a success at trace, and only when asked to. */
  function CloseLog(failed: bool, logSuccess: bool): (l: Option<LogLevel.Level>)
    ensures failed ==> l == Some(LogLevel.Debug)
    ensures !failed ==> (l.Some? <==> logSuccess) && (logSuccess ==> l == Some(LogLevel.Trace))
  {
    if failed then Some(LogLevel.Debug) else if logSuccess then Some(LogLevel.Trace) else None
  }

  /** `SocketShutdown`: a failure is logged at debug, a success at trace. */
  function ShutdownLog(failed: bool): (l: LogLevel.Level)
    ensures failed <==> l == LogLevel.Debug
  {
    if failed then LogLevel.Debug else LogLevel.Trace
  }

  /**
   * `SocketFinish` with the log line each step writes. Errors from shutdown
   * and close are only logged: they change neither which steps run nor
   * anything the caller sees.
   */
  function SocketFinishLogged(s: Socket, shutdownFails: bool, closeFails: bool): (fx: seq<(Effect, Option<LogLevel.Level>)>)
  {
    if !s.open then []
    else
      var close := [(Close, CloseLog(closeFails, true))];
      if SocketConnected(s) then [(Shutdown, Some(ShutdownLog(shutdownFails)))] + close else close
  }

  /** The logged steps are exactly `SocketFinish`'s, and every failure leaves a debug line. */
  lemma FinishErrorsOnlyLogged(s: Socket, shutdownFails: bool, closeFails: bool)
    ensures var fx := SocketFinishLogged(s, shutdownFails, closeFails);
      |fx| == |SocketFinish(s)| && (forall i :: 0 <= i < |fx| ==> fx[i].0 == SocketFinish(s)[i])
      && (forall i :: 0 <= i < |fx| ==> (fx[i].1 == Some(LogLevel.Debug) <==>
            (fx[i].0 == Close && closeFails) || (fx[i].0 == Shutdown && shutdownFails)))
  {
  }

  /** The socket once closed: later finishing does nothing. */
  function Closed(s: Socket): Socket {
    s.(open := false)
  }

  /** Finishing a socket twice acts once: the destructor of a moved-from connection is a no-op. */
  lemma SocketFinishOnce(s: Socket)
    ensures SocketFinish(Closed(s)) == []
    ensures SocketFinish(s) == [] || SocketFinish(s)[|SocketFinish(s)| - 1] == Close
  {
  }

  /**
   * `SslConnection`'s destructor: a stream whose handshake never completed
   * (or that has no handle) finishes its socket at once; otherwise the TLS
   * shutdown runs first and the socket is finished afterwards.
   */
  function SslDrop(handshakeComplete: Option<bool>, s: Socket): (fx: seq<Effect>)
    ensures handshakeComplete != Some(true) ==> fx == SocketFinish(s)
    ensures handshakeComplete == Some(true) ==> fx == [TlsShutdown] + SocketFinish(s)
  {
    if handshakeComplete == Some(true) then [TlsShutdown] + SocketFinish(s) else SocketFinish(s)
  }

  /** The teardown after a request: `TcpConnection` or `SslConnection` going out of scope. */
  function Teardown(phase: Phase, s: Socket): (fx: seq<Effect>)
    ensures phase == BeforeSocket ==> fx == []
    ensures phase == PlainSocket ==> fx == SocketFinish(s)
    ensures phase.TlsSocket? ==> fx == SslDrop(Some(phase.handshaken), s)
  {
    match phase
    case BeforeSocket => []
    case PlainSocket => SocketFinish(s)
    case TlsSocket(handshaken) => SslDrop(Some(handshaken), s)
  }

  /** `GetAsync` of the Beast client. */
  function GetAsync(net: Net, s: Socket): (r: (Result<Response>, seq<Effect>))
    ensures r.0 == Complete(net.threw, Pipeline(net).result)
    ensures r.1 == Teardown(Pipeline(net).phase, s)
  {
    var o := Pipeline(net);
    (Complete(net.threw, o.result), Teardown(o.phase, s))
  }

  /** Both clients hand back the same result for the same network. */
  lemma BeastAgreesWithAsio(net: Net, s: Socket)
    ensures GetAsync(net, s).0 == AsioClient.GetAsync(net, s).0
  {
  }

  /** The teardowns differ only in how "connected" is decided. */
  lemma TeardownsAgreeWhenConnectedAgrees(phase: Phase, s: Socket)
    requires SocketConnected(s) == s.remoteOk
    ensures Teardown(phase, s) == AsioClient.Teardown(phase, s)
  {
  }

  /**
   * A non-blocking socket whose peer has gone (the peek reads end of
   * stream) is shut down by the Asio guard but only closed by Beast.
   */
  lemma PeerGoneSkipsShutdown()
    ensures var s := Socket(true, true, true, true, PeekEof);
      Teardown(PlainSocket, s) == [Close] && AsioClient.Teardown(PlainSocket, s) == [Shutdown, Close]
  {
  }
}

=== FILE: log_format.dfy ===
/**
 * The two custom flags of the log pattern: `%N` prints the area name or the
 * short file name, `%&` prints the short function name followed by ": ".
 */
module LogFormat {
  import opened Core
  import opened Text
  import opened LogPath
  import opened LogSrc
  import Logger
  import L = LogLevel

  const NameDelimiters: set<char> := {' ', ':'}

  /**
   * `LoggerFlagFormatter::format` (`%N`): a record carrying the area marker
   * prints its file name, which holds the area; any other record prints the
   * file's basename without its last extension, and never a line number.
   */
  function LoggerFlag(loc: SourceLoc): (out: string)
    ensures loc.line == Logger.AreaLoggerLine ==> out == loc.filename
    ensures loc.line != Logger.AreaLoggerLine ==>
              var b := GetBasename(loc.filename);
              NoneOf(out, Separators) && CutAtLastDot(out, b)
  {
    if loc.line == Logger.AreaLoggerLine then loc.filename
    else GetWithoutExtension(GetBasename(loc.filename))
  }

  /** The first '(' at or after `i`, or the end of the name (the C string's terminator). */
  function NameEnd(s: string, i: nat): (e: nat)
    requires i <= |s|
    ensures i <= e <= |s|
    ensures e == |s| || s[e] == '('
    ensures forall k :: i <= k < e ==> s[k] != '('
    decreases |s| - i
  {
    if i < |s| && s[i] != '(' then NameEnd(s, i + 1) else i
  }

  /** Walks back from `j` to just after the nearest ' ' or ':', or to the start. */
  function NameStart(s: string, j: nat): (b: nat)
    requires j <= |s|
    ensures b <= j
    ensures b == 0 || s[b - 1] in NameDelimiters
    ensures forall k :: b <= k < j ==> s[k] !in NameDelimiters
  {
    if j > 0 && s[j - 1] !in NameDelimiters then NameStart(s, j - 1) else j
  }

  /**
   * Where `ExtractShortNameWithNamespace` cuts: the name ends at the first '('
   * (or the end of the text) and starts right after the last ' ' or ':'
   * before that end (or at the start).
   */
  function ShortNameSpan(full: string): (span: (nat, nat))
    ensures span.0 <= span.1 <= |full|
    ensures span.1 == |full| || full[span.1] == '('
    ensures NoneOf(full[..span.1], {'('})
    ensures span.0 == 0 || full[span.0 - 1] in NameDelimiters
    ensures NoneOf(full[span.0..span.1], NameDelimiters)
  {
    var e := NameEnd(full, 0);
    (NameStart(full, e), e)
  }

  /** `ExtractShortNameWithNamespace`: the text inside `ShortNameSpan`. */
  function ExtractShortName(full: string): (r: string)
    ensures NoneOf(r, NameDelimiters + {'('})
    ensures r == full[ShortNameSpan(full).0..ShortNameSpan(full).1]
  {
    var span := ShortNameSpan(full);
    full[span.0..span.1]
  }

  /** `FunctionNameFlagFormatter::format` (`%&`): nothing without a function name. */
  function FunctionNameFlag(funcname: Option<string>): (out: string)
    ensures funcname.None? <==> out == ""
    ensures funcname.Some? ==> out == ExtractShortName(funcname.value) + ": "
  {
    match funcname
    case None => ""
    case Some(f) => ExtractShortName(f) + ": "
  }

  /** The bounds `ShortNameSpan` promises pin it down: no other span has them. */
  lemma ShortNameSpanUnique(full: string, b: nat, e: nat)
    requires b <= e <= |full|
    requires e == |full| || full[e] == '('
    requires NoneOf(full[..e], {'('})
    requires b == 0 || full[b - 1] in NameDelimiters
    requires NoneOf(full[b..e], NameDelimiters)
    ensures ShortNameSpan(full) == (b, e)
  {
    var span := ShortNameSpan(full);
    assert forall k :: 0 <= k < e ==> full[k] != '(' by {
      forall k | 0 <= k < e ensures full[k] != '(' {
        assert full[..e][k] == full[k];
      }
    }
    assert forall k :: 0 <= k < span.1 ==> full[k] != '(' by {
      forall k | 0 <= k < span.1 ensures full[k] != '(' {
        assert full[..span.1][k] == full[k];
      }
    }
    assert span.1 == e;
    assert forall k :: b <= k < e ==> full[k] !in NameDelimiters by {
      forall k | b <= k < e ensures full[k] !in NameDelimiters {
        assert full[b..e][k - b] == full[k];
      }
    }
    assert forall k :: span.0 <= k < e ==> full[k] !in NameDelimiters by {
      forall k | span.0 <= k < e ensures full[k] !in NameDelimiters {
        assert full[span.0..e][k - span.0] == full[k];
      }
    }
  }

  /** A short name is found for a typical `__PRETTY_FUNCTION__` text. */
  lemma ExtractShortNameExample()
    ensures ExtractShortName("void Ns::Client::Run(int)") == "Run"
  {
    var s := "void Ns::Client::Run(int)";
    assert s[20] == '(' && s[16] == ':';
    assert s[..20] == "void Ns::Client::Run";
    assert s[17..20] == "Run";
    ShortNameSpanUnique(s, 17, 20);
  }

  /** Any record an area logger produces prints the area under `%N`. */
  lemma AreaLoggerPrintsArea(area: string, src: Src, level: L.Level, text: string)
    ensures LoggerFlag(Logger.Logger(Some(area)).MsgSrc(src, level, text).loc) == area
    ensures LoggerFlag(Logger.Logger(Some(area)).MsgLoc(ToSpdLoc(src), level, text).loc) == area
  {
  }

  /** A call site in mode `NoFunc` prints no function name and no ": " under `%&`. */
  lemma NoFuncPrintsNothing(logger: Logger.Logger, src: Src, level: L.Level, text: string)
    requires src.mode == NoFunc
    ensures FunctionNameFlag(logger.MsgSrc(src, level, text).loc.funcname) == ""
    ensures FunctionNameFlag(Logger.Msg(src, level, text).loc.funcname) == ""
  {
  }

  /** Without an area, `%N` prints the same for any line number. */
  lemma LoggerFlagIgnoresLine(filename: string, line1: int, line2: int, f: Option<string>)
    requires line1 != Logger.AreaLoggerLine && line2 != Logger.AreaLoggerLine
    ensures LoggerFlag(SourceLoc(filename, line1, f)) == LoggerFlag(SourceLoc(filename, line2, f))
  {
  }

  /**
   * `%N` of an ordinary record is the short file name: "Log" for this
   * formatter's own file, "Boot.LogHeader" for a file with two dots under
   * '\\' separators.
   */
  lemma LoggerFlagShortFileName(line: int, f: Option<string>)
    requires line != Logger.AreaLoggerLine
    ensures LoggerFlag(SourceLoc("src/pkg-log/Log/" + "Log" + ".cpp", line, f)) == "Log"
    ensures LoggerFlag(SourceLoc("src\\pkg-boot\\Boot\\" + "Boot.LogHeader" + ".cpp", line, f)) == "Boot.LogHeader"
  {
    ExampleNameParts();
    ShortFileName("src/pkg-log/Log/", "Log", ".cpp", line, f);
    ShortFileName("src\\pkg-boot\\Boot\\", "Boot.LogHeader", ".cpp", line, f);
  }

  /** The pieces of the two example file names, character by character. */
  lemma ExampleNameParts()
    ensures "src/pkg-log/Log/"[15] in Separators && "src\\pkg-boot\\Boot\\"[17] in Separators
    ensures NoneOf("Log", Separators) && NoneOf("Boot.LogHeader", Separators)
    ensures NoneOf(".cpp", Separators) && NoneOf(".cpp"[1..], {'.'})
  {
  }

  /** A record from `dir + stem + ext` prints `stem` under `%N`. */
  lemma ShortFileName(dir: string, stem: string, ext: string, line: int, f: Option<string>)
    requires line != Logger.AreaLoggerLine
    requires |dir| > 0 && dir[|dir| - 1] in Separators
    requires NoneOf(stem, Separators) && NoneOf(ext, Separators)
    requires |ext| > 0 && ext[0] == '.' && NoneOf(ext[1..], {'.'})
    ensures LoggerFlag(SourceLoc(dir + stem + ext, line, f)) == stem
  {
    assert dir + stem + ext == dir + (stem + ext);
    assert NoneOf(stem + ext, Separators) by {
      forall i | 0 <= i < |stem + ext| ensures (stem + ext)[i] !in Separators {
        if i >= |stem| {
          assert (stem + ext)[i] == ext[i - |stem|];
        }
      }
    }
    BasenameOfJoin(dir, stem + ext);
    WithoutExtensionOfJoin(stem, ext);
  }
}

=== FILE: log_level.dfy ===
/**
 * `Log::Level` and its conversion to spdlog's level enumeration, which is a
 * plain cast of the underlying value.
 */
module LogLevel {

  /** `Log::Level`, an `unsigned char` enumeration numbered from 0. */
  datatype Level = Trace | Debug | Info | Warn | Error | Fatal

  /** The underlying value of a `Log::Level`. */
  function Ordinal(l: Level): (n: nat)
    ensures n < 6
  {
    match l
    case Trace => 0
    case Debug => 1
    case Info => 2
    case Warn => 3
    case Error => 4
    case Fatal => 5
  }

  /** `spdlog::level::level_enum`, numbered from 0 (trace) to 6 (off). */
  datatype SpdLevel = SpdTrace | SpdDebug | SpdInfo | SpdWarn | SpdErr | SpdCritical | SpdOff

  function SpdOrdinal(l: SpdLevel): (n: nat)
    ensures n < 7
  {
    match l
    case SpdTrace => 0
    case SpdDebug => 1
    case SpdInfo => 2
    case SpdWarn => 3
    case SpdErr => 4
    case SpdCritical => 5
    case SpdOff => 6
  }

  /** `static_cast<spdlog::level::level_enum>(n)` for an in-range `n`. */
  function SpdFromOrdinal(n: nat): (l: SpdLevel)
    requires n < 7
    ensures SpdOrdinal(l) == n
  {
    if n == 0 then SpdTrace
    else if n == 1 then SpdDebug
    else if n == 2 then SpdInfo
    else if n == 3 then SpdWarn
    else if n == 4 then SpdErr
    else if n == 5 then SpdCritical
    else SpdOff
  }

  /** `Log::Details::ToSpdLevel`: the value cast, never `off`. */
  function ToSpdLevel(l: Level): (r: SpdLevel)
    ensures SpdOrdinal(r) == Ordinal(l)
    ensures r != SpdOff
  {
    SpdFromOrdinal(Ordinal(l))
  }

  /** The name-by-name mapping the source documents next to the cast. */
  function DocumentedSpdLevel(l: Level): SpdLevel {
    match l
    case Trace => SpdTrace
    case Debug => SpdDebug
    case Info => SpdInfo
    case Warn => SpdWarn
    case Error => SpdErr
    case Fatal => SpdCritical
  }

  /** The cast agrees with the documented mapping for every level. */
  lemma CastMatchesDocumentedMapping(l: Level)
    ensures ToSpdLevel(l) == DocumentedSpdLevel(l)
  {
  }

  /** The conversion is injective and keeps the severity order in both directions. */
  lemma ToSpdLevelKeepsOrder(a: Level, b: Level)
    ensures Ordinal(a) <= Ordinal(b) <==> SpdOrdinal(ToSpdLevel(a)) <= SpdOrdinal(ToSpdLevel(b))
    ensures ToSpdLevel(a) == ToSpdLevel(b) ==> a == b
  {
  }

  /** spdlog's `should_log`: a message passes when it is at least as severe as the threshold. */
  predicate ShouldLog(threshold: SpdLevel, msg: SpdLevel) {
    SpdOrdinal(msg) >= SpdOrdinal(threshold)
  }
}

=== FILE: log_logger.dfy ===
/**
 * `Log::Logger` and the free `Log::Msg` family. A call produces the record
 * handed to spdlog: its source location, its spdlog level and its text. The
 * text stands for the already formatted message; `std::format` itself is
 * outside the model.
 */
module Logger {
  import opened Core
  import L = LogLevel
  import opened LogSrc

  /** `Detail::AreaLoggerLine`: the line that marks a location rewritten to an area name. */
  const AreaLoggerLine: int := -1

  /** What reaches `spdlog::logger::log`. */
  datatype Record = Record(loc: SourceLoc, level: L.SpdLevel, text: string)

  /** `Log::FmtMsg`: a format string (here already rendered) with its call site. */
  datatype FmtMsg = FmtMsg(text: string, src: Src)

  /** `Log::Logger`: an optional area name. */
  datatype Logger = Logger(area: Option<string>) {

    /** `Logger::Enabled`: asks the default spdlog logger with the converted level. */
    function Enabled(level: L.Level, threshold: L.SpdLevel): (r: bool)
      ensures r <==> L.Ordinal(level) >= L.SpdOrdinal(threshold)
    {
      L.ShouldLog(threshold, L.ToSpdLevel(level))
    }

    /**
     * The `source_loc` overloads (plain text and format string): an area
     * logger replaces the file name by the area and the line by the area
     * marker; the function name is kept.
     */
    function MsgLoc(loc: SourceLoc, level: L.Level, text: string): (r: Record)
      ensures r.level == L.ToSpdLevel(level) && r.text == text
      ensures r.loc.funcname == loc.funcname
      ensures area.Some? ==> r.loc.filename == area.value && r.loc.line == AreaLoggerLine
      ensures area.None? ==> r.loc == loc
    {
      var loc' := if area.Some? then loc.(filename := area.value, line := AreaLoggerLine) else loc;
      Record(loc', L.ToSpdLevel(level), text)
    }

    /** The overloads taking a logger first: the passed logger does the work, not `this`. */
    function MsgVia(loc: SourceLoc, level: L.Level, logger: Logger, text: string): (r: Record)
      ensures logger.area.Some? ==> r.loc.filename == logger.area.value && r.loc.line == AreaLoggerLine
      ensures logger.area.None? ==> r.loc == loc
      ensures r.level == L.ToSpdLevel(level) && r.text == text
    {
      logger.MsgLoc(loc, level, text)
    }

    /** The main `Src` overload: convert the call site, then apply the area rewrite. */
    function MsgSrc(src: Src, level: L.Level, text: string): (r: Record)
      ensures r.level == L.ToSpdLevel(level) && r.text == text
      ensures r.loc.funcname.None? <==> src.mode == NoFunc
      ensures area.Some? ==> r.loc.filename == area.value && r.loc.line == AreaLoggerLine
      ensures area.None? ==> r.loc == ToSpdLoc(src)
    {
      var loc := ToSpdLoc(src);
      var loc' := if area.Some? then loc.(filename := area.value, line := AreaLoggerLine) else loc;
      Record(loc', L.ToSpdLevel(level), text)
    }

    /** `Logger::Msg(level, FmtMsg)`: the call site travels inside the message. */
    function Msg(level: L.Level, fmt: FmtMsg): (r: Record)
      ensures r.level == L.ToSpdLevel(level) && r.text == fmt.text
      ensures area.Some? ==> r.loc.filename == area.value && r.loc.line == AreaLoggerLine
    {
      MsgSrc(fmt.src, level, fmt.text)
    }

    function Trace(fmt: FmtMsg): (r: Record)
      ensures r.level == L.SpdTrace
    {
      Msg(L.Trace, fmt)
    }

    function Debug(fmt: FmtMsg): (r: Record)
      ensures r.level == L.SpdDebug
    {
      Msg(L.Debug, fmt)
    }

    function Info(fmt: FmtMsg): (r: Record)
      ensures r.level == L.SpdInfo
    {
      Msg(L.Info, fmt)
    }

    function Warn(fmt: FmtMsg): (r: Record)
      ensures r.level == L.SpdWarn
    {
      Msg(L.Warn, fmt)
    }

    function Error(fmt: FmtMsg): (r: Record)
      ensures r.level == L.SpdErr
    {
      Msg(L.Error, fmt)
    }

    function Fatal(fmt: FmtMsg): (r: Record)
      ensures r.level == L.SpdCritical
    {
      Msg(L.Fatal, fmt)
    }
  }

  /** `Logger::Default`: no area. */
  const Default: Logger := Logger(None)

  // ------------------------------------------------- free functions of Log

  /** `Log::Enabled`: asks the default logger's spdlog logger. */
  function Enabled(level: L.Level, threshold: L.SpdLevel): (r: bool)
    ensures r <==> L.Ordinal(level) >= L.SpdOrdinal(threshold)
  {
    Default.Enabled(level, threshold)
  }

  /** `Log::Msg(src, level, ...)`: the call site converted, no area. */
  function Msg(src: Src, level: L.Level, text: string): (r: Record)
    ensures r.loc.filename == src.file
    ensures src.line <= IntMax ==> r.loc.line == src.line != AreaLoggerLine
    ensures r.loc.funcname.None? <==> src.mode == NoFunc
    ensures r.level == L.ToSpdLevel(level) && r.text == text
  {
    Record(ToSpdLoc(src), L.ToSpdLevel(level), text)
  }

  function MsgFmt(level: L.Level, fmt: FmtMsg): (r: Record)
    ensures r.level == L.ToSpdLevel(level) && r.text == fmt.text
  {
    Msg(fmt.src, level, fmt.text)
  }

  function Trace(fmt: FmtMsg): (r: Record)
    ensures r.level == L.SpdTrace
  {
    MsgFmt(L.Trace, fmt)
  }

  function Debug(fmt: FmtMsg): (r: Record)
    ensures r.level == L.SpdDebug
  {
    MsgFmt(L.Debug, fmt)
  }

  function Info(fmt: FmtMsg): (r: Record)
    ensures r.level == L.SpdInfo
  {
    MsgFmt(L.Info, fmt)
  }

  function Warn(fmt: FmtMsg): (r: Record)
    ensures r.level == L.SpdWarn
  {
    MsgFmt(L.Warn, fmt)
  }

  function Error(fmt: FmtMsg): (r: Record)
    ensures r.level == L.SpdErr
  {
    MsgFmt(L.Error, fmt)
  }

  function Fatal(fmt: FmtMsg): (r: Record)
    ensures r.level == L.SpdCritical
  {
    MsgFmt(L.Fatal, fmt)
  }

  /** The `LogMsg` macro family: the default logger with an explicit `source_loc`. */
  function LogMsg(file: string, line: int, func: string, level: L.Level, text: string): (r: Record)
    ensures r == Record(SourceLoc(file, line, Some(func)), L.ToSpdLevel(level), text)
  {
    Default.MsgLoc(SourceLoc(file, line, Some(func)), level, text)
  }

  // ---------------------------------------------------------------- lemmas

  /** Every overload of an area logger applies the same rewrite. */
  lemma OverloadsAgree(logger: Logger, src: Src, level: L.Level, text: string, self: Logger)
    ensures logger.MsgSrc(src, level, text) == logger.MsgLoc(ToSpdLoc(src), level, text)
    ensures self.MsgVia(ToSpdLoc(src), level, logger, text) == logger.MsgLoc(ToSpdLoc(src), level, text)
    ensures logger.Msg(level, FmtMsg(text, src)) == logger.MsgSrc(src, level, text)
  {
  }

  /** Without an area the logger is a pass-through: it logs what the free functions log. */
  lemma DefaultIsPassThrough(fmt: FmtMsg, level: L.Level)
    ensures Default.Msg(level, fmt) == MsgFmt(level, fmt)
    ensures Default.Trace(fmt) == Trace(fmt) && Default.Debug(fmt) == Debug(fmt)
    ensures Default.Info(fmt) == Info(fmt) && Default.Warn(fmt) == Warn(fmt)
    ensures Default.Error(fmt) == Error(fmt) && Default.Fatal(fmt) == Fatal(fmt)
  {
  }

  /** `Enabled` is monotone: a more severe level is enabled whenever a milder one is. */
  lemma EnabledMonotone(a: L.Level, b: L.Level, threshold: L.SpdLevel)
    requires L.Ordinal(a) <= L.Ordinal(b)
    ensures Enabled(a, threshold) ==> Enabled(b, threshold)
    ensures forall logger: Logger :: logger.Enabled(a, threshold) ==> logger.Enabled(b, threshold)
  {
  }
}

=== FILE: log_path.dfy ===
/**
 * `Log::Path`: the last path component of a file name and the name without
 * its last extension. Both accept '/' and '\\' as separators.
 */
module LogPath {
  import opened Core
  import opened Text

  const Separators: set<char> := {'/', '\\'}

  /** `t` is the last `|t|` characters of `s`. */
  predicate IsSuffix(t: string, s: string) {
    |t| <= |s| && s[|s| - |t|..] == t
  }

  /**
   * `GetBasename`: the longest suffix of `path` free of separators. It is the
   * whole path when there is no separator, and otherwise starts right after
   * the last one.
   */
  function GetBasename(path: string): (r: string)
    ensures IsSuffix(r, path)
    ensures NoneOf(r, Separators)
    ensures |r| == |path| || path[|path| - |r| - 1] in Separators
    ensures NoneOf(path, Separators) ==> r == path
  {
    match FindLastOf(path, Separators)
    case None => path
    case Some(pos) => path[pos + 1..]
  }

  /**
   * `r` is `path` cut at its last '.': the whole path when it has no '.',
   * and otherwise the text before a '.' that no other '.' follows.
   */
  predicate CutAtLastDot(r: string, path: string) {
    IsPrefix(r, path)
    && ((|r| == |path| && NoneOf(path, {'.'}))
        || (|r| < |path| && path[|r|] == '.' && NoneOf(path[|r| + 1..], {'.'})))
  }

  /**
   * `GetWithoutExtension`: the path up to (not including) its last '.', or
   * the whole path when it has none.
   */
  function GetWithoutExtension(path: string): (r: string)
    ensures CutAtLastDot(r, path)
    ensures NoneOf(path, {'.'}) ==> r == path
  {
    match FindLastOf(path, {'.'})
    case None => path
    case Some(pos) => path[..pos]
  }

  /** The cut is determined: only one prefix of a path is cut at its last '.'. */
  lemma WithoutExtensionUnique(path: string, r: string)
    requires CutAtLastDot(r, path)
    ensures r == GetWithoutExtension(path)
  {
    var g := GetWithoutExtension(path);
    assert |r| == |g|;
  }

  /** Taking the basename twice changes nothing. */
  lemma BasenameIdempotent(path: string)
    ensures GetBasename(GetBasename(path)) == GetBasename(path)
  {
  }

  /** A trailing separator leaves an empty basename. */
  lemma BasenameOfTrailingSeparator(dir: string, sep: char)
    requires sep in Separators
    ensures GetBasename(dir + [sep]) == ""
  {
    var p := dir + [sep];
    assert p[|p| - 1] == sep;
  }

  /** A path whose last separator sits at `k` has the text after `k` as its basename. */
  lemma BasenameAfter(path: string, k: nat)
    requires k < |path| && path[k] in Separators && NoneOf(path[k + 1..], Separators)
    ensures GetBasename(path) == path[k + 1..]
  {
    forall j | k < j < |path| ensures path[j] !in Separators {
      assert path[k + 1..][j - k - 1] == path[j];
    }
    FindLastOfIsLast(path, Separators, k);
  }

  /** A path whose last '.' sits at `k` loses exactly the text from `k` on. */
  lemma WithoutExtensionAt(path: string, k: nat)
    requires k < |path| && path[k] == '.' && NoneOf(path[k + 1..], {'.'})
    ensures GetWithoutExtension(path) == path[..k]
  {
    WithoutExtensionUnique(path, path[..k]);
  }

  /** A file name joined onto a directory ending in a separator is the basename. */
  lemma BasenameOfJoin(dir: string, name: string)
    requires |dir| > 0 && dir[|dir| - 1] in Separators && NoneOf(name, Separators)
    ensures GetBasename(dir + name) == name
  {
    var q := dir + name;
    assert q[|dir|..] == name;
    BasenameAfter(q, |dir| - 1);
  }

  /** A stem followed by a dot-led extension free of further dots loses the extension. */
  lemma WithoutExtensionOfJoin(stem: string, ext: string)
    requires |ext| > 0 && ext[0] == '.' && NoneOf(ext[1..], {'.'})
    ensures GetWithoutExtension(stem + ext) == stem
  {
    var q := stem + ext;
    assert q[..|stem|] == stem && q[|stem| + 1..] == ext[1..];
    WithoutExtensionAt(q, |stem|);
  }

  /** Only the last extension is dropped: "a.tar.gz" becomes "a.tar". */
  lemma WithoutExtensionDropsLastOnly()
    ensures GetWithoutExtension("a.tar" + ".gz") == "a.tar"
    ensures GetBasename("src/pkg-log/Log/" + "Log.cpp") == "Log.cpp"
  {
    WithoutExtensionOfJoin("a.tar", ".gz");
    BasenameOfJoin("src/pkg-log/Log/", "Log.cpp");
  }
}

=== FILE: log_sink.dfy ===
/**
 * The startup sink, which buffers the newest messages until real sinks are
 * attached, and `AddSink` / `RemoveSink` on the default logger's sink list.
 * Messages are opaque values of type `M`; sinks are compared by identity,
 * modelled as values of an equality type `K`.
 */
module StartupSink {

  /** The constructor's default buffer capacity. */
  const DefaultMaxBufferSize: nat := 1000

  datatype Sink<M> = Sink(buffer: seq<M>, maxBufferSize: nat)

  /** The buffer never holds more than the capacity. */
  predicate Valid<M>(s: Sink<M>) {
    |s.buffer| <= s.maxBufferSize
  }

  /** `StartupSink(maxBufferSize)`: an empty buffer. */
  function New<M>(maxBufferSize: nat): (s: Sink<M>)
    ensures Valid(s) && s.buffer == [] && s.maxBufferSize == maxBufferSize
  {
    Sink([], maxBufferSize)
  }

  /** The last `n` elements of `xs` (all of them when there are fewer). */
  function LastN<M>(xs: seq<M>, n: nat): (r: seq<M>)
    ensures |r| == if |xs| < n then |xs| else n
  {
    if |xs| <= n then xs else xs[|xs| - n..]
  }

  /**
   * `sink_it_`: drop the oldest message when full, then append. A zero
   * capacity would pop from an empty deque, which the source never guards,
   * so it is excluded.
   */
  function SinkIt<M>(s: Sink<M>, m: M): (r: Sink<M>)
    requires s.maxBufferSize > 0 && Valid(s)
    ensures Valid(r) && r.maxBufferSize == s.maxBufferSize
    ensures r.buffer == LastN(s.buffer + [m], s.maxBufferSize)
  {
    var kept := if |s.buffer| >= s.maxBufferSize then s.buffer[1..] else s.buffer;
    s.(buffer := kept + [m])
  }

  /** A run of messages, each handed to `sink_it_` in order. */
  function SinkAll<M>(s: Sink<M>, ms: seq<M>): (r: Sink<M>)
    requires s.maxBufferSize > 0 && Valid(s)
    ensures Valid(r) && r.maxBufferSize == s.maxBufferSize
    decreases |ms|
  {
    if |ms| == 0 then s else SinkAll(SinkIt(s, ms[0]), ms[1..])
  }

  lemma LastNOfLastN<M>(xs: seq<M>, m: M, n: nat)
    requires n > 0
    ensures LastN(LastN(xs, n) + [m], n) == LastN(xs + [m], n)
  {
  }

  /** Whatever arrives, the buffer holds exactly the newest messages, oldest first. */
  lemma {:induction false} SinkAllKeepsNewest<M>(s: Sink<M>, ms: seq<M>)
    requires s.maxBufferSize > 0 && Valid(s)
    ensures SinkAll(s, ms).buffer == LastN(s.buffer + ms, s.maxBufferSize)
    decreases |ms|
  {
    if |ms| == 0 {
      assert s.buffer + ms == s.buffer;
    } else {
      var s1 := SinkIt(s, ms[0]);
      SinkAllKeepsNewest(s1, ms[1..]);
      assert s.buffer == LastN(s.buffer, s.maxBufferSize);
      LastNOfLastN(s.buffer, ms[0], s.maxBufferSize);
      assert s1.buffer == LastN(s.buffer + [ms[0]], s.maxBufferSize);
      LastNAppend(s.buffer + [ms[0]], ms[1..], s.maxBufferSize);
      assert s.buffer + [ms[0]] + ms[1..] == s.buffer + ms;
    }
  }

  /** Trimming before appending more is the same as trimming once at the end. */
  lemma {:induction false} LastNAppend<M>(xs: seq<M>, ys: seq<M>, n: nat)
    requires n > 0
    ensures LastN(LastN(xs, n) + ys, n) == LastN(xs + ys, n)
  {
    if |xs| > n {
      var t := LastN(xs, n);
      assert t == xs[|xs| - n..];
      var a := t + ys;
      var b := xs + ys;
      assert a == b[|xs| - n..];
    }
  }

  /** A fresh sink fed any messages holds the last `maxBufferSize` of them. */
  lemma FreshSinkKeepsNewest<M>(maxBufferSize: nat, ms: seq<M>)
    requires maxBufferSize > 0
    ensures SinkAll(New<M>(maxBufferSize), ms).buffer == LastN(ms, maxBufferSize)
    ensures |ms| <= maxBufferSize ==> SinkAll(New<M>(maxBufferSize), ms).buffer == ms
  {
    SinkAllKeepsNewest(New<M>(maxBufferSize), ms);
    assert [] + ms == ms;
  }

  /** `ReplayTo`: delivers the buffer to the target in order and changes nothing else. */
  function ReplayTo<M>(s: Sink<M>, target: seq<M>): (delivered: seq<M>)
    ensures |delivered| == |target| + |s.buffer|
    ensures delivered[..|target|] == target && delivered[|target|..] == s.buffer
  {
    target + s.buffer
  }

  /** `ClearBuffer`: empties the buffer, keeps the capacity. */
  function ClearBuffer<M>(s: Sink<M>): (r: Sink<M>)
    ensures Valid(r) && r.buffer == [] && r.maxBufferSize == s.maxBufferSize
  {
    s.(buffer := [])
  }
}

/** `Log::Detail::AddSink` and `RemoveSink` on the default logger. */
module LogSinks {
  import opened Core
  import SS = StartupSink

  /**
   * The default logger's sink list (absent when there is no default logger)
   * and the startup sink (always present in the repository, but checked for
   * null by `AddSink`).
   */
  datatype LogState<M, K> = LogState(sinks: Option<seq<K>>, startup: Option<SS.Sink<M>>)

  /** `std::erase(sinks, sink)`: every equal element removed, the rest kept in order. */
  function Erase<K(==,!new)>(xs: seq<K>, x: K): (r: seq<K>)
    ensures x !in r
    ensures forall y :: y != x ==> (y in r <==> y in xs)
    ensures forall y :: y != x ==> multiset(r)[y] == multiset(xs)[y]
    ensures x !in xs ==> r == xs
    decreases |xs|
  {
    if |xs| == 0 then []
    else
      var rest := Erase(xs[1..], x);
      assert xs == [xs[0]] + xs[1..];
      if xs[0] == x then rest else [xs[0]] + rest
  }

  /** Erasing keeps relative order: it distributes over concatenation. */
  lemma {:induction false} EraseDistributes<K(!new)>(a: seq<K>, b: seq<K>, x: K)
    ensures Erase(a + b, x) == Erase(a, x) + Erase(b, x)
    decreases |a|
  {
    if |a| > 0 {
      assert (a + b)[1..] == a[1..] + b;
      EraseDistributes(a[1..], b, x);
    } else {
      assert a + b == b;
    }
  }

  /**
   * `AddSink`: with a default logger, the startup buffer is replayed to the
   * new sink and cleared, and the sink is appended; without one, nothing
   * happens. The second component is what the new sink received.
   */
  function AddSink<M, K>(st: LogState<M, K>, sink: K): (r: (LogState<M, K>, seq<M>))
    ensures st.sinks.None? ==> r == (st, [])
    ensures st.sinks.Some? ==> r.0.sinks == Some(st.sinks.value + [sink])
    ensures st.sinks.Some? && st.startup.Some? ==>
              r.1 == st.startup.value.buffer && r.0.startup.Some? && r.0.startup.value.buffer == []
              && r.0.startup.value.maxBufferSize == st.startup.value.maxBufferSize
    ensures st.startup.None? ==> r.1 == [] && r.0.startup.None?
  {
    match st.sinks
    case None => (st, [])
    case Some(sinks) =>
      match st.startup
      case None => (LogState(Some(sinks + [sink]), None), [])
      case Some(ss) =>
        var replayed := SS.ReplayTo(ss, []);
        (LogState(Some(sinks + [sink]), Some(SS.ClearBuffer(ss))), replayed)
  }

  /** `RemoveSink`: every registration of the sink is erased; no logger, no change. */
  function RemoveSink<M, K(==,!new)>(st: LogState<M, K>, sink: K): (r: LogState<M, K>)
    ensures r.startup == st.startup
    ensures st.sinks.None? ==> r == st
    ensures st.sinks.Some? ==> r.sinks.Some? && sink !in r.sinks.value
    ensures st.sinks.Some? ==> forall k :: k != sink ==> (k in r.sinks.value <==> k in st.sinks.value)
  {
    match st.sinks
    case None => st
    case Some(sinks) => st.(sinks := Some(Erase(sinks, sink)))
  }

  /** A message written while the startup sink is attached lands in its buffer. */
  function Emit<M, K>(st: LogState<M, K>, m: M): (r: LogState<M, K>)
    requires st.startup.Some? ==> st.startup.value.maxBufferSize > 0 && SS.Valid(st.startup.value)
    ensures r.sinks == st.sinks
    ensures r.startup.Some? <==> st.startup.Some?
    ensures r.startup.Some? ==> r.startup.value.maxBufferSize == st.startup.value.maxBufferSize
                                && SS.Valid(r.startup.value)
  {
    match st.startup
    case None => st
    case Some(ss) => st.(startup := Some(SS.SinkIt(ss, m)))
  }

  function EmitAll<M, K>(st: LogState<M, K>, ms: seq<M>): (r: LogState<M, K>)
    requires st.startup.Some? ==> st.startup.value.maxBufferSize > 0 && SS.Valid(st.startup.value)
    ensures r.sinks == st.sinks
    ensures st.startup.Some? ==> r.startup == Some(SS.SinkAll(st.startup.value, ms))
    ensures st.startup.None? ==> r == st
    decreases |ms|
  {
    if |ms| == 0 then st else EmitAll(Emit(st, ms[0]), ms[1..])
  }

  /**
   * The replay happens once: after a first `AddSink`, a later one receives
   * only the messages written in between (the newest of them, up to the
   * capacity), never the ones already replayed.
   */
  lemma LaterAddSinkReplaysOnlyNewer<M, K>(st: LogState<M, K>, first: K, second: K, ms: seq<M>)
    requires st.sinks.Some? && st.startup.Some?
    requires st.startup.value.maxBufferSize > 0 && SS.Valid(st.startup.value)
    ensures var (st1, _) := AddSink(st, first);
            var st2 := EmitAll(st1, ms);
            AddSink(st2, second).1 == SS.LastN(ms, st.startup.value.maxBufferSize)
  {
    var (st1, _) := AddSink(st, first);
    SS.FreshSinkKeepsNewest(st.startup.value.maxBufferSize, ms);
    assert st1.startup.value == SS.New(st.startup.value.maxBufferSize);
  }

  /** Removing a sink that was never added leaves the list unchanged. */
  lemma RemoveUnknownSinkIsNoOp<M, K(!new)>(st: LogState<M, K>, sink: K)
    requires st.sinks.Some? && sink !in st.sinks.value
    ensures RemoveSink(st, sink) == st
  {
  }

  /** Adding then removing a sink restores the list, up to earlier copies of it. */
  lemma AddThenRemove<M, K(!new)>(st: LogState<M, K>, sink: K)
    requires st.sinks.Some?
    ensures RemoveSink(AddSink(st, sink).0, sink).sinks == Some(Erase(st.sinks.value, sink))
  {
    EraseDistributes(st.sinks.value, [sink], sink);
    assert Erase([sink], sink) == [];
    assert Erase(st.sinks.value, sink) + [] == Erase(st.sinks.value, sink);
  }
}

=== FILE: log_src.dfy ===
/**
 * `Log::Src`: a `std::source_location` plus a mode that can hide the
 * function name, and its conversion to spdlog's `source_loc`.
 */
module LogSrc {
  import opened Core

  /** `Src::Mode`: `All` keeps the function name, `NoFunc` drops it. */
  datatype Mode = All | NoFunc

  datatype Src = Src(file: string, line: Uint32, func: string, mode: Mode)

  /** `spdlog::source_loc`; a null `funcname` is `None`. */
  datatype SourceLoc = SourceLoc(filename: string, line: int, funcname: Option<string>)

  /** The default `Src{}` captured at a call site: mode `All`. */
  function AtCallSite(file: string, line: Uint32, func: string): (s: Src)
    ensures s.mode == All && s.file == file && s.line == line && s.func == func
  {
    Src(file, line, func, All)
  }

  /** `Src::ToSpdLoc`: file and line carried over; the function name only in mode `All`. */
  function ToSpdLoc(src: Src): (loc: SourceLoc)
    ensures loc.filename == src.file
    ensures src.line <= IntMax ==> loc.line == src.line
    ensures loc.funcname.None? <==> src.mode == NoFunc
    ensures src.mode == All ==> loc.funcname == Some(src.func)
  {
    SourceLoc(src.file, ToInt(src.line), if src.mode == NoFunc then None else Some(src.func))
  }

  /**
   * A call site reaches spdlog whole: its file, its line (when it fits an
   * `int`) and its function name, and switching to `NoFunc` drops only the
   * function name.
   */
  lemma CallSiteReachesSpdlog(file: string, line: Uint32, func: string)
    requires line <= IntMax
    ensures ToSpdLoc(AtCallSite(file, line, func)) == SourceLoc(file, line, Some(func))
    ensures ToSpdLoc(AtCallSite(file, line, func).(mode := NoFunc)) == SourceLoc(file, line, None)
  {
  }
}

=== FILE: loop.dfy ===
/**
 * The application frame loop: `UpdateCtx` timing (integer fields only),
 * `FinishData`, `FuncHandler`, and the `Start` protocol shared by
 * `TightLooper` and `TightRunner`. Clock readings and handler answers are
 * oracle inputs.
 */
module UpdateCtx {

  /** Clock readings and durations in ticks of `high_resolution_clock` (nanoseconds). */
  const TicksPerMicrosecond: nat := 1000

  datatype Session = Session(startTime: int, passed: int, passedUs: int)
  datatype Frame = Frame(startTime: int, index: nat, delta: int, deltaUs: int)
  datatype Ctx = Ctx(session: Session, frame: Frame)

  /** `duration_cast<microseconds>`: integer division truncating toward zero. */
  function ToMicroseconds(d: int): (us: int)
    ensures d >= 0 ==> 0 <= us * TicksPerMicrosecond <= d < (us + 1) * TicksPerMicrosecond
    ensures d < 0 ==> (us - 1) * TicksPerMicrosecond < d <= us * TicksPerMicrosecond <= 0
  {
    if d >= 0 then d / TicksPerMicrosecond else -((-d) / TicksPerMicrosecond)
  }

  /** `Initialize`: both start times are `now`; index, delta and passed (in both units) are zero. */
  function Initialize(now: int): (c: Ctx)
    ensures c.session.startTime == now && c.frame.startTime == c.session.startTime
    ensures c.frame.index == 0 && c.frame.delta == 0 && c.frame.deltaUs == 0
    ensures c.session.passed == 0 && c.session.passedUs == 0
  {
    Ctx(Session(now, 0, 0), Frame(now, 0, 0, 0))
  }

  /**
   * `Tick` as written: passed is measured from the session start, delta from
   * the previous frame start (before it moves to `now`), and the index
   * advances by one. The frame's delta is also cast to microseconds, but the
   * session's `passedUs` is never written, so it keeps its old value.
   */
  function TickAsWritten(c: Ctx, now: int): (c': Ctx)
    ensures c'.session.startTime == c.session.startTime
    ensures c'.session.passed == now - c.session.startTime
    ensures c'.session.passedUs == c.session.passedUs
    ensures c'.frame.delta == now - c.frame.startTime
    ensures c'.frame.deltaUs == ToMicroseconds(now - c.frame.startTime)
    ensures c'.frame.index == c.frame.index + 1
    ensures c'.frame.startTime == now
  {
    var passed := now - c.session.startTime;
    var delta := now - c.frame.startTime;
    Ctx(c.session.(passed := passed),
        Frame(now, c.frame.index + 1, delta, ToMicroseconds(delta)))
  }

  /**
   * `Tick` corrected: as written, and `passedUs` is `passed` cast to
   * microseconds, the way `deltaUs` follows `delta`.
   */
  function Tick(c: Ctx, now: int): (c': Ctx)
    ensures c' == TickAsWritten(c, now).(session := c'.session)
    ensures c'.session == TickAsWritten(c, now).session.(passedUs := c'.session.passedUs)
    ensures c'.session.passedUs == ToMicroseconds(c'.session.passed)
  {
    var w := TickAsWritten(c, now);
    w.(session := w.session.(passedUs := ToMicroseconds(w.session.passed)))
  }

  /** Ticks as written at the given readings, in order: `passedUs` is never touched. */
  function TickAllAsWritten(c: Ctx, readings: seq<int>): (c': Ctx)
    ensures c'.session.startTime == c.session.startTime
    ensures c'.session.passedUs == c.session.passedUs
    ensures c'.frame.index == c.frame.index + |readings|
    decreases |readings|
  {
    if |readings| == 0 then c else TickAllAsWritten(TickAsWritten(c, readings[0]), readings[1..])
  }

  /**
   * As written, `passedUs` stays 0 from `Initialize` on, however much time
   * has passed: one tick 1000 ns after the start has passed 1000 ns, which is
   * 1 us, but `passedUs` still reads 0. The corrected tick reads 1.
   */
  lemma PassedUsStaysZero(t0: int, readings: seq<int>)
    ensures TickAllAsWritten(Initialize(t0), readings).session.passedUs == 0
    ensures TickAsWritten(Initialize(t0), t0 + 1000).session.passed == 1000
    ensures TickAsWritten(Initialize(t0), t0 + 1000).session.passedUs == 0
    ensures Tick(Initialize(t0), t0 + 1000).session.passedUs == 1
  {
  }

  /** Ticks at the given readings, in order. */
  function TickAll(c: Ctx, readings: seq<int>): (c': Ctx)
    ensures c'.session.startTime == c.session.startTime
    ensures c'.frame.index == c.frame.index + |readings|
    ensures c.session.passedUs == ToMicroseconds(c.session.passed) ==>
              c'.session.passedUs == ToMicroseconds(c'.session.passed)
    decreases |readings|
  {
    if |readings| == 0 then c else TickAll(Tick(c, readings[0]), readings[1..])
  }

  /** The deltas the ticks observe, one per reading. */
  function Deltas(start: int, readings: seq<int>): (ds: seq<int>)
    ensures |ds| == |readings|
    decreases |readings|
  {
    if |readings| == 0 then [] else [readings[0] - start] + Deltas(readings[0], readings[1..])
  }

  function Sum(xs: seq<int>): int
    decreases |xs|
  {
    if |xs| == 0 then 0 else xs[0] + Sum(xs[1..])
  }

  predicate Monotone(start: int, readings: seq<int>) {
    (|readings| > 0 ==> start <= readings[0])
    && forall i :: 0 < i < |readings| ==> readings[i - 1] <= readings[i]
  }

  lemma {:induction false} TickAllFrames(c: Ctx, readings: seq<int>)
    requires |readings| > 0
    ensures TickAll(c, readings).frame.startTime == readings[|readings| - 1]
    ensures TickAll(c, readings).frame.startTime - c.frame.startTime == Sum(Deltas(c.frame.startTime, readings))
    ensures TickAll(c, readings).session.passed == readings[|readings| - 1] - c.session.startTime
    ensures TickAll(c, readings).frame.delta == Deltas(c.frame.startTime, readings)[|readings| - 1]
    decreases |readings|
  {
    if |readings| > 1 {
      TickAllFrames(Tick(c, readings[0]), readings[1..]);
    }
  }

  /**
   * After any number of ticks from `Initialize`, the time passed is the sum of
   * the frame deltas; on a monotone clock every delta and the total are
   * non-negative.
   */
  lemma PassedIsSumOfDeltas(t0: int, readings: seq<int>)
    requires |readings| > 0
    ensures var c := TickAll(Initialize(t0), readings);
            c.session.passed == Sum(Deltas(t0, readings)) && c.frame.index == |readings|
    ensures var c := TickAll(Initialize(t0), readings);
            c.session.passedUs == ToMicroseconds(c.session.passed)
    ensures Monotone(t0, readings) ==> forall d :: d in Deltas(t0, readings) ==> d >= 0
  {
    TickAllFrames(Initialize(t0), readings);
    if Monotone(t0, readings) {
      MonotoneDeltas(t0, readings);
    }
  }

  lemma {:induction false} MonotoneDeltas(start: int, readings: seq<int>)
    requires Monotone(start, readings)
    ensures forall d :: d in Deltas(start, readings) ==> d >= 0
    decreases |readings|
  {
    if |readings| > 0 {
      MonotoneDeltas(readings[0], readings[1..]);
    }
  }
}

module Loop {
  import opened UpdateCtx

  /** `FinishData`: carries the exit code unchanged. */
  datatype FinishData = FinishData(exitCode: int)

  /**
   * A handler as seen by the loop: what `Started` answers (ignored), whether
   * it calls `Finish` during `Started`, what the i-th `Update` answers, and
   * whether it calls `Finish` during it.
   */
  datatype Handler = Handler(startedResult: bool, finishInStarted: bool,
                             updateResults: seq<bool>, finishInUpdate: seq<bool>)

  /** What the loop does, in order. */
  datatype Event = Started | TickAt(frame: nat) | Update(frame: nat) | Stopping

  /** `Finish`: only clears the running flag; the exit code is not used. */
  function Finish(running: bool, data: FinishData): (r: bool)
    ensures !r
  {
    false
  }

  /** The position of the first `false`: the number of `Update` calls that answer true. */
  function FirstFalse(bs: seq<bool>): (k: nat)
    requires exists i :: 0 <= i < |bs| && !bs[i]
    ensures k < |bs| && !bs[k]
    ensures forall i :: 0 <= i < k ==> bs[i]
  {
    if !bs[0] then 0
    else
      assert exists i :: 0 <= i < |bs[1..]| && !bs[1..][i] by {
        var i :| 0 <= i < |bs| && !bs[i];
        assert i > 0 && !bs[1..][i - 1];
      }
      1 + FirstFalse(bs[1..])
  }

  /** The events of the first `n` iterations: a tick, then an update, per frame. */
  function Iterations(n: nat): (es: seq<Event>)
    ensures |es| == 2 * n
    ensures forall i :: 0 <= i < n ==> es[2 * i] == TickAt(i) && es[2 * i + 1] == Update(i)
  {
    if n == 0 then [] else Iterations(n - 1) + [TickAt(n - 1), Update(n - 1)]
  }

  /** The loop ends: `Started` calls `Finish`, or some `Update` answers false. */
  predicate Terminates(h: Handler) {
    (h.finishInStarted || exists i :: 0 <= i < |h.updateResults| && !h.updateResults[i])
    && |h.finishInUpdate| == |h.updateResults|
  }

  /**
   * How many frames the loop runs: none when `Started` calls `Finish` (the
   * running flag is already clear when the loop is first tested), and
   * otherwise up to and including the first `Update` that answers false.
   */
  function Frames(h: Handler): (n: nat)
    requires Terminates(h)
    ensures h.finishInStarted <==> n == 0
    ensures !h.finishInStarted ==>
              n <= |h.updateResults| && !h.updateResults[n - 1]
              && forall i :: 0 <= i < n - 1 ==> h.updateResults[i]
  {
    if h.finishInStarted then 0 else FirstFalse(h.updateResults) + 1
  }

  /**
   * `TightLooper::Start` / `TightRunner::Start`: `Started` once (its answer
   * ignored), then tick-and-update while `Update` answers true, then
   * `Stopping` once. A `Finish` inside `Started` skips the loop; a `Finish`
   * inside `Update` is overwritten by `Update`'s answer. A handler that never
   * stops would loop forever, so it must stop one of these ways. Each frame
   * ticks as written, so `passedUs` stays 0 while `passed` grows.
   */
  method Start(h: Handler, clock: nat -> int) returns (trace: seq<Event>, ctx: Ctx, running: bool)
    requires Terminates(h)
    ensures !running
    ensures trace == [Started] + Iterations(Frames(h)) + [Stopping]
    ensures h.finishInStarted ==> trace == [Started, Stopping]
    ensures ctx.frame.index == Frames(h)
    ensures ctx.session.startTime == clock(0)
    ensures Frames(h) > 0 ==> ctx.session.passed == clock(Frames(h)) - clock(0)
    ensures ctx.session.passedUs == 0
  {
    var stop := Frames(h);
    ctx := Initialize(clock(0));
    running := true;
    trace := [Started];
    if h.finishInStarted {
      running := Finish(running, FinishData(0));
    }
    var i := 0;
    while running
      invariant 0 <= i <= stop
      invariant running <==> i < stop
      invariant trace == [Started] + Iterations(i)
      invariant ctx.frame.index == i && ctx.session.startTime == clock(0)
      invariant i > 0 ==> ctx.session.passed == clock(i) - clock(0)
      invariant ctx.session.passedUs == 0
      decreases stop - i
    {
      ctx := TickAsWritten(ctx, clock(i + 1));
      TraceStep(trace, i);
      trace := trace + [TickAt(i), Update(i)];
      if h.finishInUpdate[i] {
        running := Finish(running, FinishData(0));
      }
      UpdateAnswer(h, i);
      running := h.updateResults[i];
      i := i + 1;
    }
    trace := trace + [Stopping];
    running := false;
  }

  /** One more frame extends the trace by its Tick and Update. */
  lemma TraceStep(trace: seq<Event>, i: nat)
    requires trace == [Started] + Iterations(i)
    ensures trace + [TickAt(i), Update(i)] == [Started] + Iterations(i + 1)
  {
    assert [Started] + Iterations(i) + [TickAt(i), Update(i)] == [Started] + (Iterations(i) + [TickAt(i), Update(i)]);
  }

  /** `Update` of frame `i` answers true exactly when a later frame is still due. */
  lemma UpdateAnswer(h: Handler, i: nat)
    requires Terminates(h) && i < Frames(h)
    ensures i < |h.updateResults|
    ensures h.updateResults[i] <==> i + 1 < Frames(h)
  {
  }

  /**
   * `FuncHandler`: `Started` answers true, each `Update` answers what the
   * wrapped action answers for that frame, `Stopping` does nothing, and the
   * handler never calls `Finish`.
   */
  function FuncHandler(answers: seq<bool>): (h: Handler)
    ensures h.startedResult && !h.finishInStarted && h.updateResults == answers
    ensures |h.finishInUpdate| == |answers|
    ensures forall i :: 0 <= i < |answers| ==> !h.finishInUpdate[i]
  {
    Handler(true, false, answers, seq(|answers|, _ => false))
  }

  /**
   * A loop over a `FuncHandler` runs one frame per answer up to and including
   * the first false one, then stops.
   */
  method RunFuncHandler(answers: seq<bool>, clock: nat -> int) returns (trace: seq<Event>, frames: nat)
    requires exists i :: 0 <= i < |answers| && !answers[i]
    ensures 1 <= frames <= |answers| && !answers[frames - 1]
    ensures forall i :: 0 <= i < frames - 1 ==> answers[i]
    ensures trace == [Started] + Iterations(frames) + [Stopping]
  {
    var ctx, running;
    trace, ctx, running := Start(FuncHandler(answers), clock);
    frames := ctx.frame.index;
  }

  /** `Finish` calls made inside `Update` never change what the loop does. */
  method FinishInsideUpdateIsOverwritten(h: Handler, clock: nat -> int) returns (same: bool)
    requires Terminates(h)
    ensures same
  {
    var t1, c1, r1 := Start(h, clock);
    var quiet := h.(finishInUpdate := seq(|h.updateResults|, _ => false));
    var t2, c2, r2 := Start(quiet, clock);
    same := t1 == t2 && c1.frame.index == c2.frame.index && r1 == r2;
  }
}

=== FILE: runners.dfy ===
/**
 * `stub_integration_test.py`: like the stub-server runner, but on port
 * 19090, with a five-second readiness loop that never checks the process,
 * and a shutdown that signals the server without first checking whether it
 * is still running.
 */
module StubIntegration {
  import opened Core
  import opened Harness

  const ServerBase: string := "http://localhost:19090"
  const Readiness: WaitConfig := WaitConfig(5000, 100, false)

  function ServerCommand(server: string): (cmd: seq<string>)
    ensures cmd == [server, "--port", "19090"]
  {
    [server, "--port", "19090"]
  }

  function ClientCommand(client: string): (cmd: seq<string>)
    ensures cmd == [client, "--url", ServerBase]
  {
    [client, "--url", ServerBase]
  }

  /** The client is pointed at the port the server is told to listen on. */
  lemma ClientUsesServerPort(server: string, client: string)
    ensures ServerCommand(server)[0] == server && ServerCommand(server)[1] == "--port"
    ensures ClientCommand(client)[0] == client && ClientCommand(client)[1] == "--url"
    ensures ClientCommand(client)[2] == "http://localhost:" + ServerCommand(server)[2]
  {
  }

  /** The `finally` block: signal any started server, give it three seconds, then kill it. */
  function Shutdown(server: Option<ServerFate>, win32: bool): (actions: seq<Action>)
    ensures server.None? <==> actions == []
    ensures server.Some? ==> actions == SignalThenKill(StopSignal(win32), server.value)
  {
    match server
    case None => []
    case Some(fate) => SignalThenKill(StopSignal(win32), fate)
  }

  /** Unlike `_shutdown_process`, the signal goes out even to a server that has already exited. */
  lemma SignalsEvenAfterExit(win32: bool)
    ensures Shutdown(Some(ServerFate(true, true)), win32)[0] == Send(StopSignal(win32))
    ensures ShutdownProcess(Some(ServerFate(true, true)), win32) == [Poll]
  {
  }

  datatype Env = Env(
    existing: set<string>,
    spawnRaises: bool,
    start: int, probes: seq<Probe>,
    clientRaises: bool, clientCode: int,
    fate: ServerFate, win32: bool)

  function Main(argv: seq<string>, env: Env): (r: (Exit, seq<Action>))
    requires Covers(Readiness, env.start, env.probes)
    ensures |argv| < 3 ==> r == (Returned(1), [])
    ensures |argv| >= 3 && (argv[1] !in env.existing || argv[2] !in env.existing) ==> r == (Returned(1), [])
    ensures Caught(r.0)
    ensures Poll !in r.1
  {
    if |argv| < 3 then (Returned(1), [])
    else
      var client := argv[1];
      var server := argv[2];
      if client !in env.existing || server !in env.existing then (Returned(1), [])
      else if env.spawnRaises then (Returned(1), Shutdown(None, env.win32))
      else
        var started := [Spawn(ServerCommand(server))];
        var stop := Shutdown(Some(env.fate), env.win32);
        var w := Wait(Readiness, ServerBase + "/get", env.start, env.probes);
        if w.result != Ready then (Returned(1), started + w.actions + stop)
        else if env.clientRaises then (Returned(1), started + w.actions + stop)
        else (Returned(env.clientCode), started + w.actions + [Run(ClientCommand(client))] + stop)
  }

  /**
   * Only an answer or the deadline ends the wait: a server that dies at
   * once still costs the full five seconds of retries.
   */
  lemma DeadServerWaitsOut(env: Env)
    requires Covers(Readiness, env.start, env.probes)
    requires forall j :: 0 <= j < |env.probes| ==> env.probes[j].answer == Refused
    ensures Wait(Readiness, ServerBase + "/get", env.start, env.probes).result == NotReady
    ensures PastDeadline(Readiness, env.start, env.probes[Wait(Readiness, ServerBase + "/get", env.start, env.probes).used])
  {
  }

  /** A ready server runs the client against it, and the client's code is the verdict. */
  lemma ClientCodeIsVerdict(script: string, client: string, server: string, env: Env)
    requires Covers(Readiness, env.start, env.probes)
    requires client in env.existing && server in env.existing && !env.spawnRaises && !env.clientRaises
    requires Wait(Readiness, ServerBase + "/get", env.start, env.probes).result == Ready
    ensures Main([script, client, server], env).0 == Returned(env.clientCode)
    ensures Run(ClientCommand(client)) in Main([script, client, server], env).1
  {
  }
}

/**
 * `http_test_runner.py`: the server on port 9090, a five-second readiness
 * loop, then the test binary with no arguments. It has no `except`, so an
 * exception escapes `main` once the server has been stopped.
 */
module HttpTestRunner {
  import opened Core
  import opened Harness

  const ServerBase: string := "http://localhost:9090"
  const Readiness: WaitConfig := WaitConfig(5000, 100, false)

  function ServerCommand(server: string): (cmd: seq<string>)
    ensures cmd == [server, "--port", "9090"]
  {
    [server, "--port", "9090"]
  }

  /** The readiness loop probes the port the server is told to listen on. */
  lemma ReadinessUsesServerPort(server: string)
    ensures ServerCommand(server)[0] == server && ServerCommand(server)[1] == "--port"
    ensures ServerBase == "http://localhost:" + ServerCommand(server)[2]
  {
  }

  /**
   * What the `finally` block does: its actions, and whether it raises. On
   * Windows `send_signal` accepts only SIGTERM and the two console events, and
   * the server's return code has not been polled, so SIGINT raises
   * `ValueError` before any wait or kill.
   */
  datatype Stop = Stop(actions: seq<Action>, raises: bool)

  /** The `finally` block: SIGINT, three seconds, then a kill; on Windows, the `ValueError`. */
  function Shutdown(server: Option<ServerFate>, win32: bool): (r: Stop)
    ensures server.None? ==> r == Stop([], false)
    ensures server.Some? && win32 ==> r == Stop([], true)
    ensures server.Some? && !win32 ==> r == Stop(SignalThenKill(Interrupt, server.value), false)
    ensures r.raises <==> server.Some? && win32
    ensures Send(Terminate) !in r.actions
  {
    match server
    case None => Stop([], false)
    case Some(fate) => if win32 then Stop([], true) else Stop(SignalThenKill(Interrupt, fate), false)
  }

  datatype Env = Env(
    existing: set<string>,
    spawnRaises: bool,
    start: int, probes: seq<Probe>,
    testRaises: bool, testCode: int,
    fate: ServerFate, win32: bool)

  /**
   * `main`: an exception raised by the `finally` block replaces whatever the
   * `try` block returned or raised.
   */
  function Main(argv: seq<string>, env: Env): (r: (Exit, seq<Action>))
    requires Covers(Readiness, env.start, env.probes)
    ensures |argv| < 3 ==> r == (Returned(1), [])
    ensures |argv| >= 3 && (argv[1] !in env.existing || argv[2] !in env.existing) ==> r == (Returned(1), [])
    ensures Send(Terminate) !in r.1
    ensures env.win32 && |argv| >= 3 && argv[1] in env.existing && argv[2] in env.existing && !env.spawnRaises
            ==> r.0 == Raised && Send(Interrupt) !in r.1
  {
    if |argv| < 3 then (Returned(1), [])
    else
      var test := argv[1];
      var server := argv[2];
      if test !in env.existing || server !in env.existing then (Returned(1), [])
      else if env.spawnRaises then (Raised, Shutdown(None, env.win32).actions)
      else
        var started := [Spawn(ServerCommand(server))];
        var stop := Shutdown(Some(env.fate), env.win32);
        var w := Wait(Readiness, ServerBase + "/get", env.start, env.probes);
        var (exit, body) :=
          if w.result == Threw then (Raised, started + w.actions)
          else if w.result == NotReady then (Returned(1), started + w.actions)
          else if env.testRaises then (Raised, started + w.actions)
          else (Returned(env.testCode), started + w.actions + [Run([test])]);
        (if stop.raises then Raised else exit, body + stop.actions)
  }

  /** On POSIX the test binary's exit code is returned as it is. */
  lemma TestCodeIsVerdict(script: string, test: string, server: string, env: Env)
    requires Covers(Readiness, env.start, env.probes) && !env.win32
    requires test in env.existing && server in env.existing && !env.spawnRaises && !env.testRaises
    requires Wait(Readiness, ServerBase + "/get", env.start, env.probes).result == Ready
    ensures Main([script, test, server], env).0 == Returned(env.testCode)
    ensures Run([test]) in Main([script, test, server], env).1
  {
  }

  /** An exception is not turned into 1: it escapes after the server has been stopped. */
  lemma ExceptionsEscapeAfterShutdown(script: string, test: string, server: string, env: Env)
    requires Covers(Readiness, env.start, env.probes)
    requires test in env.existing && server in env.existing && !env.spawnRaises
    requires Wait(Readiness, ServerBase + "/get", env.start, env.probes).result == Ready && env.testRaises
    ensures Main([script, test, server], env).0 == Raised
    ensures var trace := Main([script, test, server], env).1; var stop := Shutdown(Some(env.fate), env.win32).actions;
      |stop| <= |trace| && trace[|trace| - |stop|..] == stop
  {
  }
}

/**
 * `http_integration_test.py`: no server process is kept; the server binary
 * and then the client binary are each run to completion, and either one
 * failing fails the run with 1.
 */
module HttpIntegration {
  import opened Core
  import opened Harness

  /** `run_binary`: the binary followed by its arguments, in order. */
  function RunCommand(binary: string, args: seq<string>): (cmd: seq<string>)
    ensures |cmd| == 1 + |args| && cmd[0] == binary && cmd[1..] == args
  {
    [binary] + args
  }

  const ServerArgs: seq<string> := ["--port", "9090"]
  const ClientArgs: seq<string> := ["--url", "http://localhost:9090"]

  /**
   * A command line names its binary and arguments unambiguously, and the
   * client is pointed at the port the server run is given.
   */
  lemma RunCommandsAgree(server: string, client: string, b: string, a: seq<string>)
    ensures RunCommand(server, ServerArgs) == RunCommand(b, a) ==> server == b && ServerArgs == a
    ensures RunCommand(server, ServerArgs)[1] == "--port" && RunCommand(client, ClientArgs)[1] == "--url"
    ensures RunCommand(client, ClientArgs)[2] == "http://localhost:" + RunCommand(server, ServerArgs)[2]
  {
  }

  /** The exit codes of the two runs; `None` when starting the binary raised. */
  datatype Env = Env(existing: set<string>, serverCode: Option<int>, clientCode: Option<int>)

  function Main(argv: seq<string>, env: Env): (r: (Exit, seq<Action>))
    ensures |argv| < 3 ==> r == (Returned(1), [])
    ensures |argv| >= 3 && (argv[1] !in env.existing || argv[2] !in env.existing) ==> r == (Returned(1), [])
    ensures r.0 == Raised || r.0 == Returned(0) || r.0 == Returned(1)
    ensures r.0 == Returned(0) <==> (|argv| >= 3 && argv[1] in env.existing && argv[2] in env.existing
                                     && env.serverCode == Some(0) && env.clientCode == Some(0))
  {
    if |argv| < 3 then (Returned(1), [])
    else
      var client := argv[1];
      var server := argv[2];
      if client !in env.existing || server !in env.existing then (Returned(1), [])
      else
        var serverRun := [Run(RunCommand(server, ServerArgs))];
        match env.serverCode
        case None => (Raised, [])
        case Some(sc) =>
          if sc != 0 then (Returned(1), serverRun)
          else
            var clientRun := serverRun + [Run(RunCommand(client, ClientArgs))];
            match env.clientCode
            case None => (Raised, serverRun)
            case Some(cc) => if cc != 0 then (Returned(1), clientRun) else (Returned(0), clientRun)
  }

  /** A failing server run stops the test before the client is run. */
  lemma ServerFailureSkipsClient(script: string, client: string, server: string, env: Env)
    requires client in env.existing && server in env.existing
    requires env.serverCode.Some? && env.serverCode.value != 0
    ensures Main([script, client, server], env).0 == Returned(1)
    ensures Main([script, client, server], env).1 == [Run([server, "--port", "9090"])]
  {
    assert RunCommand(server, ServerArgs) == [server, "--port", "9090"];
  }

  /** A failing client run is reported as 1, whatever its own exit code. */
  lemma ClientCodeCollapses(script: string, client: string, server: string, code: int, env: Env)
    requires client in env.existing && server in env.existing && code != 0
    requires env.serverCode == Some(0) && env.clientCode == Some(code)
    ensures Main([script, client, server], env).0 == Returned(1)
    ensures Main([script, client, server], env).1[1] == Run([client, "--url", "http://localhost:9090"])
  {
  }
}

=== FILE: stub_server.dfy ===
/**
 * The two Python stub servers (`stub_server.py` and `http_server.py`).
 * Their request handlers are the same: a route table over (method, path),
 * answering JSON. JSON decoding is an oracle; serialisation and the HTTP
 * framing of `http.server` are not modelled.
 */
module StubServer {
  import opened Core
  import opened Harness

  /** The JSON values `json.loads` produces. */
  datatype Json =
    | JNull
    | JBool(b: bool)
    | JNum(n: int)
    | JStr(s: string)
    | JArr(items: seq<Json>)
    | JObj(members: seq<(string, Json)>)

  datatype Method = Get | Post

  /**
   * A request as the handler sees it: the raw request target (query string
   * included), the `Content-Length` header if present, and the bytes
   * waiting on the connection, already decoded as UTF-8.
   */
  datatype Request = Request(verb: Method, path: string, contentLength: Option<nat>, stream: string)

  /** A reply: the status and, for 200, the JSON document sent as `application/json`. */
  datatype Reply = Reply(status: nat, json: Option<Json>)

  const NotFound: Reply := Reply(404, None)

  /** `rfile.read(int(Content-Length or 0))`: at most that many characters from the connection. */
  function ReadBody(r: Request): (body: string)
    ensures r.contentLength.None? ==> body == ""
    ensures r.contentLength.Some? ==> |body| <= r.contentLength.value && |body| <= |r.stream| && body == r.stream[..|body|]
    ensures r.contentLength.Some? && r.contentLength.value <= |r.stream| ==> |body| == r.contentLength.value
  {
    var n := r.contentLength.GetOr(0);
    if n <= |r.stream| then r.stream[..n] else r.stream
  }

  /**
   * What is echoed back as `received_data`: `{}` for an empty body, the
   * decoded JSON, or `{"raw": body}` when decoding fails.
   */
  function Received(body: string, loads: string -> Option<Json>): (j: Json)
    ensures body == "" ==> j == JObj([])
    ensures body != "" && loads(body).Some? ==> j == loads(body).value
    ensures body != "" && loads(body).None? ==> j == JObj([("raw", JStr(body))])
  {
    if body == "" then JObj([])
    else match loads(body)
      case Some(v) => v
      case None => JObj([("raw", JStr(body))])
  }

  /**
   * The echo can be read back: an undecodable body is recovered from its
   * "raw" member, and `{}` is echoed only for an empty body or a body that
   * decodes to `{}`.
   */
  lemma ReceivedReadsBack(body: string, loads: string -> Option<Json>)
    ensures body != "" && loads(body).None? ==> Member(Received(body, loads), "raw") == Some(JStr(body))
    ensures Received(body, loads) == JObj([]) <==> body == "" || loads(body) == Some(JObj([]))
  {
    if body != "" && loads(body).None? {
      MemberAt([("raw", JStr(body))], 0, "raw");
    }
  }

  function GetReply(path: string): (j: Json) {
    JObj([("method", JStr("GET")), ("path", JStr(path)), ("message", JStr("GET request successful"))])
  }

  function PostReply(path: string, received: Json): (j: Json) {
    JObj([("method", JStr("POST")), ("path", JStr(path)), ("message", JStr("POST request successful")),
          ("received_data", received)])
  }

  /** The value of a JSON object's member, if it has one. */
  function Member(j: Json, key: string): (v: Option<Json>)
    decreases if j.JObj? then |j.members| else 0
  {
    if !j.JObj? || |j.members| == 0 then None
    else if j.members[0].0 == key then Some(j.members[0].1)
    else Member(JObj(j.members[1..]), key)
  }

  /** The first member with the key is the one found. */
  lemma {:induction false} MemberAt(members: seq<(string, Json)>, k: nat, key: string)
    requires k < |members| && members[k].0 == key
    requires forall i :: 0 <= i < k ==> members[i].0 != key
    ensures Member(JObj(members), key) == Some(members[k].1)
    decreases k
  {
    if k > 0 {
      MemberAt(members[1..], k - 1, key);
    }
  }

  /**
   * `do_GET` / `do_POST`: `GET /get` and `POST /post` answer 200 with JSON;
   * any other target, a query string included, is 404.
   */
  function Handle(r: Request, loads: string -> Option<Json>): (reply: Reply)
    ensures reply.status == 200 <==> (r.verb == Get && r.path == "/get") || (r.verb == Post && r.path == "/post")
    ensures reply.status != 200 ==> reply == NotFound
    ensures reply.status == 200 ==> reply.json.Some?
    ensures reply.status == 200 && r.verb == Get ==> reply.json == Some(GetReply(r.path))
    ensures reply.status == 200 && r.verb == Post ==> reply.json == Some(PostReply(r.path, Received(ReadBody(r), loads)))
  {
    match r.verb
    case Get => if r.path == "/get" then Reply(200, Some(GetReply(r.path))) else NotFound
    case Post => if r.path == "/post" then Reply(200, Some(PostReply(r.path, Received(ReadBody(r), loads)))) else NotFound
  }

  /** `GET /get` names its method and path, the fields the client test checks. */
  lemma GetAnswersMethodAndPath(loads: string -> Option<Json>)
    ensures var reply := Handle(Request(Get, "/get", None, ""), loads);
      reply.status == 200 && Member(reply.json.value, "method") == Some(JStr("GET"))
      && Member(reply.json.value, "path") == Some(JStr("/get"))
  {
  }

  /** Any other path is 404, even "/get" with a query string and even "/post" by GET. */
  lemma OtherTargetsNotFound(loads: string -> Option<Json>, query: string, cl: Option<nat>, stream: string)
    ensures Handle(Request(Get, "/get?" + query, cl, stream), loads) == NotFound
    ensures Handle(Request(Get, "/post", cl, stream), loads) == NotFound
    ensures Handle(Request(Post, "/get", cl, stream), loads) == NotFound
    ensures Handle(Request(Get, "/unknown", cl, stream), loads) == NotFound
  {
    assert ("/get?" + query)[4] == '?';
  }

  /**
   * A POST whose body decodes to a document gets that document back as
   * `received_data`, as long as the header covers the whole body.
   */
  lemma PostEchoesDocument(text: string, doc: Json, loads: string -> Option<Json>)
    requires text != "" && loads(text) == Some(doc)
    ensures var reply := Handle(Request(Post, "/post", Some(|text|), text), loads);
      reply.status == 200 && Member(reply.json.value, "received_data") == Some(doc)
      && Member(reply.json.value, "method") == Some(JStr("POST"))
  {
    assert ReadBody(Request(Post, "/post", Some(|text|), text)) == text;
    MemberAt(PostReply("/post", doc).members, 3, "received_data");
    MemberAt(PostReply("/post", doc).members, 0, "method");
  }

  /** Without a `Content-Length` nothing is read, so even a waiting body is echoed as `{}`. */
  lemma MissingLengthReadsNothing(stream: string, loads: string -> Option<Json>)
    ensures Member(Handle(Request(Post, "/post", None, stream), loads).json.value, "received_data") == Some(JObj([]))
  {
  }

  /** How serving ends: Ctrl-C (SIGINT), or another exception out of `serve_forever`. */
  datatype ServeEnd = Interrupted | Crashed

  /**
   * `stub_server.py`'s `main`: a failure to bind, or a crash while serving,
   * is caught and gives 1; an interrupt gives 0. The socket is closed
   * whenever serving started.
   */
  function StubMain(bindOk: bool, end: ServeEnd): (r: (Exit, bool))
    ensures r.0 == Returned(0) <==> bindOk && end == Interrupted
    ensures r.0 == Returned(0) || r.0 == Returned(1)
    ensures r.1 <==> bindOk
  {
    if !bindOk then (Returned(1), false)
    else match end
      case Interrupted => (Returned(0), true)
      case Crashed => (Returned(1), true)
  }

  /**
   * `http_server.py`'s `main`: binding happens outside any `try`, so its
   * failure escapes; an interrupt gives 0 after closing; a crash escapes
   * after closing.
   */
  function HttpMain(bindOk: bool, end: ServeEnd): (r: (Exit, bool))
    ensures r.0 == Returned(0) <==> bindOk && end == Interrupted
    ensures r.0 != Returned(0) ==> r.0 == Raised
    ensures r.1 <==> bindOk
  {
    if !bindOk then (Raised, false)
    else match end
      case Interrupted => (Returned(0), true)
      case Crashed => (Raised, true)
  }

  /** The two servers agree on a clean stop and differ only in whether errors are caught. */
  lemma MainsAgreeOnInterrupt(bindOk: bool, end: ServeEnd)
    ensures StubMain(bindOk, end).1 == HttpMain(bindOk, end).1
    ensures (StubMain(bindOk, end).0 == Returned(0)) == (HttpMain(bindOk, end).0 == Returned(0))
    ensures HttpMain(bindOk, end).0 == Raised <==> StubMain(bindOk, end).0 == Returned(1)
  {
  }
}

=== FILE: text.dfy ===
/**
 * The string primitives the C++ code leans on, stated once: `find`,
 * `find_last_of`, the decimal digits of an integer, `std::from_chars` and
 * `std::stoi` for base 10.
 */
module Text {
  import opened Core

  /** `pat` occurs in `s` starting at position `i`. */
  predicate IsAt(s: string, pat: string, i: int) {
    0 <= i && i + |pat| <= |s| && s[i..i + |pat|] == pat
  }

  /** `s.find(pat, from)`: the first occurrence of `pat` at or after `from`, or npos. */
  function Find(s: string, pat: string, from: nat): (r: Option<nat>)
    ensures r.Some? ==> from <= r.value && IsAt(s, pat, r.value)
    ensures r.Some? ==> forall j :: from <= j < r.value ==> !IsAt(s, pat, j)
    ensures r.None? ==> forall j :: from <= j ==> !IsAt(s, pat, j)
    decreases |s| - from
  {
    if from + |pat| > |s| then None
    else if s[from..from + |pat|] == pat then Some(from)
    else Find(s, pat, from + 1)
  }

  /** `s.find_last_of(cs)`: the last position holding a character of `cs`, or npos. */
  function FindLastOf(s: string, cs: set<char>): (r: Option<nat>)
    ensures r.Some? ==> r.value < |s| && s[r.value] in cs
    ensures r.Some? ==> forall j :: r.value < j < |s| ==> s[j] !in cs
    ensures r.None? ==> forall j :: 0 <= j < |s| ==> s[j] !in cs
  {
    if |s| == 0 then None
    else if s[|s| - 1] in cs then Some(|s| - 1)
    else
      var r := FindLastOf(s[..|s| - 1], cs);
      assert forall j :: 0 <= j < |s| - 1 ==> s[..|s| - 1][j] == s[j];
      r
  }

  /** A first occurrence at or after `from` is what `Find` returns. */
  lemma FindIsFirst(s: string, pat: string, from: nat, k: nat)
    requires from <= k && IsAt(s, pat, k)
    requires forall j :: from <= j < k ==> !IsAt(s, pat, j)
    ensures Find(s, pat, from) == Some(k)
  {
  }

  /** A last position holding a character of `cs` is what `FindLastOf` returns. */
  lemma FindLastOfIsLast(s: string, cs: set<char>, k: nat)
    requires k < |s| && s[k] in cs
    requires forall j :: k < j < |s| ==> s[j] !in cs
    ensures FindLastOf(s, cs) == Some(k)
  {
  }

  /** `p` is the first `|p|` elements of `s`. */
  predicate IsPrefix<T(==)>(p: seq<T>, s: seq<T>) {
    |p| <= |s| && s[..|p|] == p
  }

  /** No character of `cs` occurs in `s`. */
  predicate NoneOf(s: string, cs: set<char>) {
    forall i :: 0 <= i < |s| ==> s[i] !in cs
  }

  predicate IsDigit(c: char) {
    '0' <= c <= '9'
  }

  predicate AllDigits(s: string) {
    forall i :: 0 <= i < |s| ==> IsDigit(s[i])
  }

  /** C's `isspace` in the "C" locale: space, \t, \n, \v, \f, \r. */
  predicate IsSpace(c: char) {
    c == ' ' || '\t' <= c <= '\r'
  }

  function DigitValue(c: char): (d: nat)
    requires IsDigit(c)
    ensures d < 10
  {
    (c as int) - ('0' as int)
  }

  function DigitChar(d: nat): (c: char)
    requires d < 10
    ensures IsDigit(c) && DigitValue(c) == d
  {
    ('0' as int + d) as char
  }

  /** The value of a run of decimal digits, most significant first. */
  function DigitsValue(ds: string): nat
    requires AllDigits(ds)
    decreases |ds|
  {
    if |ds| == 0 then 0 else DigitsValue(ds[..|ds| - 1]) * 10 + DigitValue(ds[|ds| - 1])
  }

  /** Decimal text of a natural number, with no leading zeros. */
  function NatToDecimal(n: nat): (r: string)
    ensures |r| > 0 && AllDigits(r)
    ensures |r| > 1 ==> r[0] != '0'
  {
    if n < 10 then [DigitChar(n)] else NatToDecimal(n / 10) + [DigitChar(n % 10)]
  }

  /** Decimal text of an integer: `std::to_string`, `std::format("{}")`, Python's `str`. */
  function IntToDecimal(n: int): (r: string)
    ensures |r| > 0
    ensures n >= 0 <==> r[0] != '-'
  {
    if n < 0 then "-" + NatToDecimal(-n) else NatToDecimal(n)
  }

  lemma {:induction false} NatDecimalRoundTrip(n: nat)
    ensures DigitsValue(NatToDecimal(n)) == n
  {
    if n >= 10 {
      NatDecimalRoundTrip(n / 10);
      var s := NatToDecimal(n);
      assert s[..|s| - 1] == NatToDecimal(n / 10);
    }
  }

  /** The length of the longest run of digits starting at `i`. */
  function DigitRun(s: string, i: nat): (n: nat)
    requires i <= |s|
    ensures i + n <= |s|
    ensures AllDigits(s[i..i + n])
    ensures i + n == |s| || !IsDigit(s[i + n])
    decreases |s| - i
  {
    if i < |s| && IsDigit(s[i]) then
      var n := DigitRun(s, i + 1);
      assert s[i..i + 1 + n] == [s[i]] + s[i + 1..i + 1 + n];
      1 + n
    else 0
  }

  /** Where `std::from_chars` expects the first digit: after an optional '-'. */
  function FromCharsDigitsStart(s: string): nat {
    if |s| > 0 && s[0] == '-' then 1 else 0
  }

  /** The mathematical value `std::from_chars` reads from the front of `s`. */
  function FromCharsValue(s: string): int
  {
    var start := FromCharsDigitsStart(s);
    var n := DigitRun(s, start);
    var magnitude: int := DigitsValue(s[start..start + n]);
    if start == 1 then -magnitude else magnitude
  }

  /**
   * `std::from_chars(first, last, int&)` in base 10: an optional '-', then the
   * longest run of digits; anything after the run is left unread.
   */
  function FromChars(s: string): (r: Result<int>)
    ensures r == Err(InvalidArgument) <==> DigitRun(s, FromCharsDigitsStart(s)) == 0
    ensures r == Err(ResultOutOfRange) <==>
              DigitRun(s, FromCharsDigitsStart(s)) > 0 && !InIntRange(FromCharsValue(s))
    ensures r.Ok? ==> r.value == FromCharsValue(s) && InIntRange(r.value)
  {
    if DigitRun(s, FromCharsDigitsStart(s)) == 0 then Err(InvalidArgument)
    else if InIntRange(FromCharsValue(s)) then Ok(FromCharsValue(s))
    else Err(ResultOutOfRange)
  }

  lemma DigitRunOfDigits(s: string, t: string)
    requires AllDigits(s)
    requires |t| == 0 || !IsDigit(t[0])
    ensures DigitRun(s + t, 0) == |s|
    ensures (s + t)[0..|s|] == s
  {
    var n := DigitRun(s + t, 0);
    assert forall i :: 0 <= i < |s| ==> (s + t)[i] == s[i];
    assert |t| > 0 ==> (s + t)[|s|] == t[0];
  }

  /** The decimal text of every C++ `int` reads back as that `int`. */
  lemma FromCharsRoundTrip(n: int)
    requires InIntRange(n)
    ensures FromChars(IntToDecimal(n)) == Ok(n)
  {
    var m := if n < 0 then -n else n;
    var ds := NatToDecimal(m);
    NatDecimalRoundTrip(m);
    var s := IntToDecimal(n);
    var start := FromCharsDigitsStart(s);
    if n < 0 {
      assert s == "-" + ds && start == 1;
      assert s[1..] == ds;
    } else {
      assert s == ds && start == 0;
    }
    DigitsAfter(s, start, ds);
    assert FromCharsValue(s) == n;
  }

  /** A text ending in a run of digits from `start` reads that whole run. */
  lemma DigitsAfter(s: string, start: nat, ds: string)
    requires start <= |s| && s[start..] == ds && AllDigits(ds)
    ensures DigitRun(s, start) == |ds| && s[start..start + |ds|] == ds
  {
    DigitRunShift(s, start);
    DigitRunOfDigits(ds, []);
    assert ds + [] == ds;
  }

  /** The digit run of a suffix is the digit run at the matching offset. */
  lemma {:induction false} DigitRunShift(s: string, k: nat)
    requires k <= |s|
    ensures DigitRun(s, k) == DigitRun(s[k..], 0)
    decreases |s| - k
  {
    DigitRunShiftFrom(s, k, 0);
  }

  lemma {:induction false} DigitRunShiftFrom(s: string, k: nat, i: nat)
    requires k + i <= |s|
    ensures DigitRun(s, k + i) == DigitRun(s[k..], i)
    decreases |s| - k - i
  {
    if k + i < |s| {
      assert s[k..][i] == s[k + i];
      DigitRunShiftFrom(s, k, i + 1);
    }
  }

  /** `std::from_chars` stops at the first non-digit: trailing text is ignored. */
  lemma FromCharsIgnoresTail(s: string, t: string)
    requires |s| > 0 && AllDigits(s)
    requires |t| == 0 || !IsDigit(t[0])
    ensures FromChars(s + t) == FromChars(s)
  {
    DigitRunOfDigits(s, t);
    DigitRunOfDigits(s, []);
    assert s + [] == s;
    assert (s + t)[0] == s[0];
  }

  /** A leading zero does not change the value of a digit run. */
  lemma {:induction false} DigitsValueLeadingZero(ds: string)
    requires AllDigits(ds)
    ensures AllDigits("0" + ds) && DigitsValue("0" + ds) == DigitsValue(ds)
    decreases |ds|
  {
    var z := "0" + ds;
    if |ds| > 0 {
      assert z[..|z| - 1] == "0" + ds[..|ds| - 1];
      DigitsValueLeadingZero(ds[..|ds| - 1]);
    } else {
      assert z == "0";
    }
  }

  /** One or two digits for every number below 100. */
  lemma NatToDecimalShort(n: nat)
    requires n < 100
    ensures |NatToDecimal(n)| == if n < 10 then 1 else 2
  {
    if n >= 10 {
      assert NatToDecimal(n) == NatToDecimal(n / 10) + [DigitChar(n % 10)];
    }
  }

  // --------------------------------------------------------------- substr

  /** The modulus of `size_t` arithmetic on the 64-bit targets, and `npos`. */
  const SizeModulus: nat := 0x1_0000_0000_0000_0000
  const Npos: nat := SizeModulus - 1

  /** A `size_t` result of adding or subtracting two sizes: wraps modulo 2^64. */
  function SizeWrap(n: int): (r: nat)
    requires -(SizeModulus as int) <= n <= SizeModulus
    ensures r < SizeModulus
    ensures 0 <= n < SizeModulus ==> r == n
    ensures n == SizeModulus ==> r == 0
    ensures n < 0 ==> r == n + SizeModulus
  {
    if n < 0 then n + SizeModulus else if n == SizeModulus then 0 else n
  }

  /**
   * `string_view::substr(pos, count)`: at most `count` characters from `pos`;
   * a `pos` past the end throws `std::out_of_range`.
   */
  function SubStr(s: string, pos: nat, count: nat): (r: Result<string>)
    ensures r.Err? <==> pos > |s|
    ensures r.Err? ==> r.error == ResultOutOfRange
    ensures r.Ok? ==> IsAt(s, r.value, pos) && |r.value| <= count
    ensures r.Ok? ==> |r.value| == count || pos + |r.value| == |s|
  {
    if pos > |s| then Err(ResultOutOfRange)
    else if count < |s| - pos then Ok(s[pos..pos + count])
    else Ok(s[pos..])
  }

  // ---------------------------------------------------------------- stoi

  /** The first position of `s` at or after `i` that is not white space. */
  function SkipSpace(s: string, i: nat): (j: nat)
    requires i <= |s|
    ensures i <= j <= |s|
    ensures forall k :: i <= k < j ==> IsSpace(s[k])
    ensures j == |s| || !IsSpace(s[j])
    decreases |s| - i
  {
    if i < |s| && IsSpace(s[i]) then SkipSpace(s, i + 1) else i
  }

  /** Where `std::stoi` expects the first digit: after white space and an optional sign. */
  function StoiDigitsStart(s: string): nat
    ensures StoiDigitsStart(s) <= |s|
  {
    var j := SkipSpace(s, 0);
    if j < |s| && (s[j] == '+' || s[j] == '-') then j + 1 else j
  }

  function StoiValue(s: string): int {
    var j := SkipSpace(s, 0);
    var start := StoiDigitsStart(s);
    var magnitude: int := DigitsValue(s[start..start + DigitRun(s, start)]);
    if j < |s| && s[j] == '-' then -magnitude else magnitude
  }

  /** `std::stoi(s)` returns instead of throwing `invalid_argument` or `out_of_range`. */
  predicate StoiDefined(s: string) {
    DigitRun(s, StoiDigitsStart(s)) > 0 && InIntRange(StoiValue(s))
  }

  /** `std::stoi(s)` in base 10, on the inputs where it does not throw. */
  function Stoi(s: string): (r: int)
    requires StoiDefined(s)
    ensures InIntRange(r)
  {
    StoiValue(s)
  }

  /** The decimal text of every non-negative `int` is read back by `std::stoi`. */
  lemma StoiRoundTrip(n: nat)
    requires n <= IntMax
    ensures StoiDefined(NatToDecimal(n)) && Stoi(NatToDecimal(n)) == n
  {
    var ds := NatToDecimal(n);
    NatDecimalRoundTrip(n);
    assert !IsSpace(ds[0]);
    assert SkipSpace(ds, 0) == 0;
    assert StoiDigitsStart(ds) == 0;
    DigitRunOfDigits(ds, []);
    assert ds + [] == ds;
  }

  /**
   * How `std::stoi` reads a text made of white space, an optional sign, a
   * digit run and a tail that does not start with a digit: the digits start
   * after the white space and the sign, the run is read whole, and only a
   * '-' negates it.
   */
  lemma {:induction false} StoiOfParts(s: string, ws: string, sign: string, ds: string, tail: string)
    requires s == ws + sign + ds + tail
    requires forall k :: 0 <= k < |ws| ==> IsSpace(ws[k])
    requires sign == "" || sign == "+" || sign == "-"
    requires |ds| > 0 && AllDigits(ds)
    requires |tail| == 0 || !IsDigit(tail[0])
    ensures StoiDigitsStart(s) == |ws| + |sign|
    ensures DigitRun(s, StoiDigitsStart(s)) == |ds|
    ensures StoiValue(s) == if sign == "-" then -(DigitsValue(ds) as int) else DigitsValue(ds)
  {
    var start := |ws| + |sign|;
    var rest := sign + ds + tail;
    SignedParts(s, ws, sign, ds, tail, rest);
    SkipSpaceOver(s, ws, rest);
    DigitsBefore(s, start, ds, tail);
    StoiAt(s, |ws|, start, |ds|);
  }

  /**
   * `std::stoi` in positions: white space up to `j`, a sign at `j` exactly
   * when the digits start one later, and `n > 0` digits from `start`.
   */
  lemma {:induction false} StoiAt(s: string, j: nat, start: nat, n: nat)
    requires j < |s| && SkipSpace(s, 0) == j
    requires start == (if s[j] == '+' || s[j] == '-' then j + 1 else j)
    requires start <= |s| && DigitRun(s, start) == n && n > 0
    ensures StoiDigitsStart(s) == start
    ensures DigitRun(s, StoiDigitsStart(s)) == n
    ensures StoiValue(s) == if s[j] == '-' then -(DigitsValue(s[start..start + n]) as int)
                            else DigitsValue(s[start..start + n])
  {
  }

  /** The pieces of `ws + sign + ds + tail`, as the two lemmas below take them. */
  lemma {:induction false} SignedParts(s: string, ws: string, sign: string, ds: string, tail: string, rest: string)
    requires s == ws + sign + ds + tail && rest == sign + ds + tail
    requires |sign| <= 1 && |ds| > 0
    ensures s == ws + rest && |rest| > 0
    ensures rest[0] == if sign == "" then ds[0] else sign[0]
    ensures s[|ws| + |sign|..] == ds + tail
  {
    assert s[|ws|..] == rest;
    assert rest[|sign|..] == ds + tail;
  }

  /** White space followed by a non-space is skipped exactly. */
  lemma {:induction false} SkipSpaceOver(s: string, ws: string, rest: string)
    requires s == ws + rest
    requires forall k :: 0 <= k < |ws| ==> IsSpace(ws[k])
    requires |rest| > 0 && !IsSpace(rest[0])
    ensures SkipSpace(s, 0) == |ws|
  {
    assert forall k :: 0 <= k < |ws| ==> s[k] == ws[k];
    assert s[|ws|] == rest[0];
  }

  /** A digit run followed by a non-digit tail, from `start` on, is read whole. */
  lemma {:induction false} DigitsBefore(s: string, start: nat, ds: string, tail: string)
    requires start <= |s| && s[start..] == ds + tail
    requires AllDigits(ds)
    requires |tail| == 0 || !IsDigit(tail[0])
    ensures DigitRun(s, start) == |ds| && s[start..start + |ds|] == ds
  {
    DigitRunShift(s, start);
    DigitRunOfDigits(ds, tail);
    assert s[start..start + |ds|] == (ds + tail)[0..|ds|];
  }

  /**
   * `std::stoi` skips leading white space and stops at the first non-digit:
   * the decimal text of every `int`, after any white space and before any
   * tail that does not start with a digit, reads back as that `int`.
   */
  lemma {:induction false} StoiReadsInt(ws: string, n: int, tail: string)
    requires forall k :: 0 <= k < |ws| ==> IsSpace(ws[k])
    requires InIntRange(n)
    requires |tail| == 0 || !IsDigit(tail[0])
    ensures StoiDefined(ws + IntToDecimal(n) + tail)
    ensures Stoi(ws + IntToDecimal(n) + tail) == n
  {
    var m: nat := if n < 0 then -n else n;
    var sign := if n < 0 then "-" else "";
    var ds := NatToDecimal(m);
    assert IntToDecimal(n) == sign + ds;
    Regroup(ws, sign, ds, tail);
    StoiOfParts(ws + IntToDecimal(n) + tail, ws, sign, ds, tail);
    NatDecimalRoundTrip(m);
  }

  /** Concatenation regrouped. */
  lemma Regroup(a: string, b: string, c: string, d: string)
    ensures a + (b + c) + d == a + b + c + d
  {
  }

  /** An explicit '+' before the digits is accepted and changes nothing. */
  lemma {:induction false} StoiReadsPlus(ws: string, n: nat, tail: string)
    requires forall k :: 0 <= k < |ws| ==> IsSpace(ws[k])
    requires n <= IntMax
    requires |tail| == 0 || !IsDigit(tail[0])
    ensures StoiDefined(ws + "+" + NatToDecimal(n) + tail)
    ensures Stoi(ws + "+" + NatToDecimal(n) + tail) == n
  {
    NatDecimalRoundTrip(n);
    StoiOfParts(ws + "+" + NatToDecimal(n) + tail, ws, "+", NatToDecimal(n), tail);
  }

  // ------------------------------------------------------------ std::format

  /** A piece of a `std::format` template: literal text, or a "{}" placeholder. */
  datatype Piece = Lit(text: string) | Hole

  /**
   * `std::format` from piece `i` on, with argument `j` next: literal text is
   * copied and each placeholder takes the next argument, already rendered as
   * text. The templates modelled have no escapes and no format specifications.
   */
  function FormatFrom(template: seq<Piece>, i: nat, args: seq<string>, j: nat): string
    decreases |template| - i
  {
    if i >= |template| then ""
    else match template[i]
      case Lit(text) => text + FormatFrom(template, i + 1, args, j)
      case Hole => (if j < |args| then args[j] else "") + FormatFrom(template, i + 1, args, j + 1)
  }

  function Format(template: seq<Piece>, args: seq<string>): string {
    FormatFrom(template, 0, args, 0)
  }

  /** A template "<lit>{}": the literal followed by the one argument. */
  lemma FormatOne(lit: string, arg: string)
    ensures Format([Lit(lit), Hole], [arg]) == lit + arg
  {
    assert FormatFrom([Lit(lit), Hole], 1, [arg], 0) == arg + "";
  }
}

=== FILE: try_loop.dfy ===
/**
 * The try-loop demo: a composite action that keeps the last result, a
 * `MultiRunner` over an intrusive auto-unlink list of updaters, and the
 * `SimpleRunner` that drives it for three frames. Updaters are identified by
 * their id; what they do is recorded as an event trace.
 */
module TryLoop {

  /** `CompositeAction::operator()`: every action is called, in order; the
      last one's result wins, and with no actions the value-initialised one. */
  method CompositeInvoke<A, R>(actions: seq<A -> R>, args: A, zero: R) returns (result: R, called: seq<nat>)
    ensures called == seq(|actions|, i => i)
    ensures |actions| == 0 ==> result == zero
    ensures |actions| > 0 ==> result == actions[|actions| - 1](args)
  {
    result := zero;
    called := [];
    var i := 0;
    while i < |actions|
      invariant 0 <= i <= |actions|
      invariant called == seq(i, k => k)
      invariant i == 0 ==> result == zero
      invariant i > 0 ==> result == actions[i - 1](args)
    {
      result := actions[i](args);
      called := called + [i];
      i := i + 1;
    }
  }

  /** Frame lengths in hundredths of a second (the demo only uses multiples of 0.01). */
  type Elapsed = int

  datatype Event =
    | Start(id: nat)
    | Update(id: nat, elapsed: Elapsed)
    | Complete(id: nat)
    | Note(text: string)

  /** A `MultiRunner`: its linked items, in list order, and whether it runs. */
  datatype Multi = Multi(items: seq<nat>, running: bool)

  predicate Valid(m: Multi) {
    forall i, j :: 0 <= i < j < |m.items| ==> m.items[i] != m.items[j]
  }

  function StartAll(items: seq<nat>): (es: seq<Event>)
    ensures |es| == |items| && forall i :: 0 <= i < |items| ==> es[i] == Start(items[i])
  {
    seq(|items|, i requires 0 <= i < |items| => Start(items[i]))
  }

  function UpdateAll(items: seq<nat>, elapsed: Elapsed): (es: seq<Event>)
    ensures |es| == |items| && forall i :: 0 <= i < |items| ==> es[i] == Update(items[i], elapsed)
  {
    seq(|items|, i requires 0 <= i < |items| => Update(items[i], elapsed))
  }

  function CompleteAll(items: seq<nat>): (es: seq<Event>)
    ensures |es| == |items| && forall i :: 0 <= i < |items| ==> es[i] == Complete(items[i])
  {
    seq(|items|, i requires 0 <= i < |items| => Complete(items[i]))
  }

  /** The list without `id`; `WithoutAppend` shows the order of the rest is kept. */
  function Without(items: seq<nat>, id: nat): (r: seq<nat>)
    ensures forall x :: x in r <==> x in items && x != id
    ensures |r| <= |items|
    decreases |items|
  {
    if |items| == 0 then []
    else if items[0] == id then Without(items[1..], id)
    else [items[0]] + Without(items[1..], id)
  }

  /**
   * `Add`: links the item at the back; a running runner starts it at once.
   * An item can be linked in one list only, so it must not be linked already.
   */
  function Add(m: Multi, id: nat): (r: (Multi, seq<Event>))
    requires id !in m.items
    ensures r.0.items == m.items + [id] && r.0.running == m.running
    ensures r.1 == (if m.running then [Start(id)] else [])
    ensures Valid(m) ==> Valid(r.0)
  {
    (m.(items := m.items + [id]), if m.running then [Start(id)] else [])
  }

  /** `Remove`: completes the item if running, then unlinks it. */
  function Remove(m: Multi, id: nat): (r: (Multi, seq<Event>))
    requires id in m.items
    ensures id !in r.0.items && r.0.running == m.running
    ensures forall x :: x != id ==> (x in r.0.items <==> x in m.items)
    ensures r.1 == (if m.running then [Complete(id)] else [])
  {
    (m.(items := Without(m.items, id)), if m.running then [Complete(id)] else [])
  }

  /** The auto-unlink hook: destroying a linked item drops it silently. */
  function Unlink(m: Multi, id: nat): (r: Multi)
    ensures id !in r.items && r.running == m.running
    ensures forall x :: x != id ==> (x in r.items <==> x in m.items)
  {
    m.(items := Without(m.items, id))
  }

  function MultiStart(m: Multi): (r: (Multi, seq<Event>))
    ensures r.0.running && r.0.items == m.items && r.1 == StartAll(m.items)
  {
    (m.(running := true), StartAll(m.items))
  }

  function MultiUpdate(m: Multi, elapsed: Elapsed): (r: (Multi, seq<Event>))
    ensures r.0 == m && r.1 == UpdateAll(m.items, elapsed)
  {
    (m, UpdateAll(m.items, elapsed))
  }

  function MultiComplete(m: Multi): (r: (Multi, seq<Event>))
    ensures !r.0.running && r.0.items == m.items && r.1 == CompleteAll(m.items)
  {
    (m.(running := false), CompleteAll(m.items))
  }

  /** `SimpleRunner` frames: the elapsed time of the i-th one is (i+1) hundredths. */
  const SimpleFrames: nat := 3

  /**
   * `SimpleRunner::Start` around a `MultiRunner`: start, then up to three
   * updates while its own flag (which nothing clears) is set, then the
   * base-class `Complete`, so the overriding `Complete` is not involved.
   */
  method SimpleStart(m: Multi) returns (m': Multi, trace: seq<Event>)
    ensures m'.items == m.items && !m'.running
    ensures trace == [Note("SimpleRunner Start")] + StartAll(m.items)
                     + UpdateAll(m.items, 1) + UpdateAll(m.items, 2) + UpdateAll(m.items, 3)
                     + CompleteAll(m.items) + [Note("SimpleRunner Complete")]
  {
    trace := [Note("SimpleRunner Start")];
    var running := true;
    var started := MultiStart(m);
    m' := started.0;
    trace := trace + started.1;
    var i := 0;
    while i < SimpleFrames && running
      invariant 0 <= i <= SimpleFrames && running
      invariant m'.items == m.items && m'.running
      invariant i == 0 ==> trace == [Note("SimpleRunner Start")] + StartAll(m.items)
      invariant i == 1 ==> trace == [Note("SimpleRunner Start")] + StartAll(m.items) + UpdateAll(m.items, 1)
      invariant i == 2 ==> trace == [Note("SimpleRunner Start")] + StartAll(m.items) + UpdateAll(m.items, 1) + UpdateAll(m.items, 2)
      invariant i == 3 ==> trace == [Note("SimpleRunner Start")] + StartAll(m.items) + UpdateAll(m.items, 1) + UpdateAll(m.items, 2) + UpdateAll(m.items, 3)
    {
      var updated := MultiUpdate(m', i + 1);
      m' := updated.0;
      trace := trace + updated.1;
      i := i + 1;
    }
    var completed := MultiComplete(m');
    m' := completed.0;
    trace := trace + completed.1 + [Note("SimpleRunner Complete")];
  }

  /** `SimpleRunner::Complete` (the override): a note, then the wrapped runner's `Complete`. */
  function SimpleComplete(m: Multi): (r: (Multi, seq<Event>))
    ensures !r.0.running && r.0.items == m.items
    ensures r.1 == [Note("SimpleRunner Complete Override")] + CompleteAll(m.items)
  {
    var c := MultiComplete(m);
    (c.0, [Note("SimpleRunner Complete Override")] + c.1)
  }

  /**
   * A start, an update and a complete bring a runner back to idle with its
   * items unchanged, and every item is started, updated and completed, in
   * list order, each phase over all items before the next begins.
   */
  lemma StartUpdateCompleteRestoresIdle(m: Multi, elapsed: Elapsed)
    ensures var s := MultiStart(m); var u := MultiUpdate(s.0, elapsed); var c := MultiComplete(u.0);
      c.0 == m.(running := false)
      && s.1 + u.1 + c.1 == StartAll(m.items) + UpdateAll(m.items, elapsed) + CompleteAll(m.items)
      && forall k :: 0 <= k < |m.items| ==>
           s.1[k] == Start(m.items[k]) && u.1[k] == Update(m.items[k], elapsed) && c.1[k] == Complete(m.items[k])
  {
  }

  /** The override differs from the base `Complete` only by its leading note. */
  lemma SimpleCompleteAddsNote(m: Multi)
    ensures SimpleComplete(m).0 == MultiComplete(m).0
    ensures SimpleComplete(m).1 == [Note("SimpleRunner Complete Override")] + MultiComplete(m).1
  {
  }

  /** An item added to a running runner is started at once and completed with the rest, last. */
  lemma AddedWhileRunningIsCompleted(m: Multi, id: nat)
    requires m.running && id !in m.items
    ensures Add(m, id).1 == [Start(id)]
    ensures var c := MultiComplete(Add(m, id).0).1; |c| == |m.items| + 1 && c[|c| - 1] == Complete(id)
  {
  }

  /** Adding then removing an item of an idle runner restores it and emits nothing. */
  lemma {:induction false} AddRemoveIdle(m: Multi, id: nat)
    requires Valid(m) && !m.running && id !in m.items
    ensures Remove(Add(m, id).0, id) == (m, [])
  {
    WithoutAbsent(m.items, id);
    WithoutAppend(m.items, [id], id);
    assert [id][1..] == [];
    assert Without([id], id) == [];
    assert Without(m.items + [id], id) == m.items;
  }

  /** While running, removing an item completes it, which unlinking does not. */
  lemma RemoveVersusUnlink(m: Multi, id: nat)
    requires id in m.items
    ensures Remove(m, id).0 == Unlink(m, id)
    ensures m.running ==> Complete(id) in Remove(m, id).1
  {
  }

  lemma {:induction false} WithoutAbsent(items: seq<nat>, id: nat)
    requires id !in items
    ensures Without(items, id) == items
    decreases |items|
  {
    if |items| > 0 {
      WithoutAbsent(items[1..], id);
    }
  }

  lemma {:induction false} WithoutAppend(a: seq<nat>, b: seq<nat>, id: nat)
    ensures Without(a + b, id) == Without(a, id) + Without(b, id)
    decreases |a|
  {
    if |a| == 0 {
      assert a + b == b;
    } else {
      assert (a + b)[1..] == a[1..] + b;
      WithoutAppend(a[1..], b, id);
    }
  }

  /**
   * `main`: updater 1 runs the three simple frames and completes; updater 2,
   * added to the idle runner, is never started but is updated with 1 by the
   * 0.1 s frame, and its destruction unlinks it without a `Complete`. The
   * exit code is `argc - 1`.
   */
  method RunDemo(argc: int) returns (trace: seq<Event>, m: Multi, exitCode: int)
    ensures exitCode == argc - 1
    ensures m == Multi([1], false)
    ensures trace == [Note("SimpleRunner Start"), Start(1), Update(1, 1), Update(1, 2), Update(1, 3),
                      Complete(1), Note("SimpleRunner Complete"), Update(1, 10), Update(2, 10)]
  {
    m := Multi([], false);
    var added := Add(m, 1);
    m := added.0;
    trace := added.1;
    var started;
    m, started := SimpleStart(m);
    trace := trace + started;
    var added2 := Add(m, 2);
    m := added2.0;
    trace := trace + added2.1;
    var updated := MultiUpdate(m, 10);
    trace := trace + updated.1;
    m := Unlink(m, 2);
    assert Without([1, 2], 2) == [1] + Without([2], 2);
    exitCode := argc - 1;
  }
}

=== FILE: wasm_fetch.dfy ===
/**
 * The two browser clients. `EmFetchLiteClient` hands an emscripten fetch
 * result to the waiting coroutine; `JsFetchLiteClient` does the same for a
 * string produced by a JavaScript helper. Only how a result is classified,
 * and what happens to the fetch object or result buffer, is modelled.
 */
module EmFetch {
  import opened Core
  import opened LiteClient

  /** An `emscripten_fetch_t` as the callbacks see it; `status` is an unsigned short. */
  datatype Fetch = Fetch(status: nat, data: seq<char>, numBytes: nat, responseUrl: Option<string>)

  predicate ValidFetch(f: Fetch) {
    f.status < 0x1_0000 && f.numBytes <= |f.data|
  }

  /** What the callback does, in order: deliver a result once, then close the fetch. */
  datatype Step = Deliver(result: Result<Response>) | CloseFetch

  /** The request issued: always a GET whose response is loaded into memory. */
  datatype Attr = Attr(requestMethod: string, loadToMemory: bool, url: string)

  function RequestAttr(url: string): (a: Attr)
    ensures a.requestMethod == "GET" && a.loadToMemory && a.url == url
  {
    Attr("GET", true, url)
  }

  /** The response built from a fetch: its status and its first `numBytes` bytes. */
  function ResponseOf(f: Fetch): (r: Response)
    requires ValidFetch(f)
    ensures r.statusCode == f.status && r.body == f.data[..f.numBytes]
  {
    Response(f.status, f.data[..f.numBytes])
  }

  /** The browser request uses the verb the socket clients send. */
  lemma RequestAttrMatchesSocketClients(text: string, url: Url)
    ensures RequestAttr(text).requestMethod == MakeRequest(url).verb
  {
  }

  /**
   * A response whose status fits an unsigned short survives the trip through
   * a fetch record that holds exactly its body, and bytes past `numBytes`
   * never reach the response.
   */
  lemma ResponseOfRoundTrip(r: Response, responseUrl: Option<string>, extra: seq<char>)
    requires 0 <= r.statusCode < 0x1_0000
    ensures ResponseOf(Fetch(r.statusCode, r.body, |r.body|, responseUrl)) == r
    ensures ResponseOf(Fetch(r.statusCode, r.body + extra, |r.body|, responseUrl)) == r
  {
    assert (r.body + extra)[..|r.body|] == r.body;
  }

  /** `onsuccess`: a response, whatever the status. */
  function OnSuccess(f: Fetch): (steps: seq<Step>)
    requires ValidFetch(f)
    ensures steps == [Deliver(Ok(ResponseOf(f))), CloseFetch]
  {
    [Deliver(Ok(ResponseOf(f))), CloseFetch]
  }

  /**
   * `onerror`: an HTTP error that reached a server (a status and a response
   * URL) is still a response; anything else is `not_connected`.
   */
  function OnError(f: Fetch): (steps: seq<Step>)
    requires ValidFetch(f)
    ensures |steps| == 2 && steps[0].Deliver? && steps[1] == CloseFetch
    ensures steps[0].result.Ok? <==> f.status > 0 && f.responseUrl.Some?
    ensures steps[0].result.Ok? ==> steps[0].result.value == ResponseOf(f)
    ensures steps[0].result.Err? ==> steps[0].result.error == NotConnected
  {
    if f.status > 0 && f.responseUrl.Some? then [Deliver(Ok(ResponseOf(f))), CloseFetch]
    else [Deliver(Err(NotConnected)), CloseFetch]
  }

  /** Whichever callback runs, the handler is called exactly once and the fetch is closed after it. */
  lemma DeliversOnceThenCloses(f: Fetch, succeeded: bool)
    requires ValidFetch(f)
    ensures var steps := if succeeded then OnSuccess(f) else OnError(f);
      |steps| == 2 && steps[|steps| - 1] == CloseFetch
      && forall i :: 0 <= i < |steps| - 1 ==> steps[i].Deliver?
  {
  }

  /** An error callback that carries a server response delivers what the success callback would. */
  lemma HttpErrorLikeSuccess(f: Fetch)
    requires ValidFetch(f) && f.status > 0 && f.responseUrl.Some?
    ensures OnError(f) == OnSuccess(f)
  {
  }
}

module JsFetch {
  import opened Core
  import opened LiteClient
  import Text
  import CstrView

  /** The status a JavaScript result is reported with. */
  const SimulatedStatus: int := 333
  const ResultPrefix: string := "Simulated fetch result for URL: "

  /**
   * `js_fetch`: on success a fresh NUL-terminated buffer holding the prefix
   * and the URL; on an exception, null.
   */
  function JsFetchResult(url: string, threw: bool): (r: Option<seq<char>>)
    ensures threw <==> r.None?
    ensures r.Some? ==> r.value == ResultPrefix + url + [CstrView.Nul]
  {
    if threw then None else Some(ResultPrefix + url + [CstrView.Nul])
  }

  datatype Step = Deliver(result: Result<Response>) | Free

  /**
   * `OnFetchComplete`: a buffer becomes a response with status 333 and the
   * C string as body, and is freed after the handler returns; null is
   * `not_connected` and nothing is freed.
   */
  function OnFetchComplete(buffer: Option<seq<char>>): (steps: seq<Step>)
    requires buffer.Some? ==> CstrView.Nul in buffer.value
    ensures |steps| >= 1 && steps[0].Deliver?
    ensures buffer.Some? ==> steps == [Deliver(Ok(Response(SimulatedStatus, CstrView.CString(buffer.value)))), Free]
    ensures buffer.None? ==> steps == [Deliver(Err(NotConnected))]
  {
    match buffer
    case None => [Deliver(Err(NotConnected))]
    case Some(mem) => [Deliver(Ok(Response(SimulatedStatus, CstrView.CString(mem)))), Free]
  }

  /** A buffer is freed exactly once, and only when there is one. */
  lemma FreedOnceIfPresent(buffer: Option<seq<char>>)
    requires buffer.Some? ==> CstrView.Nul in buffer.value
    ensures |set i | 0 <= i < |OnFetchComplete(buffer)| && OnFetchComplete(buffer)[i] == Free| == (if buffer.Some? then 1 else 0)
  {
    var steps := OnFetchComplete(buffer);
    if buffer.Some? {
      assert (set i | 0 <= i < |steps| && steps[i] == Free) == {1};
    } else {
      assert (set i | 0 <= i < |steps| && steps[i] == Free) == {};
    }
  }

  /** End to end: a URL without NULs comes back inside the simulated body. */
  lemma SimulatedRoundTrip(url: string)
    requires Text.NoneOf(url, {CstrView.Nul})
    ensures OnFetchComplete(JsFetchResult(url, false))
            == [Deliver(Ok(Response(SimulatedStatus, ResultPrefix + url))), Free]
    ensures OnFetchComplete(JsFetchResult(url, true)) == [Deliver(Err(NotConnected))]
  {
    var text := ResultPrefix + url;
    assert Text.NoneOf(ResultPrefix, {CstrView.Nul});
    assert Text.NoneOf(text, {CstrView.Nul});
    CstrView.CStringOfTerminated(text);
    assert ResultPrefix + url + [CstrView.Nul] == text + [CstrView.Nul];
  }
}
